=== FILE: README.md ===
# Torrentine: the REST validation layer, string utilities and torrent id registry, in Dafny

Torrentine is a BitTorrent daemon. It is built on libtorrent and serves a REST API and a web UI
from an embedded HTTP server. This project models the logic that surrounds those library
calls and proves properties of it:

- **String utilities** (`src/utility.cpp`), in `utility.dfy`:
  - `split_string`: a `std::getline` loop. `istream.dfy` models the stream it reads, with its
    eof and fail bits.
  - `split_string_to_ulong`, built on `std::stoul`.
  - `str_to_bool`: lower-case, then read with `std::boolalpha`.
  - `random_string`.
- **Request validation of the REST API** (`src/restAPI.cpp`, `include/restAPI.h`):
  - `params.dfy`: query parameters (`api_parameter`, `validate_parameter`,
    `validate_all_parameters`).
  - `error_codes.dfy`: the error-code table.
  - `rest_headers.dfy`: the Accept-Encoding test (section 5.3.4 of RFC 7231) and the CORS
    preflight handler.
  - `basic_auth.dfy`: the Basic authorization header (section 2 of RFC 7617).
  - `multipart.dfy`: the multipart/form-data reader of the upload handlers (section 5.1.1 of
    RFC 2046, section 4.2 of RFC 7578).
  - `static_files.dfy`: the path-containment test of the static-file handler.
  - `responses.dfy`: the responses the handlers build, and the `torrents_stop` and
    `torrents_upload_files` handlers.
  - `http.dfy`: the server's case-insensitive header multimap and the Content-Length framing
    of a response (section 3.3.2 of RFC 7230).
- **Torrent id registry** (`src/torrentManager.cpp`), in `registry.dfy`: the id counter, the
  ordered list of torrents reduced to their ids, the add-alert branch of `check_alerts`,
  `remove_torrent` and the all-or-nothing `stop_torrents`.
- **Legacy versions** of the registry and the REST server (`torrentManager.cpp` and
  `restAPI.cpp` at the top of the repository):
  - `legacy_registry.dfy`: the registry, with a proof of where it agrees with the current one.
  - `legacy_rest.dfy`: the DELETE `/torrent/remove` handler and the default GET handler.

The following are parameters of the model, because they are library code or outside the
process:
- libtorrent;
- base64;
- the user database;
- rapidjson;
- gzip;
- the `Content-Disposition` attribute parser;
- the file system;
- the random device.

`wrappers.dfy` and `text.dfy` hold the shared `Option`/`Result` types and the character and
decimal helpers.

## Model

| member | source | states |
|---|---|---|
| IStream.Getline | src/utility.cpp:76 | `std::getline` on a stream that is not good keeps the old target. Otherwise it returns the text up to the delimiter and consumes the delimiter. It sets eof at the end, and fail only when nothing was read. |
| IStream.GetlineN | src/restAPI.cpp:1170-1176 | `getline(buffer, n)` stores at most n-1 characters and never a newline. `gcount` counts a consumed newline. It gives exactly one of: a whole line, the end of the stream, or a full buffer with failbit set. |
| Utility.GetlineSplits | src/utility.cpp:76-78 | One successful `getline` yields the first piece of the reference split. The rest of the stream splits into the remaining pieces. |
| Utility.SplitString | src/utility.cpp:72-80 | The getline loop of `split_string` returns exactly the reference pieces `Split`. |
| Utility.SplitPiecesFree | src/utility.cpp:72-80 | No piece returned by the split contains the delimiter. |
| Utility.SplitLast | src/utility.cpp:72-80 | The last piece is the text after the last delimiter, once one trailing delimiter is dropped, or the whole of that text when it has none. |
| Utility.JoinSplit | src/utility.cpp:72-80 | Joining the pieces with the delimiter gives back the input, less one trailing delimiter. |
| Utility.SplitJoin | src/utility.cpp:72-80 | Splitting pieces joined by the delimiter gives the pieces back, provided they are free of the delimiter and the last one is non-empty. |
| Utility.SplitAppend | src/utility.cpp:76-78 | Splitting `x + delim + y` gives the pieces of `x + delim` followed by the pieces of `y`. |
| Utility.SplitExamples | src/utility.cpp:76-78 | `""` gives no pieces, `"a,"` gives `["a"]`, and `",a"` gives `["", "a"]`. |
| Utility.Stoul | src/utility.cpp:42 | A value `std::stoul` returns fits in an `unsigned long`. |
| Utility.StoulOfDigits | src/utility.cpp:42 | `std::stoul` on a non-empty digit string gives its decimal value when that fits in 64 bits, and throws otherwise. |
| Utility.StoulToDecimal | src/utility.cpp:42 | `stoul` reads back every `unsigned long` written in decimal. |
| Utility.SplitStringToUlong | src/utility.cpp:34-46 | On text of digits and commas, the result is defined iff every non-empty item fits in 64 bits. It is then the items' values, in order, with empty items skipped, whatever `delim` is. |
| Utility.SplitStringToUlongRoundTrip | src/utility.cpp:35-44 | Ids written comma-separated read back as the same ids, whatever `delim` is passed. |
| Utility.SplitStringToUlongEmpty | src/utility.cpp:40-44 | The empty text gives no ids. |
| Utility.SplitStringToUlongSkipsEmpty | src/utility.cpp:40-44 | `"1,,2"` gives `[1, 2]`. |
| Utility.ReadBoolAlpha | restAPI.cpp:107 | `>> std::boolalpha >> b` leaves `b` unwritten iff the text is empty or all white space. A true reading needs at least the four letters of "true". |
| Utility.StrToBool | src/utility.cpp:48-53 | `str_to_bool` returns an unwritten bool iff its text is empty or all white space. |
| Utility.ReadBoolAlphaMeaning | restAPI.cpp:106-107 | Read with `boolalpha` alone, a text is true iff "true" in lower case follows its leading white space. Every other text that is not all white space is false. |
| Utility.ReadBoolAlphaUpperFalse | restAPI.cpp:106-107 | "TRUE" read with `boolalpha` alone, without lower-casing, is false. |
| Utility.StrToBoolMeaning | src/utility.cpp:48-53 | `str_to_bool` leaves its bool unwritten iff the text is empty or all white space. Otherwise it is true iff the text begins with "true" in any letter case, after leading white space, and false for every other text. |
| Utility.StrToBoolIgnoresCase | src/utility.cpp:48-53 | Two texts that differ only in letter case read the same. |
| Utility.StrToBoolUpperTrue | src/utility.cpp:48-53 | "TRUE" reads as true. |
| Utility.TrueReadsTrue | src/utility.cpp:48-53 | "true" reads as true, with or without lower-casing first. |
| Utility.FalseReadsFalse | src/utility.cpp:48-53 | "false" reads as false. |
| Utility.StrToBoolMixedFalse | src/utility.cpp:48-53 | "False" reads as false. |
| Utility.RandomString | src/utility.cpp:9-17 | For non-empty `chars`, the result has length `size` (0 for a negative size). Every character is the `chars` entry its draw picks. |
| Utility.RandomStringReachesAll | src/utility.cpp:9-17 | Every string over `chars` is produced by some sequence of draws. |
| Http.Find | src/restAPI.cpp:267 | A header lookup finds nothing iff no key equals the name, ignoring case. |
| Http.FindFound | src/restAPI.cpp:267 | A value found belongs to the first entry whose key matches. |
| Http.ContentLengthFramesBody | src/restAPI.cpp:111-117 | When Content-Length carries the body length, the number it carries counts exactly the body at the end of the written message. |
| ErrorCodes.Lookup | include/restAPI.h:44-63 | `error_codes.find(code)` finds nothing iff the code is absent. A message found is that code's entry. |
| ErrorCodes.MessagesShape | include/restAPI.h:44-63 | The table holds 19 distinct codes. 4150 and 4100 carry the authorization and parameter messages. |
| ErrorCodes.SettingsCodesMissing | src/restAPI.cpp:2496 | 3270, 3280 and 3290 are looked up by handlers (also at lines 2622 and 2739) but are absent from the table. Every other handler code is present. |
| ErrorCodes.OriginalMessageKept | include/restAPI.h:44-63 | Completing the table keeps the message of every code the original holds. |
| ErrorCodes.CompleteMessagesCover | include/restAPI.h:44-63 | The table completed with the three codes answers every handler lookup. It agrees with the original on every code the original holds. |
| Params.IsParameterFormatValid | src/restAPI.cpp:1769-1785 | A text parameter is valid iff non-empty. Each other format is valid iff its own classifier accepts the value. |
| Params.FormatUsesOwnClassifier | src/restAPI.cpp:1769-1785 | The format check depends only on the classifier of the format asked for. |
| Params.AnyEqual | src/restAPI.cpp:1797-1802 | The loop over the allowed values succeeds iff the value is one of them. |
| Params.ValidateParameter | src/restAPI.cpp:1787-1803 | The check fails if the parameter is absent or badly formed. Otherwise it passes with no allowed values, and iff the value is allowed when there are some. |
| Params.CheckAll | src/restAPI.cpp:252-262 | One pass over the parameter map either updates every parameter or stops at the first one that fails. |
| Params.ValidateAllParameters | src/restAPI.cpp:232-264 | Required parameters are checked before optional ones, each group in the key order of its `std::map`, and the first failure is named. On success, found parameters take the query value and absent optional ones keep their default. |
| Params.EmptyAnswerMeansValid | src/restAPI.cpp:232-264 | With non-empty names, the answer is "" iff every parameter passed. |
| Params.ForceStopDefault | src/restAPI.cpp:369-372 | With no `force_stop` in the query, the check passes and keeps the default "false". |
| Params.ForceStopRejectsOtherValues | src/restAPI.cpp:369-376 | A `force_stop` other than "true" or "false" is named as invalid. |
| RestHeaders.AcceptsGzip | src/restAPI.cpp:266-277 | True iff there is an Accept-Encoding header and "gzip" stands between two commas (or the ends) of its value, untrimmed. |
| RestHeaders.SplitMemberIff | src/restAPI.cpp:269-273 | A non-empty delimiter-free word is a piece of the split iff it stands between delimiters of the text. |
| RestHeaders.AcceptsGzipExamples | src/restAPI.cpp:266-277 | "deflate, gzip" is refused and "deflate,gzip" under a lower-case header name is accepted. No header means no gzip. |
| RestHeaders.OptionsResponse | src/restAPI.cpp:72-117 | The preflight answer is 200 "CORS is enabled". It echoes Origin and the requested method and headers, or "" when absent, allows credentials, and carries the body's length. |
| RestHeaders.OptionsHeaders | src/restAPI.cpp:102-111 | Each of the five preflight header lines is found with the value written into it. |
| BasicAuth.DecodeBasicAuth | src/restAPI.cpp:1805-1817 | The result is "" unless the first space-separated token is exactly "Basic". Otherwise it is the base64 decode of the second token. |
| BasicAuth.GetlineTokens | src/restAPI.cpp:1806-1815 | The two `getline` calls read the first and second space-separated tokens. With no space, the second read leaves the first token in place. |
| BasicAuth.DecodeBasicAuthToken | src/restAPI.cpp:1805-1817 | "Basic " followed by a token decodes that token. |
| BasicAuth.DecodeBareScheme | src/restAPI.cpp:1810-1816 | The header "Basic" alone decodes the word "Basic" itself. |
| BasicAuth.SchemeIsCaseSensitive | src/restAPI.cpp:1811 | "basic" in lower case is refused. |
| BasicAuth.SplitCredentials | src/restAPI.cpp:1823-1830 | An empty decoded text is refused. |
| BasicAuth.SplitCredentialsRoundTrip | src/restAPI.cpp:1827-1832 | A colon-free user and non-empty colon-free password, joined by ':', split back into the two. |
| BasicAuth.SplitCredentialsAccepted | src/restAPI.cpp:1827-1832 | Accepted credentials are two colon-free pieces whose join by ':' is the decoded text, possibly with one trailing ':'. |
| BasicAuth.ColonInPasswordRejected | src/restAPI.cpp:1827-1830 | A password holding ':' is refused. |
| BasicAuth.EmptyPasswordRejected | src/restAPI.cpp:1827-1830 | "user:" is refused. |
| BasicAuth.IsAuthorizationValid | src/restAPI.cpp:1819-1832 | Authorization holds iff the credentials split into a user and password that the user check accepts. It never holds for a scheme other than "Basic". |
| BasicAuth.ValidateAuthorization | src/restAPI.cpp:1661-1670 | A request passes iff it has an Authorization header whose value is valid. |
| BasicAuth.AuthorizationOfCredentials | src/restAPI.cpp:1805-1832 | "Basic " followed by the encoding of a colon-free user, ':' and a non-empty colon-free password is valid iff the user check accepts that pair. |
| BasicAuth.ValidateAuthorizationOfCredentials | src/restAPI.cpp:1661-1670 | A request whose Authorization header carries such credentials passes iff the user check accepts them. |
| TorrentRegistry.Init | src/torrentManager.cpp:7-9 | The registry starts with no torrents and the counter at 1. The legacy constructor (torrentManager.cpp lines 5-7) does the same. |
| TorrentRegistry.GenerateTorrentId | src/torrentManager.cpp:115-117 | Returns the counter and increments it. The id is at least 1 and above every listed id, and validity is kept. The legacy version (torrentManager.cpp lines 109-113) behaves the same. |
| TorrentRegistry.Issue | src/torrentManager.cpp:115-117 | Successive ids are strictly increasing, at least the starting counter and below the final one. |
| TorrentRegistry.OnAlert | src/torrentManager.cpp:79-90 | A successful add appends one torrent with a fresh id. A failed add or any other alert changes nothing. Validity (ids unique, ordered, issued) is kept. |
| TorrentRegistry.CheckAlerts | src/torrentManager.cpp:61-109 | Over a batch of alerts, the successful adds append consecutive ids from the counter. |
| TorrentRegistry.RemoveTorrent | src/torrentManager.cpp:120-131 | Returns true iff the id is listed. Then exactly the first entry with it is erased and the others keep their order. Otherwise nothing changes. |
| TorrentRegistry.EraseShape | src/torrentManager.cpp:127 | Erasing one position shifts later entries down and keeps increasing ids increasing. |
| TorrentRegistry.RemoveAfterAdd | src/torrentManager.cpp:120-131 | Removing the torrent an add just appended finds it and restores the list. |
| TorrentRegistry.FirstMissing | src/torrentManager.cpp:139-148 | The first pass stops at the first requested id that no torrent has. |
| TorrentRegistry.PausesWhenValid | src/torrentManager.cpp:151-161 | When every id is listed, the second pass pauses each requested id exactly once, in request order. |
| TorrentRegistry.StopTorrents | src/torrentManager.cpp:135-163 | A missing id is returned with nothing paused. Otherwise 0 is returned and each id is paused once, immediately when forced. |
| TorrentRegistry.StopTorrentsZeroCollision | src/torrentManager.cpp:146-147 | A request for the unlisted id 0 returns 0, the success value, with nothing paused. |
| TorrentRegistry.StopTorrentsChecked | src/torrentManager.cpp:135-163 | The result is Stopped iff every id is listed. Otherwise it is NotFound with the first missing id. |
| TorrentRegistry.StopTorrentsAgree | src/torrentManager.cpp:135-163 | Without id 0 in the request, the checked version and `stop_torrents` as written agree. |
| LegacyRegistry.LegacyOnAlert | torrentManager.cpp:72-101 | An error alert ends the process. Every add alert, failed or not, appends a fresh id. Other alerts change nothing. |
| LegacyRegistry.LegacyCheckAlerts | torrentManager.cpp:67-102 | The batch ends the process iff it holds an error alert. Otherwise every add alert appends the next id. |
| LegacyRegistry.FailedAddDiffers | torrentManager.cpp:84-91 | On a failed add the legacy manager lists a torrent and the current one does not. |
| LegacyRegistry.LegacyAgrees | torrentManager.cpp:67-102 | Without error alerts or failed adds, the legacy and current `check_alerts` reach the same registry. |
| LegacyRegistry.RemoveTorrentLoop | torrentManager.cpp:117-129 | The iterator loop returns true iff the id is listed and erases only its first entry. Otherwise nothing changes. It agrees with the current `remove_torrent`. |
| StaticFiles.RootCheck | src/restAPI.cpp:1589-1591 | The test passes iff the root is a component-wise prefix of the path. |
| StaticFiles.ServedPathWithinRoot | src/restAPI.cpp:1592-1593 | Appending `index.html` to a directory inside the root stays inside the root. |
| StaticFiles.WebUiGet | src/restAPI.cpp:1584-1659 | The answer is 200 with the file's contents iff both paths resolve, the target is inside the root and the file reads. Otherwise it is 400 naming the request path and the reason. The length is always sent. |
| StaticFiles.SiblingOutsideRoot | src/restAPI.cpp:1589-1591 | A sibling directory whose name starts with the root's name is outside it. |
| Multipart.ParseHeaderText | src/restAPI.cpp:1160 | A written header block of well-formed fields is read back as those fields, stopping after its blank line. |
| Multipart.ParseHeader | src/restAPI.cpp:1160 | Reading the header never moves the stream back, and reading fields consumes text. A stream that is not good gives no fields. |
| Multipart.IsBoundaryLine | src/restAPI.cpp:1178-1181 | On a NUL-free line read whole, with a boundary ending in '\r', the test passes iff the line is the boundary, or the boundary with two more characters before its '\r'. |
| Multipart.BoundaryLineMeaning | src/restAPI.cpp:1178-1181 | The `strncmp` on the boundary's length minus one, the two `gcount` lengths and the '\r' test together accept exactly those two shapes of line. |
| Multipart.BoundaryAnyClosing | src/restAPI.cpp:1178-1181 | "--XYab\r" passes as a closing line for the boundary "--XY\r": the two characters are not checked to be "--". |
| Multipart.BoundaryExamples | src/restAPI.cpp:1178-1181 | The boundary test accepts the boundary line and the closing boundary line. |
| Multipart.BoundaryNearMisses | src/restAPI.cpp:1178-1181 | The test rejects a line missing its '\r' and a line differing in one character. |
| Multipart.ReadContent | src/restAPI.cpp:1168-1196 | Reading a part's content never moves the stream back. |
| Multipart.ReadContentLines | src/restAPI.cpp:1168-1196 | Plain lines followed by a boundary line are read as the lines joined by '\n'. The reader stops after the boundary. |
| Multipart.ReadContentUnterminated | src/restAPI.cpp:1170-1175 | Lines that run to the end of the body with no boundary fail the read. |
| Multipart.ReadParts | src/restAPI.cpp:1155-1196 | Reading the parts ends with 0 or 3190. |
| Multipart.Frame | src/restAPI.cpp:1147-1152 | The code is 3180 iff the body is empty, in which case no part is read. Otherwise the code is 0 or 3190. |
| Multipart.FrameRoundTrip | src/restAPI.cpp:1147-1196 | A body written from named parts with plain lines is read back as those parts, in order, ending with 0. |
| Multipart.FrameUnterminated | src/restAPI.cpp:1171-1175 | A named part cut off before its boundary ends the reading with 3190. |
| Multipart.FrameWithoutDisposition | src/restAPI.cpp:1316-1320 | A first header without Content-Disposition ends the reading with 0 and no parts. |
| Multipart.UrlFileName | src/restAPI.cpp:1258-1275 | The URL is the content with one trailing '\r' removed. With one trailing '/' also dropped, the file name is the non-empty, slash-free tail of the URL after its last '/'. The result is 3220 iff that text is empty or ends with '/'. |
| Multipart.UrlFileNameExamples | src/restAPI.cpp:1259-1275 | "h/a.t\r" names "a.t" and "h/" names "h". "\r" and "h//" are refused with 3220. |
| Multipart.DispatchPart | src/restAPI.cpp:1198-1314 | Only the four known names act. A "torrentfile" without a filename fails with 3210. With one, it fails with 3200 when the saved file is not read back and with 3240 when it does not decode; it throws when the decoded buffer is not a torrent, and otherwise adds that buffer. A magnet's or info-hash's content is used as is. An "http" part fails with 3220 without a file name, 3230 when the download fails, then 3200, 3240 or a throw as for a file, and otherwise adds the buffer. |
| Multipart.FirstStop | src/restAPI.cpp:1155-1321 | The position of the first part that fails or throws; every part before it neither fails nor throws. |
| Multipart.DispatchParts | src/restAPI.cpp:1155-1321 | The code is 0 iff no part fails or throws. Otherwise the first such part decides: its code is returned, or its exception leaves the function. The parameters collected are those the parts before it add, in order. |
| Multipart.NotATorrentThrows | src/restAPI.cpp:1198-1227 | A saved file that decodes but is not a torrent throws, and the handling ends there whatever follows. |
| Multipart.ParseRequestToAtp | src/restAPI.cpp:1142-1323 | An empty body gives 3180. The result is 0 iff the framing ended well and no part failed or threw. A non-zero code is the first failing part's, or the framing's when no part stops. An exception leaves the function iff the first part that fails or throws is one that throws. The parameters are those the parts before that point add, in order. |
| Multipart.ParseRequestRoundTrip | src/restAPI.cpp:1142-1323 | For a well-formed body, `parse_request_to_atp` acts on exactly the parts that were sent, in order. |
| Multipart.SaveRequestFiles | src/restAPI.cpp:1325-1400 | The code is 3180 iff the body is empty, in which case nothing is saved. Otherwise the code is 0 or 3190. |
| Multipart.SaveRequestFilesRoundTrip | src/restAPI.cpp:1325-1400 | For a well-formed body the code is 0 and the contents of the "file" parts are saved, in order. |
| Multipart.SaveOneFile | src/restAPI.cpp:1381-1391 | One uploaded "file" part is saved with its lines joined by '\n', and the code is 0. |
| Responses.ErrorDocument | src/restAPI.cpp:1676-1682 | An error document, for a code the table as written holds, has one `errors` entry: the code, the message the table holds for that code, then any extra members. |
| Responses.JsonHeaders | src/restAPI.cpp:384-415 | A JSON answer carries the CORS headers, Content-Encoding only when gzipped, the body length and the JSON type. |
| Responses.JsonResponse | src/restAPI.cpp:405-421 | The body is gzipped iff the client accepts gzip, and Content-Encoding says so. Content-Length is the length of the bytes sent. |
| Responses.JsonResponseReadsBack | src/restAPI.cpp:407-413 | A client that inflates gzip reads back the serialised document. |
| Responses.PlainResponse | src/restAPI.cpp:1684-1704 | An error answer is never compressed and has no Content-Type. Its Content-Length is right. |
| Responses.RespondInvalidAuthorization | src/restAPI.cpp:1672-1708 | The answer is 401 with error 4150, uncompressed, with the right length. |
| Responses.RespondInvalidParameter | src/restAPI.cpp:1728-1767 | The answer is 400 with error 4100 naming the parameter, uncompressed, with the right length. |
| Responses.StopParametersShape | src/restAPI.cpp:368-376 | The stop handler's check can only reject `force_stop`. On success `force_stop` carries the query's value or "false". |
| Responses.StopAnswer | src/restAPI.cpp:379-451 | The answer is 202 iff every id is listed or the first missing id is 0. When every id is listed each is paused once; otherwise nothing is paused. A non-202 answer is 404 naming the first missing id, which is not 0. |
| Responses.StopAnswerChecked | src/torrentManager.cpp:135-163 | Built on the checked stop: 202 iff every id is listed, and then each is paused once. Otherwise 404 naming the first missing id, with nothing paused. |
| Responses.StopAnswerAgree | src/restAPI.cpp:379-451 | Without id 0 in the request, the handler's answer is the checked answer. |
| Responses.StopAnswerZeroCollision | src/restAPI.cpp:379-399 | Stopping ids 0 and 1 with only torrent 1 listed answers 202 and pauses nothing. The checked answer is 404 naming 0. |
| Responses.StopForceStopKnown | src/restAPI.cpp:369-379 | Once the check passes, `force_stop` is "true" or "false", so `str_to_bool` writes its result. |
| Responses.TorrentsStop | src/restAPI.cpp:362-452 | Checks run in order: authorization (401), then `force_stop` (400), then the ids (`stoul` throws iff one does not fit). Then the answer is built from what `stop_torrents` returns, with `force_stop` read as a bool. |
| Responses.StopDefaultsToGraceful | src/restAPI.cpp:379 | Without `force_stop`, the torrents are paused gracefully. |
| Responses.DefaultForceStop | src/restAPI.cpp:370 | The default "false" reads as false. |
| Responses.SavedFiles | src/restAPI.cpp:1381-1390 | Each saved content gets its random name with ".torrent" appended, in order. |
| Responses.PathObjects | src/restAPI.cpp:1437-1445 | Each saved file is listed as `{"path": name}`, in order. |
| Responses.UploadAnswer | src/restAPI.cpp:1434-1493 | The answer is 200 listing the saved files iff the code is 0. Otherwise it is 404 with the framing's code. |
| Responses.TorrentsUploadFiles | src/restAPI.cpp:1402-1494 | After authorization every "file" part is saved, and the answer follows the framing's code. An empty body gives 404 and no files. |
| LegacyRest.Sized | restAPI.cpp:113-115 | A legacy answer's Content-Length is its body's length. |
| LegacyRest.RemoveHandler | restAPI.cpp:93-131 | A missing `id` or `remove_data` gives 400 "Invalid parameters". An unreadable id gives 400 "stoul". Otherwise the answer is 202 and the torrent is removed iff the id is listed, else 404 naming the id. The removal carries `remove_data` as read, unwritten when its text is empty or white space. |
| LegacyRest.RemoveDataUpperCase | restAPI.cpp:105-108 | `remove_data=TRUE` with a listed id removes the torrent but hands the session false, because the text is not lower-cased. |
| LegacyRest.RemoveDataEmptyUnwritten | restAPI.cpp:105-108 | `remove_data=` with a listed id removes the torrent and hands the session a flag that was never written. |
| LegacyRest.RemoveAddedTorrent | restAPI.cpp:105-116 | A torrent just added is removed through the handler by its decimal id, and the registry is restored. |
| LegacyRest.MissingParameterFirst | restAPI.cpp:101-102 | A missing `remove_data` is reported before the id is read, with Content-Length 18. |
| LegacyRest.DefaultResource | restAPI.cpp:169-243 | A file is served only from inside the web root. A path outside it is answered 400 naming the reason. |

## Left out

- Server threads, start and stop, logging, and the 128 KB chunked sending of static files are
  left out, because they are concurrency and I/O. A served file is modelled as one body.
- libtorrent is not modelled: sessions, handles, alerts beyond their kind, torrent status and
  resume data. A pause or a removal is recorded as the request made. Other handlers (status,
  peers, files, trackers, settings, queue, add, delete, recheck, start, logs, streaming,
  directory listing) are outside this model.
- SQLite, password hashing, base64, rapidjson serialisation, gzip and `bdecode` are library
  code. They are function parameters of the model.
- `is_text_boolean`, `is_text_int_number` and `is_text_double_number` are not part of this
  model. They are parameters (`Params.Classifiers`).
- `SimpleWeb::HttpHeader::parse` and the `Content-Disposition` attribute parser are library
  code, not part of this model. The header parser is reconstructed in
  `Multipart.ParseHeader`. The attribute parser is a parameter.
- Http.Find: the server's `CaseInsensitiveMultimap` is an unordered multimap, so with
  repeated keys `find` may return any match. The model returns the first match in entry
  order.
- TorrentRegistry.GenerateTorrentId: does not model the wrap-around of the 64-bit counter,
  because it would take 2^64 additions to reach it.
- Utility.Stoul: its contract states only the 64-bit bound. Its value on digit strings is
  stated by `Utility.StoulOfDigits`. White space, signs and the minus-sign wrap are modelled
  in the body only.
- Utility.StrToBool: when the text is empty or all white space the C++ bool is never written
  and reading it is undefined. The model returns `None` there rather than a value.
- LegacyRest.RemoveHandler: for an empty or white-space `remove_data`, the flag passed to
  `remove_torrent` is indeterminate. The model records `None` for it and does not model what
  the session then does.
- Multipart.ParseHeader: its contract bounds the stream only. The fields it reads are stated
  for well-formed header blocks by `Multipart.ParseHeaderText`.
- Multipart.ReadContent: its contract bounds the stream only. The content it reads is stated
  by `Multipart.ReadContentLines` for lines that fit the buffer, and its failure by
  `Multipart.ReadContentUnterminated`.
- Multipart.ReadParts: its contract states the codes only. The parts it reads are stated for
  well-formed bodies by `Multipart.FrameRoundTrip`.
- Utility.RandomString: the random device is replaced by the sequence of draws it would give.
- Responses.SavedFiles: the saved names are a parameter standing in for `random_string(20)`
  (src/restAPI.cpp:1382), a call that matches no declaration in include/utility.h:4. Their
  length of 20 characters is not stated.
- Multipart.DispatchPart: the SHA-1 parse of an info-hash is library code, so the content is
  kept as text. Whether `lt::torrent_info` accepts a
  decoded buffer is the parameter `isTorrent`; when it does not, the exception is `Throws`
  and then `Threw`. What the server does with that exception is not modelled.
- Multipart.ParseRequestToAtp: the parts it acts on are those `Multipart.Frame` reads; that
  they are the parts sent is stated for well-formed bodies only, by
  `Multipart.ParseRequestRoundTrip`.
- Multipart.SaveRequestFiles: its contract states the codes only. The saved contents are stated
  for well-formed bodies by `Multipart.SaveRequestFilesRoundTrip`.
- Responses.TorrentsStop: an exception the handler does not catch (`std::stoul` on an id too
  large for 64 bits) is modelled as `Thrown` with the exception's text. What the server does
  with it is not modelled.
- `enable_CORS` is the constant true, so the branches taken when it is false are not modelled.
- `include/torrentManager.h` is not followed where it has drifted from the .cpp files, for
  example in its vector-based `remove_torrent`.
- `file_to_buffer`, the Lua scripting, the configuration manager and the JavaScript front-ends
  are not part of this model.

## Findings

| source | as written | input that shows it | evidently intended | confidence | as-written member | corrected member |
|---|---|---|---|---|---|---|
| src/torrentManager.cpp:146-147 | `stop_torrents` returns the missing id, and 0 for success. An id of 0 can be requested through the `[0-9,]*` route but is never issued, so it is reported as success. | PATCH `/v1.0/torrents/0,1/stop` with torrent 1 listed: 0 is returned, 202 is answered, and nothing is paused (`Responses.StopAnswerZeroCollision`) | a missing id is reported as not found whatever its value (`Responses.StopAnswerChecked`) | medium, not executed | TorrentRegistry.StopTorrentsZeroCollision | TorrentRegistry.StopTorrentsChecked |
| src/restAPI.cpp:2496 | the settings and queue handlers call `error_codes.find(3270)` (also 3280 at line 2622 and 3290 at line 2739) and dereference the result. The table has no such codes, so `end()` is dereferenced. | any failing torrent-settings, program-settings or queue-position request | the three codes have table entries | high, not executed | ErrorCodes.SettingsCodesMissing | ErrorCodes.CompleteMessagesCover |

=== FILE: basic_auth.dfy ===
/**
 Basic authorization of the REST API (section 2 of RFC 7617): `decode_basic_auth`, the
 `user:pass` split of `is_authorization_valid`, and `validate_authorization`. The base64
 decoder (section 4 of RFC 4648) and the user-database check (SQLite lookup and password
 hash) are parameters.
 */
module BasicAuth {
  import opened Wrappers
  import opened Text
  import opened IStream
  import opened Http
  import opened Utility

  /** The text before the first space, or all of it. */
  function FirstToken(header: string): string {
    header[..IndexOf(header, ' ')]
  }

  /**
   What the second `getline(ss, s, ' ')` leaves in `s`: the text between the first and the
   second space; when the header has no space at all the stream is already at its end and
   `s` keeps the first token.
   */
  function SecondToken(header: string): string {
    var i := IndexOf(header, ' ');
    if i == |header| then header
    else
      var rest := header[i + 1..];
      rest[..IndexOf(rest, ' ')]
  }

  /**
   `decode_basic_auth`: two `getline(ss, s, ' ')` calls on the header value; the scheme
   must be exactly "Basic" (the comparison is case-sensitive), and the second token is
   base64-decoded.
   */
  function DecodeBasicAuth(header: string, base64Decode: string -> string): (r: string)
    ensures FirstToken(header) != "Basic" ==> r == []
    ensures FirstToken(header) == "Basic" ==> r == base64Decode(SecondToken(header))
  {
    var first := Getline(Open(header), ' ', []);
    GetlineTokens(header);
    if first.text != "Basic" then []
    else
      var second := Getline(first.stream, ' ', first.text);
      base64Decode(second.text)
  }

  /** The two `getline` calls read the first and the second token. */
  lemma GetlineTokens(header: string)
    ensures var first := Getline(Open(header), ' ', []);
            && first.text == FirstToken(header)
            && Getline(first.stream, ' ', first.text).text == SecondToken(header)
  {
    var i := IndexOf(header, ' ');
    var first := Getline(Open(header), ' ', []);
    if i < |header| {
      assert first.stream == Stream(header[i + 1..], false, false);
      var rest := header[i + 1..];
      if rest != [] {
        assert Getline(first.stream, ' ', first.text).text == rest[..IndexOf(rest, ' ')];
      }
    } else {
      assert first.stream.eof;
    }
  }

  /** A well-formed header decodes its credentials token. */
  lemma DecodeBasicAuthToken(token: string, base64Decode: string -> string)
    requires ' ' !in token
    ensures DecodeBasicAuth("Basic " + token, base64Decode) == base64Decode(token)
  {
    var h := "Basic " + token;
    IndexOfAfterPrefix("Basic", ' ', token);
    assert h == "Basic" + [' '] + token;
    assert h[6..] == token;
    IndexOfAbsent(token, ' ');
  }

  /** A header that is only "Basic" decodes the word "Basic" itself. */
  lemma DecodeBareScheme(base64Decode: string -> string)
    ensures DecodeBasicAuth("Basic", base64Decode) == base64Decode("Basic")
  {
    IndexOfAbsent("Basic", ' ');
  }

  /** The scheme is matched case-sensitively, although RFC 7617 compares it ignoring case. */
  lemma SchemeIsCaseSensitive(base64Decode: string -> string)
    ensures DecodeBasicAuth("basic dTpw", base64Decode) == []
  {
    assert "basic dTpw"[0] == 'b';
  }

  /**
   The `user:pass` split of `is_authorization_valid`: the decoded text must be non-empty
   and `split_string(decoded, ':')` must give exactly two pieces.
   */
  function SplitCredentials(decoded: string): (r: Option<(string, string)>)
    ensures decoded == [] ==> r.None?
  {
    if |decoded| == 0 then None
    else
      var pieces := Split(decoded, ':');
      if |pieces| != 2 then None else Some((pieces[0], pieces[1]))
  }

  /** A user and a non-empty password, both free of ':', are split back apart. */
  lemma SplitCredentialsRoundTrip(user: string, password: string)
    requires ':' !in user && ':' !in password && password != []
    ensures SplitCredentials(user + ":" + password) == Some((user, password))
  {
    SplitJoin([user, password], ':');
    assert [user, password][1..] == [password];
    assert Join([user, password], ':') == user + ":" + password;
  }

  /**
   Accepted credentials are two colon-free pieces, and the decoded text was those pieces
   joined by ':', possibly followed by one more ':'.
   */
  lemma SplitCredentialsAccepted(decoded: string)
    requires SplitCredentials(decoded).Some?
    ensures var (user, password) := SplitCredentials(decoded).value;
            && ':' !in user && ':' !in password
            && (decoded == user + ":" + password || decoded == user + ":" + password + ":")
  {
    var pieces := Split(decoded, ':');
    SplitPiecesFree(decoded, ':');
    JoinSplit(decoded, ':');
    assert pieces == [pieces[0], pieces[1]];
    assert pieces[1..] == [pieces[1]];
    assert Join(pieces, ':') == pieces[0] + ":" + pieces[1];
    if decoded[|decoded| - 1] == ':' {
      assert decoded == decoded[..|decoded| - 1] + ":";
    }
  }

  /** A password holding ':' (stricter than RFC 7617, which allows it) is refused. */
  lemma ColonInPasswordRejected(user: string, a: string, b: string)
    requires ':' !in user && ':' !in a && ':' !in b && b != []
    ensures SplitCredentials(user + ":" + a + ":" + b).None?
  {
    SplitJoin([user, a, b], ':');
    assert [a, b][1..] == [b];
    assert Join([a, b], ':') == a + ":" + b;
    assert [user, a, b][1..] == [a, b];
    assert Join([user, a, b], ':') == user + ":" + (a + ":" + b);
    assert user + ":" + a + ":" + b == user + ":" + (a + ":" + b);
  }

  /** An empty password is refused: "user:" splits into the one piece "user". */
  lemma EmptyPasswordRejected(user: string)
    requires ':' !in user
    ensures SplitCredentials(user + ":").None?
  {
    IndexOfAfterPrefix(user, ':', []);
    assert user + ":" == user + [':'] + [];
    assert (user + ":")[..|user|] == user;
    assert (user + ":")[|user| + 1..] == [];
  }

  /**
   `is_authorization_valid`: decode, split, then ask the user database whether the pair is
   a known user with that password (`checkUser`).
   */
  function IsAuthorizationValid(header: string, base64Decode: string -> string,
                                checkUser: (string, string) -> bool): (ok: bool)
    ensures ok ==> exists user, password ::
                     && SplitCredentials(DecodeBasicAuth(header, base64Decode)) == Some((user, password))
                     && checkUser(user, password)
    ensures (exists user, password ::
               && SplitCredentials(DecodeBasicAuth(header, base64Decode)) == Some((user, password))
               && checkUser(user, password)) ==> ok
    ensures FirstToken(header) != "Basic" ==> !ok
  {
    match SplitCredentials(DecodeBasicAuth(header, base64Decode))
    case None => false
    case Some(up) => checkUser(up.0, up.1)
  }

  /** `validate_authorization`: the request must carry an Authorization header that is valid. */
  function ValidateAuthorization(request: Fields, base64Decode: string -> string,
                                 checkUser: (string, string) -> bool): (ok: bool)
    ensures ok ==> Find(request, "Authorization").Some?
    ensures ok ==> IsAuthorizationValid(Find(request, "Authorization").value, base64Decode, checkUser)
    ensures (&& Find(request, "Authorization").Some?
             && IsAuthorizationValid(Find(request, "Authorization").value, base64Decode, checkUser)) ==> ok
  {
    match Find(request, "Authorization")
    case None => false
    case Some(v) => IsAuthorizationValid(v, base64Decode, checkUser)
  }

  /**
   A header "Basic " followed by the encoding of a colon-free user, ':' and a non-empty
   colon-free password is valid exactly when the user database accepts that pair.
   */
  lemma AuthorizationOfCredentials(user: string, password: string, token: string,
                                   base64Decode: string -> string, checkUser: (string, string) -> bool)
    requires ':' !in user && ':' !in password && password != []
    requires ' ' !in token && base64Decode(token) == user + ":" + password
    ensures IsAuthorizationValid("Basic " + token, base64Decode, checkUser) == checkUser(user, password)
  {
    DecodeBasicAuthToken(token, base64Decode);
    SplitCredentialsRoundTrip(user, password);
  }

  /**
   A request whose Authorization header carries such credentials passes exactly when the
   user database accepts them.
   */
  lemma ValidateAuthorizationOfCredentials(request: Fields, user: string, password: string, token: string,
                                           base64Decode: string -> string, checkUser: (string, string) -> bool)
    requires ':' !in user && ':' !in password && password != []
    requires ' ' !in token && base64Decode(token) == user + ":" + password
    requires Find(request, "Authorization") == Some("Basic " + token)
    ensures ValidateAuthorization(request, base64Decode, checkUser) == checkUser(user, password)
  {
    AuthorizationOfCredentials(user, password, token, base64Decode, checkUser);
  }
}

=== FILE: error_codes.dfy ===
/**
 The REST API's error codes: the fixed `error_codes` table of include/restAPI.h, the codes
 its handlers look up, and the table completed with the three codes those handlers use
 but the table lacks.
 */
module ErrorCodes {
  import opened Wrappers

  /** `error_codes`: the code reported in an error response, with its message. */
  const Messages: seq<(nat, string)> := [
    (4150, "invalid Authorization. Access denied"),
    (4100, "invalid parameter in query string or missing required parameter"),
    (3100, "could not stop torrent"),
    (3110, "could not remove torrent"),
    (3120, "could not start torrent"),
    (3130, "could not recheck torrent"),
    (3140, "could not get torrent files"),
    (3150, "could not get log"),
    (3160, "could not get peers"),
    (3170, "could not get status"),
    (3180, "could not find boundary in request"),
    (3190, "request format is incorrect"),
    (3200, "internal server error"),
    (3210, "could not find filename field in header"),
    (3220, "no valid torrent file HTTP URL was found"),
    (3230, "server could not download torrent file from HTTP URL"),
    (3240, "there seems to be a problem with the provided torrent file"),
    (3250, "could not get trackers"),
    (3260, "could not get session status")
  ]

  const Unauthorized: nat := 4150
  const InvalidParameter: nat := 4100
  const CouldNotStop: nat := 3100
  const NoBoundary: nat := 3180
  const BadFormat: nat := 3190
  const InternalError: nat := 3200
  const NoFilename: nat := 3210
  const NoTorrentUrl: nat := 3220
  const DownloadFailed: nat := 3230
  const BadTorrentFile: nat := 3240

  /** Every code a request handler passes to `error_codes.find` or `error_codes.at`. */
  const HandlerCodes: seq<nat> := [
    4150, 4100, 3100, 3110, 3120, 3130, 3140, 3150, 3160, 3170, 3180, 3190, 3200,
    3210, 3220, 3230, 3240, 3250, 3260, 3270, 3280, 3290
  ]

  /** The codes of the settings and queue handlers. */
  const SettingsCodes: seq<nat> := [3270, 3280, 3290]

  /** The codes of a table, in order. */
  function Codes(table: seq<(nat, string)>): (cs: seq<nat>)
    ensures |cs| == |table| && forall i | 0 <= i < |table| :: cs[i] == table[i].0
  {
    seq(|table|, i requires 0 <= i < |table| => table[i].0)
  }

  /** `table.find(code)`: the message of the entry with that code, if there is one. */
  function Lookup(table: seq<(nat, string)>, code: nat): (r: Option<string>)
    ensures r.None? <==> code !in Codes(table)
    ensures r.Some? ==> exists i | 0 <= i < |table| :: table[i] == (code, r.value)
    decreases |table|
  {
    if table == [] then None
    else if table[0].0 == code then Some(table[0].1)
    else
      var r := Lookup(table[1..], code);
      assert Codes(table) == [table[0].0] + Codes(table[1..]);
      assert forall i | 0 <= i < |table[1..]| :: table[1..][i] == table[i + 1];
      r
  }

  /** Looking up in a table extended at the end finds the old entries first. */
  lemma {:induction false} LookupAppend(a: seq<(nat, string)>, b: seq<(nat, string)>, code: nat)
    ensures Lookup(a + b, code) == if Lookup(a, code).Some? then Lookup(a, code) else Lookup(b, code)
    decreases |a|
  {
    if a == [] {
      assert a + b == b;
    } else {
      assert (a + b)[0] == a[0];
      assert (a + b)[1..] == a[1..] + b;
      LookupAppend(a[1..], b, code);
    }
  }

  /** No code appears twice. */
  predicate DistinctCodes(table: seq<(nat, string)>) {
    forall i, j | 0 <= i < j < |table| :: table[i].0 != table[j].0
  }

  /** The table as the handlers need it: the three missing codes given messages. */
  const CompleteMessages: seq<(nat, string)> := Messages + [
    (3270, "could not change torrent settings"),
    (3280, "could not change program settings"),
    (3290, "could not change queue position")
  ]

  const TableCodes: seq<nat> := [
    4150, 4100, 3100, 3110, 3120, 3130, 3140, 3150, 3160, 3170, 3180, 3190, 3200,
    3210, 3220, 3230, 3240, 3250, 3260
  ]

  lemma MessagesCodes()
    ensures Codes(Messages) == TableCodes
    ensures Codes(CompleteMessages) == TableCodes + SettingsCodes
  {
  }

  /** The table holds nineteen distinct codes, among them the two the validation layer reports. */
  lemma MessagesShape()
    ensures |Messages| == 19 && DistinctCodes(Messages)
    ensures Lookup(Messages, Unauthorized) == Some("invalid Authorization. Access denied")
    ensures Lookup(Messages, InvalidParameter) == Some("invalid parameter in query string or missing required parameter")
  {
    MessagesDistinct();
    assert Messages[0] == (Unauthorized, "invalid Authorization. Access denied");
    assert Messages[1].0 == InvalidParameter;
  }

  /** After the two validation codes the table counts up from 3100 in steps of ten. */
  lemma MessagesDistinct()
    ensures DistinctCodes(Messages)
  {
    assert forall i | 2 <= i < 19 :: Messages[i].0 == 3080 + 10 * i;
    assert Messages[0].0 == 4150 && Messages[1].0 == 4100;
  }

  /**
   The settings and queue handlers look up codes the table does not hold, so the lookup
   returns `end()` and the handler dereferences it; every other handler code is present.
   */
  lemma SettingsCodesMissing()
    ensures forall k | 0 <= k < |SettingsCodes| :: SettingsCodes[k] in HandlerCodes
    ensures forall k | 0 <= k < |SettingsCodes| :: Lookup(Messages, SettingsCodes[k]).None?
    ensures forall k | 0 <= k < |HandlerCodes| - |SettingsCodes| :: Lookup(Messages, HandlerCodes[k]).Some?
  {
    MessagesCodes();
    assert HandlerCodes == TableCodes + SettingsCodes;
    forall k | 0 <= k < |HandlerCodes| - |SettingsCodes|
      ensures Lookup(Messages, HandlerCodes[k]).Some?
    {
      assert HandlerCodes[k] == TableCodes[k];
    }
    forall k | 0 <= k < |SettingsCodes|
      ensures Lookup(Messages, SettingsCodes[k]).None?
    {
      assert SettingsCodes[k] !in TableCodes;
    }
  }

  /** The completed table answers every handler lookup and agrees with the original on its codes. */
  lemma CompleteMessagesCover()
    ensures forall k | 0 <= k < |HandlerCodes| :: Lookup(CompleteMessages, HandlerCodes[k]).Some?
    ensures forall code: nat | Lookup(Messages, code).Some? :: Lookup(CompleteMessages, code) == Lookup(Messages, code)
  {
    MessagesCodes();
    assert HandlerCodes == TableCodes + SettingsCodes;
    forall code: nat | Lookup(Messages, code).Some?
      ensures Lookup(CompleteMessages, code) == Lookup(Messages, code)
    {
      LookupAppend(Messages, CompleteMessages[|Messages|..], code);
      assert Messages + CompleteMessages[|Messages|..] == CompleteMessages;
    }
  }

  /** Completing the table keeps the message of every code the original holds. */
  lemma OriginalMessageKept(code: nat)
    requires Lookup(Messages, code).Some?
    ensures Lookup(CompleteMessages, code) == Lookup(Messages, code)
  {
    LookupAppend(Messages, CompleteMessages[|Messages|..], code);
    assert Messages + CompleteMessages[|Messages|..] == CompleteMessages;
  }

  /** A code of the original table has a message, the same in both tables. */
  lemma TableCodeKnown(code: nat)
    requires code in TableCodes
    ensures Lookup(Messages, code).Some?
    ensures Lookup(CompleteMessages, code) == Lookup(Messages, code)
  {
    MessagesCodes();
    CompleteMessagesCover();
  }

  /** The message an error response carries for a code the completed table holds. */
  function Message(code: nat): string
    requires Lookup(CompleteMessages, code).Some?
  {
    Lookup(CompleteMessages, code).value
  }
}

=== FILE: http.dfy ===
/**
 The parts of the embedded HTTP server the handlers rely on: case-insensitive header and
 query multimaps, and the response text a handler writes (status line, header lines, blank
 line, body).
 */
module Http {
  import opened Wrappers
  import opened Text

  /** A header or query multimap, as the sequence of entries a lookup visits. */
  type Fields = seq<(string, string)>

  /**
   `find(key)` on a `CaseInsensitiveMultimap`: the value of the first entry whose key equals
   `key` when ASCII letters are compared without regard to case.
   */
  function Find(fields: Fields, key: string): (r: Option<string>)
    ensures r.None? <==> forall i | 0 <= i < |fields| :: !EqualsIgnoreCase(fields[i].0, key)
    decreases |fields|
  {
    if fields == [] then None
    else if EqualsIgnoreCase(fields[0].0, key) then Some(fields[0].1)
    else
      var r := Find(fields[1..], key);
      assert forall i | 0 <= i < |fields[1..]| :: fields[1..][i] == fields[i + 1];
      r
  }

  /** A value found belongs to the first entry whose key matches. */
  lemma {:induction false} FindFound(fields: Fields, key: string) returns (i: nat)
    requires Find(fields, key).Some?
    ensures i < |fields| && EqualsIgnoreCase(fields[i].0, key) && fields[i].1 == Find(fields, key).value
    ensures forall j | 0 <= j < i :: !EqualsIgnoreCase(fields[j].0, key)
    decreases |fields|
  {
    if EqualsIgnoreCase(fields[0].0, key) {
      i := 0;
    } else {
      var i' := FindFound(fields[1..], key);
      i := i' + 1;
      forall j | 0 <= j < i ensures !EqualsIgnoreCase(fields[j].0, key) {
        if j > 0 { assert fields[j] == fields[1..][j - 1]; }
      }
    }
  }

  /** Entries whose keys do not match are skipped by a lookup. */
  lemma {:induction false} FindSkips(a: Fields, b: Fields, key: string)
    requires forall i | 0 <= i < |a| :: !EqualsIgnoreCase(a[i].0, key)
    ensures Find(a + b, key) == Find(b, key)
    decreases |a|
  {
    if a != [] {
      assert (a + b)[0] == a[0] && !EqualsIgnoreCase(a[0].0, key);
      assert (a + b)[1..] == a[1..] + b;
      FindSkips(a[1..], b, key);
      assert Find(a + b, key) == Find(a[1..] + b, key);
    } else {
      assert a + b == b;
    }
  }

  /** A lookup stops at the first entry whose key matches. */
  lemma FindFirst(a: Fields, key: string, value: string, b: Fields)
    requires forall i | 0 <= i < |a| :: !EqualsIgnoreCase(a[i].0, key)
    ensures Find(a + [(key, value)] + b, key) == Some(value)
  {
    assert a + [(key, value)] + b == a + ([(key, value)] + b);
    FindSkips(a, [(key, value)] + b, key);
  }

  /** A lookup of an entry's key finds that entry when no earlier key matches it. */
  lemma FindAt(fields: Fields, k: nat)
    requires k < |fields|
    requires forall j | 0 <= j < k :: !EqualsIgnoreCase(fields[j].0, fields[k].0)
    ensures Find(fields, fields[k].0) == Some(fields[k].1)
  {
    assert fields == fields[..k] + [(fields[k].0, fields[k].1)] + fields[k + 1..];
    FindFirst(fields[..k], fields[k].0, fields[k].1, fields[k + 1..]);
  }

  /** Header names of different lengths never match, whatever their case. */
  lemma DifferentLengths(a: string, b: string)
    requires |a| != |b|
    ensures !EqualsIgnoreCase(a, b)
  {
    assert |ToLower(a)| != |ToLower(b)|;
  }

  /** A header whose name is the only one of its length is found with its own value. */
  lemma FindByLength(fields: Fields, k: nat)
    requires k < |fields|
    requires forall j | 0 <= j < |fields| && j != k :: |fields[j].0| != |fields[k].0|
    ensures Find(fields, fields[k].0) == Some(fields[k].1)
  {
    forall j | 0 <= j < k ensures !EqualsIgnoreCase(fields[j].0, fields[k].0) {
      DifferentLengths(fields[j].0, fields[k].0);
    }
    FindAt(fields, k);
  }

  /** A key no header name has the length of is not found. */
  lemma AbsentByLength(fields: Fields, key: string)
    requires forall j | 0 <= j < |fields| :: |fields[j].0| != |key|
    ensures Find(fields, key).None?
  {
    forall j | 0 <= j < |fields| ensures !EqualsIgnoreCase(fields[j].0, key) {
      DifferentLengths(fields[j].0, key);
    }
  }

  /** A response as a handler writes it to the connection. */
  datatype Response = Response(status: string, headers: Fields, body: string)

  /** One `Name: value\r\n` header line. */
  function HeaderLine(field: (string, string)): string {
    field.0 + ": " + field.1 + "\r\n"
  }

  function HeaderBlock(headers: Fields): string
    decreases |headers|
  {
    if headers == [] then [] else HeaderLine(headers[0]) + HeaderBlock(headers[1..])
  }

  /** `"HTTP/1.1 " << status << "\r\n" << headers << "\r\n" << body` */
  function Render(resp: Response): (text: string)
    ensures |text| >= |resp.body|
    ensures text[|text| - |resp.body|..] == resp.body
  {
    var head := "HTTP/1.1 " + resp.status + "\r\n" + HeaderBlock(resp.headers) + "\r\n";
    assert (head + resp.body)[|head|..] == resp.body;
    head + resp.body
  }

  /**
   Section 3.3.2 of RFC 7230: the Content-Length header carries the body length in decimal,
   so the receiver reads exactly the body after the blank line.
   */
  predicate ContentLengthMatches(resp: Response) {
    Find(resp.headers, "Content-Length") == Some(NatToDecimal(|resp.body|))
  }

  /**
   When the Content-Length header is right, the number it carries counts exactly the last
   characters of the rendered message, and those are the body.
   */
  lemma ContentLengthFramesBody(resp: Response)
    requires ContentLengthMatches(resp)
    ensures var text := Render(resp);
            var n := DecimalValue(Find(resp.headers, "Content-Length").value);
            n <= |text| && text[|text| - n..] == resp.body
  {
    DecimalRoundTrip(|resp.body|);
  }
}

=== FILE: istream.dfy ===
/**
 The part of `std::istream` the daemon relies on: a read position over a string
 and the eof/fail state bits, with the two line readers it calls,
 `std::getline(stream, str, delim)` and `stream.getline(buffer, n)`.
 */
module IStream {
  import opened Text

  /** The unread text and the eofbit/failbit of a stream. */
  datatype Stream = Stream(rest: string, eof: bool, fail: bool)

  /** `std::stringstream ss(s)` */
  function Open(s: string): Stream {
    Stream(s, false, false)
  }

  /** `good()`: a sentry for input succeeds only on a good stream. */
  predicate Good(st: Stream) {
    !st.eof && !st.fail
  }

  /** `clear()` */
  function Clear(st: Stream): Stream {
    st.(eof := false, fail := false)
  }

  /** The stream after a read and the string the read left in its target. */
  datatype Got = Got(stream: Stream, text: string)

  /**
   `std::getline(st, str, delim)` where `str` held `previous`. When the sentry fails
   (the stream is not good) the target keeps its old value; otherwise it is erased and
   filled with the characters up to the delimiter, which is consumed and not stored.
   Reaching the end sets eofbit, and failbit too when nothing at all was extracted.
   */
  function Getline(st: Stream, delim: char, previous: string): (r: Got)
    ensures !Good(st) ==> r == Got(st.(fail := true), previous)
    ensures Good(st) ==> (r.stream.fail <==> st.rest == [])
    ensures Good(st) && !r.stream.fail ==>
              && delim !in r.text
              && |r.stream.rest| < |st.rest|
              && !r.stream.fail
              && (|| (st.rest == r.text + [delim] + r.stream.rest && !r.stream.eof)
                  || (st.rest == r.text && r.stream.rest == [] && r.stream.eof))
    ensures Good(st) && r.stream.fail ==> r.text == [] && r.stream.eof && r.stream.rest == []
  {
    if !Good(st) then Got(st.(fail := true), previous)
    else
      var i := IndexOf(st.rest, delim);
      if i < |st.rest| then
        assert st.rest == st.rest[..i] + [delim] + st.rest[i + 1..];
        Got(Stream(st.rest[i + 1..], false, false), st.rest[..i])
      else
        Got(Stream([], true, st.rest == []), st.rest)
  }

  /** The stream after `getline(buffer, n)`, the characters stored in the buffer and `gcount()`. */
  datatype GotLine = GotLine(stream: Stream, stored: string, count: nat)

  /**
   `st.getline(buffer, n)` with the default '\n' delimiter: stores at most `n - 1`
   characters; a newline met before the limit is consumed and counted in `gcount()` but
   not stored; reaching the end sets eofbit (and failbit when nothing was extracted);
   filling the buffer without meeting a newline sets failbit and leaves the rest of the
   line unread.
   */
  function GetlineN(st: Stream, n: nat): (r: GotLine)
    requires n >= 2
    ensures !Good(st) ==> r == GotLine(st.(fail := true), [], 0)
    ensures '\n' !in r.stored && |r.stored| <= n - 1
    ensures Good(st) ==>
              || (&& r.count == |r.stored| + 1 && Good(r.stream)
                  && st.rest == r.stored + "\n" + r.stream.rest)
              || (&& r.count == |r.stored| && r.stream.eof && r.stream.rest == []
                  && st.rest == r.stored)
              || (&& r.count == |r.stored| && r.count == n - 1 && !r.stream.eof && r.stream.fail
                  && st.rest == r.stored + r.stream.rest)
    ensures Good(st) && !r.stream.eof ==> |r.stream.rest| < |st.rest|
  {
    if !Good(st) then GotLine(st.(fail := true), [], 0)
    else
      var i := IndexOf(st.rest, '\n');
      if i < |st.rest| && i <= n - 1 then
        assert st.rest == st.rest[..i] + "\n" + st.rest[i + 1..];
        GotLine(Stream(st.rest[i + 1..], false, false), st.rest[..i], i + 1)
      else if |st.rest| <= n - 1 then
        GotLine(Stream([], true, st.rest == []), st.rest, |st.rest|)
      else
        assert st.rest == st.rest[..n - 1] + st.rest[n - 1..];
        GotLine(Stream(st.rest[n - 1..], false, true), st.rest[..n - 1], n - 1)
  }
}

=== FILE: legacy_registry.dfy ===
/**
 The legacy `TorrentManager` (torrentManager.cpp at the top of the repository). Its
 constructor and `generate_torrent_id` behave as the current ones; its `check_alerts` ends
 the process on an error alert and appends a torrent for every `add_torrent_alert`, and its
 `remove_torrent` is the same search written as an iterator loop.
 */
module LegacyRegistry {
  import opened Wrappers
  import opened TorrentRegistry

  /**
   One alert of the legacy `check_alerts`. A `torrent_error_alert` calls `exit(1)`, modelled
   as `None`; an `add_torrent_alert` appends a torrent with a new id without looking at its
   error; the other alerts change nothing.
   */
  function LegacyOnAlert(r: Registry, a: Alert): (r': Option<Registry>)
    ensures r'.None? <==> a == TorrentError
    ensures a.AddTorrent? ==>
              r' == Some(Registry(r.torrents + [r.greatestId], r.greatestId + 1))
    ensures a != TorrentError && !a.AddTorrent? ==> r' == Some(r)
    ensures Valid(r) && r'.Some? ==> Valid(r'.value)
  {
    match a
    case TorrentError => None
    case AddTorrent(_) =>
      var (id, r1) := GenerateTorrentId(r);
      Some(r1.(torrents := r1.torrents + [id]))
    case _ => Some(r)
  }

  /** The number of `add_torrent_alert`s, with or without an error. */
  function AddAlerts(alerts: seq<Alert>): nat {
    if alerts == [] then 0
    else (if alerts[0].AddTorrent? then 1 else 0) + AddAlerts(alerts[1..])
  }

  /**
   The legacy `check_alerts` over the popped alerts: the process ends if any alert is an
   error; otherwise every add alert appends the next id.
   */
  function LegacyCheckAlerts(r: Registry, alerts: seq<Alert>): (r': Option<Registry>)
    ensures r'.None? <==> TorrentError in alerts
    ensures r'.Some? ==> r'.value.torrents == r.torrents + Range(r.greatestId, AddAlerts(alerts))
    ensures r'.Some? ==> r'.value.greatestId == r.greatestId + AddAlerts(alerts)
    ensures Valid(r) && r'.Some? ==> Valid(r'.value)
    decreases |alerts|
  {
    if alerts == [] then
      assert r.torrents + Range(r.greatestId, 0) == r.torrents;
      Some(r)
    else
      assert alerts == [alerts[0]] + alerts[1..];
      match LegacyOnAlert(r, alerts[0])
      case None => None
      case Some(r1) =>
        var r2 := LegacyCheckAlerts(r1, alerts[1..]);
        var n := AddAlerts(alerts[1..]);
        if alerts[0].AddTorrent? then
          assert [r.greatestId] + Range(r.greatestId + 1, n) == Range(r.greatestId, n + 1);
          r2
        else
          r2
  }

  /**
   The two versions part on a failed add: the legacy manager lists a torrent for it, the
   current one does not.
   */
  lemma FailedAddDiffers(r: Registry)
    ensures LegacyOnAlert(r, AddTorrent(true)) == Some(Registry(r.torrents + [r.greatestId], r.greatestId + 1))
    ensures OnAlert(r, AddTorrent(true)) == r
  {
  }

  /** Without error alerts or failed adds, both versions reach the same registry. */
  lemma {:induction false} LegacyAgrees(r: Registry, alerts: seq<Alert>)
    requires forall k | 0 <= k < |alerts| :: alerts[k] != TorrentError && alerts[k] != AddTorrent(true)
    ensures LegacyCheckAlerts(r, alerts) == Some(CheckAlerts(r, alerts))
    decreases |alerts|
  {
    if alerts != [] {
      assert forall k | 0 <= k < |alerts[1..]| :: alerts[1..][k] == alerts[k + 1];
      LegacyAgrees(LegacyOnAlert(r, alerts[0]).value, alerts[1..]);
    }
  }

  /**
   The legacy `remove_torrent`: walks the list with an iterator, erases the first torrent
   with the id and returns true, or returns false having changed nothing.
   */
  method RemoveTorrentLoop(r: Registry, id: nat) returns (found: bool, r': Registry)
    ensures found <==> id in r.torrents
    ensures !found ==> r' == r
    ensures found ==> exists i | 0 <= i < |r.torrents| ::
                        && r.torrents[i] == id && (forall j | 0 <= j < i :: r.torrents[j] != id)
                        && r'.torrents == r.torrents[..i] + r.torrents[i + 1..]
    ensures r'.greatestId == r.greatestId
    ensures (found, r') == RemoveTorrent(r, id)
  {
    var ts := r.torrents;
    var it := 0;
    while it < |ts|
      invariant 0 <= it <= |ts|
      invariant forall j | 0 <= j < it :: ts[j] != id
    {
      if ts[it] == id {
        assert IndexOfId(ts, id) == it;
        return true, r.(torrents := ts[..it] + ts[it + 1..]);
      }
      it := it + 1;
    }
    return false, r;
  }
}

=== FILE: legacy_rest.dfy ===
/**
 The legacy REST server (restAPI.cpp at the top of the repository): the DELETE
 `/torrent/remove` handler, which reads `id` and `remove_data` from the query and answers
 with a fixed JSON text, and the default GET handler serving the web UI.
 */
module LegacyRest {
  import opened Wrappers
  import opened Text
  import opened Http
  import opened Utility
  import opened TorrentRegistry
  import opened StaticFiles

  /** A response with only a Content-Length header, as the legacy handlers write them. */
  function Sized(status: string, body: string): (resp: Response)
    ensures resp.status == status && resp.body == body
    ensures ContentLengthMatches(resp)
  {
    Response(status, [("Content-Length", NatToDecimal(|body|))], body)
  }

  /** The text of the exception thrown when a query parameter is missing. */
  const InvalidParameters: string := "Invalid parameters"

  /** What `std::stoul`'s exceptions say, whether the text is not a number or too large. */
  const StoulFailure: string := "stoul"

  /** The 202 body. */
  const RemoveAccepted: string := "{\"status\":\"An attempt to remove the torrent will be made\"}"

  /** The 404 body, naming the id as `operator<<` prints it. */
  function RemoveNotFound(id: nat): string {
    "{\"status\":\"Could not find a torrent with id: " + NatToDecimal(id) + "\"}"
  }

  /**
   What the handler does: the response, the registry after it, and the removal asked of
   the session, if any: the id, and whether its data is deleted too, which is None when
   the handler's `remove_data` was never written and so holds an indeterminate value.
   */
  datatype RemoveOutcome = RemoveOutcome(resp: Response, registry: Registry, removal: Option<(nat, Option<bool>)>)

  /**
   DELETE `/torrent/remove`. Both `id` and `remove_data` must be in the query, or the
   exception "Invalid parameters" answers 400; an id `std::stoul` cannot read answers 400
   with its exception's text; `remove_data` is read with `boolalpha`, so only a leading
   "true" sets it, and an empty or all white-space value leaves it unwritten. A known id is removed and answered 202, an unknown one 404. Every answer
   carries the length of its body.
   */
  function RemoveHandler(query: Fields, r: Registry): (out: RemoveOutcome)
    ensures ContentLengthMatches(out.resp)
    ensures Find(query, "id").None? || Find(query, "remove_data").None? ==>
              out == RemoveOutcome(Sized("400 Bad Request", InvalidParameters), r, None)
    ensures Find(query, "id").Some? && Find(query, "remove_data").Some? &&
            Stoul(Find(query, "id").value).None? ==>
              out == RemoveOutcome(Sized("400 Bad Request", StoulFailure), r, None)
    ensures Find(query, "id").Some? && Find(query, "remove_data").Some? &&
            Stoul(Find(query, "id").value).Some? ==>
              var id := Stoul(Find(query, "id").value).value;
              var removeData := ReadBoolAlpha(Find(query, "remove_data").value);
              && (out.resp.status == "202 Accepted" <==> id in r.torrents)
              && (id in r.torrents ==>
                    out == RemoveOutcome(Sized("202 Accepted", RemoveAccepted), RemoveTorrent(r, id).1,
                                         Some((id, removeData))))
              && (id !in r.torrents ==>
                    out == RemoveOutcome(Sized("404 Not Found", RemoveNotFound(id)), r, None))
    ensures out.removal.None? ==> out.registry == r
    ensures Valid(r) ==> Valid(out.registry)
  {
    if Find(query, "id").None? || Find(query, "remove_data").None? then
      RemoveOutcome(Sized("400 Bad Request", InvalidParameters), r, None)
    else
      match Stoul(Find(query, "id").value)
      case None => RemoveOutcome(Sized("400 Bad Request", StoulFailure), r, None)
      case Some(id) =>
        var removeData := ReadBoolAlpha(Find(query, "remove_data").value);
        var (found, r') := RemoveTorrent(r, id);
        if found then RemoveOutcome(Sized("202 Accepted", RemoveAccepted), r', Some((id, removeData)))
        else RemoveOutcome(Sized("404 Not Found", RemoveNotFound(id)), r, None)
  }

  /**
   A torrent just added can be removed through the handler by its id, written as
   `std::to_string` writes it; the registry is left as it was before the add.
   */
  lemma RemoveAddedTorrent(r: Registry, query: Fields)
    requires Valid(r)
    requires Find(query, "id") == Some(NatToDecimal(r.greatestId))
    requires Find(query, "remove_data") == Some("true")
    ensures r.greatestId <= ULongMax ==>
              var out := RemoveHandler(query, OnAlert(r, AddTorrent(false)));
              && out.resp == Sized("202 Accepted", RemoveAccepted)
              && out.registry.torrents == r.torrents
              && out.removal == Some((r.greatestId, Some(true)))
  {
    if r.greatestId <= ULongMax {
      var id := r.greatestId;
      var r1 := OnAlert(r, AddTorrent(false));
      StoulToDecimal(id);
      RemoveAfterAdd(r);
      TrueReadsTrue();
      assert id in r1.torrents by {
        assert r1.torrents[|r.torrents|] == id;
      }
    }
  }

  /**
   An empty `remove_data` is present, so the torrent is removed, but the flag handed to the
   session was never written.
   */
  lemma RemoveDataEmptyUnwritten()
    ensures RemoveHandler([("id", "1"), ("remove_data", "")], Registry([1], 2)).removal == Some((1, None))
  {
    var q := [("id", "1"), ("remove_data", "")];
    assert Find(q, "id") == Some("1");
    assert Find(q, "remove_data") == Some("") by {
      DifferentLengths("id", "remove_data");
    }
    assert Stoul("1") == Some(1) by {
      StoulToDecimal(1);
      assert NatToDecimal(1) == "1";
    }
  }

  /**
   The handler reads `remove_data` without lower-casing it, so "TRUE" removes the torrent
   but keeps its data.
   */
  lemma RemoveDataUpperCase()
    ensures RemoveHandler([("id", "1"), ("remove_data", "TRUE")], Registry([1], 2)).removal == Some((1, Some(false)))
  {
    var q := [("id", "1"), ("remove_data", "TRUE")];
    assert Find(q, "id") == Some("1");
    assert Find(q, "remove_data") == Some("TRUE") by {
      DifferentLengths("id", "remove_data");
    }
    assert Stoul("1") == Some(1) by {
      StoulToDecimal(1);
      assert NatToDecimal(1) == "1";
    }
    ReadBoolAlphaUpperFalse();
  }

  /** A missing parameter is reported before the id is read, whatever the other holds. */
  lemma MissingParameterFirst(id: string)
    ensures RemoveHandler([("id", id)], Registry([], 1)).resp == Sized("400 Bad Request", InvalidParameters)
    ensures Sized("400 Bad Request", InvalidParameters).headers == [("Content-Length", "18")]
  {
    assert Find([("id", id)], "remove_data").None? by {
      DifferentLengths("id", "remove_data");
    }
    assert NatToDecimal(18) == "18" by {
      assert NatToDecimal(1) == "1";
    }
  }

  /**
   The legacy default GET handler, the same test as `webUI_get`: whatever it serves is a
   file inside the web root, and a path outside the root is answered 400 naming the reason.
   */
  function DefaultResource(webRoot: Canonical, target: Canonical, readFile: Path -> Option<string>,
                           requestPath: string): (resp: Response)
    ensures ContentLengthMatches(resp)
    ensures resp.status == "200 OK" ==>
              && webRoot.Resolved? && target.Resolved?
              && WithinRoot(webRoot.path, ServedPath(target))
              && readFile(ServedPath(target)) == Some(resp.body)
    ensures webRoot.Resolved? && target.Resolved? && !WithinRoot(webRoot.path, target.path) ==>
              resp.status == "400 Bad Request" &&
              resp.body == "Could not open path " + requestPath + ": " + OutsideRoot
  {
    var resp := WebUiGet(webRoot, target, readFile, requestPath);
    if resp.status == "200 OK" then
      ServedPathWithinRoot(webRoot.path, target);
      resp
    else
      resp
  }
}

=== FILE: multipart.dfy ===
/**
 The multipart/form-data reader behind `parse_request_to_atp` and
 `save_request_files_to_disk` (section 5.1.1 of RFC 2046, section 4.2 of RFC 7578). The
 first line of the body is the boundary; each part is a header block read as
 `HttpHeader::parse` reads it, then content lines read with `getline` into a 131072-byte
 buffer until a boundary line. A body with no first line is answered 3180, a part cut off
 before its boundary 3190. The `Content-Disposition` attribute parser is a parameter.
 */
module Multipart {
  import opened Wrappers
  import opened Text
  import opened IStream
  import opened Http
  import opened Utility

  /** The size of the line buffer. */
  const BufferSize: nat := 131072

  /** `SIZE_MAX` on a 64-bit target: what `boundary.size() - 1` wraps to when the boundary is empty. */
  const SizeMax: nat := 0x1_0000_0000_0000_0000 - 1

  // ---------------------------------------------------------------------------
  // HttpHeader::parse

  /** What one header line contributes. */
  datatype HeaderLine = EndOfHeader | Skipped | Field(name: string, value: string)

  /** The position after the ':' moved past spaces, but never onto the line's last character. */
  function ValueStart(line: string, vs: nat): (r: nat)
    ensures r >= vs
    ensures vs < |line| ==> r < |line|
    decreases |line| - vs
  {
    if vs + 1 < |line| && line[vs] == ' ' then ValueStart(line, vs + 1) else vs
  }

  /**
   A line without ':' ends the header. Otherwise the name is the text before the first ':'
   and the value starts after it, past the spaces; when no character is left the line is
   skipped; a trailing '\r' is not part of the value.
   */
  function ParseHeaderLine(line: string): (h: HeaderLine)
    ensures h.EndOfHeader? <==> ':' !in line
    ensures h.Field? ==> ':' !in h.name && StartsWith(line, h.name + ":")
  {
    var p := IndexOf(line, ':');
    if p == |line| then
      IndexOfAbsent(line, ':');
      EndOfHeader
    else
      assert line[..p + 1] == line[..p] + ":";
      var vs := ValueStart(line, p + 1);
      if vs < |line| then
        Field(line[..p], line[vs..|line| - (if line[|line| - 1] == '\r' then 1 else 0)])
      else
        Skipped
  }

  /**
   `HttpHeader::parse`: reads lines with `std::getline` while a line can be read and holds
   ':'; returns the fields in order and the stream after the line that ended the header.
   */
  function ParseHeader(st: Stream): (out: (Fields, Stream))
    ensures |out.1.rest| <= |st.rest|
    ensures out.0 != [] ==> |out.1.rest| < |st.rest|
    ensures !Good(st) ==> out.0 == [] && !Good(out.1)
    decreases |st.rest|
  {
    var g := Getline(st, '\n', []);
    if g.stream.fail then ([], g.stream)
    else
      match ParseHeaderLine(g.text)
      case EndOfHeader => ([], g.stream)
      case Skipped => ParseHeader(g.stream)
      case Field(n, v) =>
        var (fs, st') := ParseHeader(g.stream);
        ([(n, v)] + fs, st')
  }

  /** A header block as a client writes it: one `name: value` line per field, each ending in CRLF. */
  function HeaderText(fields: Fields): string {
    if fields == [] then []
    else fields[0].0 + ": " + fields[0].1 + "\r\n" + HeaderText(fields[1..])
  }

  /** A field the parser gives back unchanged. */
  predicate WellFormedField(f: (string, string)) {
    && ':' !in f.0 && '\n' !in f.0 && '\n' !in f.1
    && (f.1 == [] || f.1[0] != ' ')
  }

  /** One `std::getline` on a good stream that holds a whole line. */
  lemma GetlineLine(line: string, rest: string)
    requires '\n' !in line
    ensures Getline(Stream(line + "\n" + rest, false, false), '\n', []) ==
            Got(Stream(rest, false, false), line)
  {
    IndexOfAfterPrefix(line, '\n', rest);
    assert line + "\n" + rest == line + ['\n'] + rest;
    assert (line + "\n" + rest)[..|line|] == line;
    assert (line + "\n" + rest)[|line| + 1..] == rest;
  }

  lemma FieldLine(f: (string, string))
    requires WellFormedField(f)
    ensures ParseHeaderLine(f.0 + ": " + f.1 + "\r") == Field(f.0, f.1)
  {
    var line := f.0 + ": " + f.1 + "\r";
    assert line == f.0 + [':'] + (" " + f.1 + "\r");
    IndexOfAfterPrefix(f.0, ':', " " + f.1 + "\r");
    var p := |f.0|;
    assert line[p + 1] == ' ';
    assert line[p + 2] == if f.1 == [] then '\r' else f.1[0];
    assert ValueStart(line, p + 1) == p + 2;
    assert line[..p] == f.0;
    assert line[p + 2..|line| - 1] == f.1;
  }

  /** One field line is read and the parser goes on after it. */
  lemma ParseHeaderField(f: (string, string), more: string)
    requires WellFormedField(f)
    ensures var next := ParseHeader(Stream(more, false, false));
            ParseHeader(Stream(f.0 + ": " + f.1 + "\r" + "\n" + more, false, false)) == ([f] + next.0, next.1)
  {
    var line := f.0 + ": " + f.1 + "\r";
    assert '\n' !in line;
    GetlineLine(line, more);
    FieldLine(f);
  }

  /** The blank line ends the header. */
  lemma ParseHeaderEnd(rest: string)
    ensures ParseHeader(Stream("\r" + "\n" + rest, false, false)) == ([], Stream(rest, false, false))
  {
    GetlineLine("\r", rest);
    assert ':' !in "\r";
  }

  /** A header block starts with its first field's line. */
  lemma HeaderTextCons(fields: Fields, rest: string)
    requires fields != []
    ensures HeaderText(fields) + "\r\n" + rest ==
            fields[0].0 + ": " + fields[0].1 + "\r" + "\n" + (HeaderText(fields[1..]) + "\r\n" + rest)
  {
    var f := fields[0];
    assert HeaderText(fields) == f.0 + ": " + f.1 + "\r\n" + HeaderText(fields[1..]);
  }

  /** The header parser reads back a written header block and stops after its blank line. */
  lemma {:induction false} ParseHeaderText(fields: Fields, rest: string)
    requires forall k | 0 <= k < |fields| :: WellFormedField(fields[k])
    ensures ParseHeader(Stream(HeaderText(fields) + "\r\n" + rest, false, false)) ==
            (fields, Stream(rest, false, false))
    decreases |fields|, 1
  {
    if fields == [] {
      assert HeaderText(fields) + "\r\n" + rest == "\r" + "\n" + rest;
      ParseHeaderEnd(rest);
    } else {
      ParseHeaderTextCons(fields, rest);
    }
  }

  lemma {:induction false} ParseHeaderTextCons(fields: Fields, rest: string)
    requires fields != []
    requires forall k | 0 <= k < |fields| :: WellFormedField(fields[k])
    ensures ParseHeader(Stream(HeaderText(fields) + "\r\n" + rest, false, false)) ==
            (fields, Stream(rest, false, false))
    decreases |fields|, 0
  {
    var f := fields[0];
    var more := HeaderText(fields[1..]) + "\r\n" + rest;
    HeaderTextCons(fields, rest);
    ParseHeaderField(f, more);
    assert forall k | 0 <= k < |fields[1..]| :: fields[1..][k] == fields[k + 1];
    ParseHeaderText(fields[1..], rest);
    FieldsHeadTail(fields);
  }

  lemma FieldsHeadTail(fields: Fields)
    requires fields != []
    ensures [fields[0]] + fields[1..] == fields
  {
  }

  // ---------------------------------------------------------------------------
  // Content lines

  /**
   The boundary test on a line read into the buffer: `gcount()` is at least 2 and one more
   than the boundary's length or three more (the closing boundary ends in "--"), the
   buffer's C string agrees with the boundary on the boundary's length minus one (its '\r'
   left out; with an empty boundary that length wraps to `SIZE_MAX`), and the character
   before the newline is '\r'.
   */
  predicate IsBoundaryLine(stored: string, count: nat, boundary: string): (ok: bool)
    ensures WholeLine(stored, count) && BoundaryText(boundary) ==>
              (ok <==> stored == boundary || ClosingLike(stored, boundary))
  {
    if WholeLine(stored, count) && BoundaryText(boundary) then
      BoundaryLineMeaning(stored, boundary);
      BoundaryTest(stored, count, boundary)
    else BoundaryTest(stored, count, boundary)
  }

  /** The test as `torrents_upload_files` and `parse_request_to_atp` write it. */
  predicate BoundaryTest(stored: string, count: nat, boundary: string) {
    && count >= 2
    && (count - 1 == |boundary| || count - 1 == |boundary| + 2)
    && StrnEqual(stored, boundary, if |boundary| == 0 then SizeMax else |boundary| - 1)
    && count - 2 < |stored| && stored[count - 2] == '\r'
  }

  /** A NUL-free line read whole: `gcount()` counts its newline. */
  predicate WholeLine(stored: string, count: nat) {
    '\0' !in stored && count == |stored| + 1
  }

  /** A boundary as the first line gives it: NUL-free and ending in '\r'. */
  predicate BoundaryText(boundary: string) {
    '\0' !in boundary && boundary != [] && boundary[|boundary| - 1] == '\r'
  }

  /**
   The boundary with any two characters before its '\r', as the closing boundary line
   "--" would give.
   */
  predicate ClosingLike(line: string, boundary: string)
    requires boundary != []
  {
    && |line| == |boundary| + 2
    && line[..|boundary| - 1] == boundary[..|boundary| - 1]
    && line[|line| - 1] == '\r'
  }

  /**
   On a whole line, the test accepts exactly the boundary itself and the boundary with two
   more characters before its '\r'; those two need not be "--".
   */
  lemma BoundaryLineMeaning(line: string, boundary: string)
    requires '\0' !in line && BoundaryText(boundary)
    ensures BoundaryTest(line, |line| + 1, boundary) <==> line == boundary || ClosingLike(line, boundary)
  {
    IndexOfAbsent(line, '\0');
    IndexOfAbsent(boundary, '\0');
    assert CString(line) == line && CString(boundary) == boundary;
    var n := |boundary| - 1;
    if line == boundary {
      assert line[n] == '\r';
    }
    if |line| == |boundary| && BoundaryTest(line, |line| + 1, boundary) {
      assert line[..n] == boundary[..n];
      assert line == line[..n] + [line[n]] && boundary == boundary[..n] + [boundary[n]];
    }
  }

  /**
   The inner loop: reads lines until a boundary line. A read that reaches the end fails the
   request (`None`, answered 3190). A line that ended in a newline is written without it
   and a '\n' is put before the next piece; a piece that filled the buffer is written whole
   and the rest of its line follows with no newline between them. Returns the content and
   the stream after the boundary line.
   */
  function ReadContent(st: Stream, boundary: string, content: string, newlineNext: bool)
    : (r: Option<(string, Stream)>)
    ensures r.Some? ==> |r.value.1.rest| <= |st.rest|
    decreases |st.rest|, if Good(st) then 0 else 1
  {
    var g := GetlineN(st, BufferSize);
    if g.stream.eof then None
    else if IsBoundaryLine(g.stored, g.count, boundary) then Some((content, g.stream))
    else
      var c1 := if newlineNext then content + "\n" else content;
      var written := if !g.stream.fail then g.stored[..g.count - 1] else g.stored[..g.count];
      ReadContent(Clear(g.stream), boundary, c1 + written, !g.stream.fail)
  }

  /** Lines as they are sent: each followed by '\n'. */
  function Lines(ls: seq<string>): string {
    if ls == [] then [] else ls[0] + "\n" + Lines(ls[1..])
  }

  /** A content line the reader passes through unchanged. */
  predicate PlainLine(line: string, boundary: string) {
    && '\n' !in line && |line| <= BufferSize - 1
    && !IsBoundaryLine(line, |line| + 1, boundary)
  }

  /** One buffered read of a whole line that fits the buffer. */
  lemma GetlineNLine(line: string, rest: string)
    requires '\n' !in line && |line| <= BufferSize - 1
    ensures GetlineN(Stream(line + "\n" + rest, false, false), BufferSize) ==
            GotLine(Stream(rest, false, false), line, |line| + 1)
  {
    IndexOfAfterPrefix(line, '\n', rest);
    assert line + "\n" + rest == line + ['\n'] + rest;
    assert (line + "\n" + rest)[..|line|] == line;
    assert (line + "\n" + rest)[|line| + 1..] == rest;
  }

  /** What the inner loop has written after the lines `ls`, starting from `content`. */
  function Written(ls: seq<string>, content: string, newlineNext: bool): string {
    if ls == [] then content
    else (if newlineNext then content + "\n" else content) + Join(ls, '\n')
  }

  /** A plain line is written, and a newline is owed before whatever comes next. */
  lemma ReadContentPlain(line: string, more: string, boundary: string, content: string, newlineNext: bool)
    requires PlainLine(line, boundary)
    ensures ReadContent(Stream(line + "\n" + more, false, false), boundary, content, newlineNext) ==
            ReadContent(Stream(more, false, false), boundary,
                        (if newlineNext then content + "\n" else content) + line, true)
  {
    GetlineNLine(line, more);
    assert line[..|line| + 1 - 1] == line;
  }

  /** A boundary line ends the content. */
  lemma ReadContentBoundary(b: string, rest: string, boundary: string, content: string, newlineNext: bool)
    requires '\n' !in b && |b| <= BufferSize - 1 && IsBoundaryLine(b, |b| + 1, boundary)
    ensures ReadContent(Stream(b + "\n" + rest, false, false), boundary, content, newlineNext) ==
            Some((content, Stream(rest, false, false)))
  {
    GetlineNLine(b, rest);
  }

  /** Reading at the end of the body fails. */
  lemma ReadContentEnd(boundary: string, content: string, newlineNext: bool)
    ensures ReadContent(Stream([], false, false), boundary, content, newlineNext).None?
  {
  }

  /** Written text grows by one line at a time. */
  lemma WrittenCons(ls: seq<string>, content: string, newlineNext: bool)
    requires ls != []
    ensures Written(ls, content, newlineNext) ==
            Written(ls[1..], (if newlineNext then content + "\n" else content) + ls[0], true)
  {
    if |ls| > 1 {
      JoinCons(ls[0], ls[1..], '\n');
      assert [ls[0]] + ls[1..] == ls;
    }
  }

  /** Lines followed by a boundary line start with the first line and its newline. */
  lemma LinesThen(ls: seq<string>, b: string, rest: string)
    ensures ls == [] ==> Lines(ls) + b + "\n" + rest == b + "\n" + rest
    ensures ls != [] ==> Lines(ls) + b + "\n" + rest == ls[0] + "\n" + (Lines(ls[1..]) + b + "\n" + rest)
  {
    if ls == [] {
      assert Lines(ls) + b == b;
    } else {
      var x := Lines(ls[1..]);
      assert Lines(ls) == ls[0] + "\n" + x;
      Associate(ls[0] + "\n", x, b + "\n" + rest);
      assert x + b + "\n" + rest == x + (b + "\n" + rest);
      assert Lines(ls) + b + "\n" + rest == Lines(ls) + (b + "\n" + rest);
    }
  }

  /** Concatenation regroups. */
  lemma Associate(a: string, b: string, c: string)
    ensures a + b + c == a + (b + c)
  {
  }

  /**
   Plain lines followed by a boundary line are read back joined by '\n': the newline
   that ends the last line is the one that belongs to the boundary.
   */
  lemma {:induction false} ReadContentLines(ls: seq<string>, b: string, boundary: string, rest: string,
                                            content: string, newlineNext: bool)
    requires forall k | 0 <= k < |ls| :: PlainLine(ls[k], boundary)
    requires '\n' !in b && |b| <= BufferSize - 1 && IsBoundaryLine(b, |b| + 1, boundary)
    ensures ReadContent(Stream(Lines(ls) + b + "\n" + rest, false, false), boundary, content, newlineNext) ==
            Some((Written(ls, content, newlineNext), Stream(rest, false, false)))
    decreases |ls|
  {
    LinesThen(ls, b, rest);
    if ls == [] {
      ReadContentBoundary(b, rest, boundary, content, newlineNext);
    } else {
      var more := Lines(ls[1..]) + b + "\n" + rest;
      assert PlainLine(ls[0], boundary);
      ReadContentPlain(ls[0], more, boundary, content, newlineNext);
      var c1 := (if newlineNext then content + "\n" else content) + ls[0];
      assert forall k | 0 <= k < |ls[1..]| :: ls[1..][k] == ls[k + 1];
      ReadContentLines(ls[1..], b, boundary, rest, c1, true);
      WrittenCons(ls, content, newlineNext);
    }
  }

  /** Plain lines that run to the end of the body, with no boundary after them, fail the read. */
  lemma {:induction false} ReadContentUnterminated(ls: seq<string>, boundary: string, content: string,
                                                   newlineNext: bool)
    requires forall k | 0 <= k < |ls| :: PlainLine(ls[k], boundary)
    ensures ReadContent(Stream(Lines(ls), false, false), boundary, content, newlineNext).None?
    decreases |ls|
  {
    if ls == [] {
      ReadContentEnd(boundary, content, newlineNext);
    } else {
      assert Lines(ls) == ls[0] + "\n" + Lines(ls[1..]);
      assert PlainLine(ls[0], boundary);
      ReadContentPlain(ls[0], Lines(ls[1..]), boundary, content, newlineNext);
      assert forall k | 0 <= k < |ls[1..]| :: ls[1..][k] == ls[k + 1];
      ReadContentUnterminated(ls[1..], boundary, (if newlineNext then content + "\n" else content) + ls[0], true);
    }
  }

  // ---------------------------------------------------------------------------
  // Parts

  /** A named part: its name, its `Content-Disposition` attributes and its content. */
  datatype Part = Part(name: string, attributes: Fields, content: string)

  /**
   How reading the parts ended: the named parts read, in order, and 0 when a part without
   `Content-Disposition` ended the body, 3180 when there was no boundary line, 3190 when a
   part ran into the end of the body.
   */
  datatype Framing = Framing(parts: seq<Part>, code: nat)

  /**
   The outer loop: parses a header; without `Content-Disposition` the body is over; without
   a `name` attribute the part's header is all that is consumed; otherwise the content is
   read up to the next boundary line.
   */
  function ReadParts(st: Stream, boundary: string, attributes: string -> Fields): (f: Framing)
    ensures f.code == 0 || f.code == BadFormatCode
    decreases |st.rest|
  {
    var (header, st1) := ParseHeader(st);
    match Find(header, "Content-Disposition")
    case None => Framing([], 0)
    case Some(cd) =>
      var attrs := attributes(cd);
      match Find(attrs, "name")
      case None => ReadParts(st1, boundary, attributes)
      case Some(name) =>
        match ReadContent(st1, boundary, [], false)
        case None => Framing([], BadFormatCode)
        case Some((content, st2)) =>
          var more := ReadParts(st2, boundary, attributes);
          Framing([Part(name, attrs, content)] + more.parts, more.code)
  }

  const NoBoundaryCode: nat := 3180
  const BadFormatCode: nat := 3190

  /**
   The framing shared by both readers: the first line, read with `std::getline` and so
   still holding its '\r', is the boundary; a body from which no line can be read is
   answered 3180.
   */
  function Frame(body: string, attributes: string -> Fields): (f: Framing)
    ensures f.code == NoBoundaryCode <==> body == []
    ensures f.code == 0 || f.code == NoBoundaryCode || f.code == BadFormatCode
    ensures f.code == NoBoundaryCode ==> f.parts == []
  {
    var g := Getline(Open(body), '\n', []);
    if g.stream.fail then Framing([], NoBoundaryCode)
    else ReadParts(g.stream, g.text, attributes)
  }

  /** A part as a client sends it: its `Content-Disposition` value and its content lines. */
  datatype FormPart = FormPart(disposition: string, lines: seq<string>)

  /** The boundary line that follows a part: the closing one ends in "--". */
  function BoundaryAfter(bnd: string, last: bool): string {
    bnd + (if last then "--" else "") + "\r"
  }

  /** The parts of a body after its first boundary line. */
  function Sections(bnd: string, fps: seq<FormPart>): string {
    if fps == [] then []
    else
      HeaderText([("Content-Disposition", fps[0].disposition)]) + "\r\n"
      + Lines(fps[0].lines) + BoundaryAfter(bnd, |fps| == 1) + "\n"
      + Sections(bnd, fps[1..])
  }

  /** A multipart body: the boundary line, then the parts. */
  function Body(bnd: string, fps: seq<FormPart>): string {
    bnd + "\r" + "\n" + Sections(bnd, fps)
  }

  /** A boundary the reader recognises: free of newlines and NULs, short enough for the buffer. */
  predicate GoodBoundary(bnd: string) {
    bnd != [] && '\n' !in bnd && '\0' !in bnd && |bnd| + 3 <= BufferSize - 1
  }

  /** A part the reader gives back: a named disposition and plain content lines. */
  predicate GoodPart(fp: FormPart, bnd: string, attributes: string -> Fields) {
    && WellFormedField(("Content-Disposition", fp.disposition))
    && Find(attributes(fp.disposition), "name").Some?
    && forall k | 0 <= k < |fp.lines| :: PlainLine(fp.lines[k], bnd + "\r")
  }

  /** The part the reader returns for a part sent as `fp`. */
  function Received(fp: FormPart, attributes: string -> Fields): Part
    requires Find(attributes(fp.disposition), "name").Some?
  {
    Part(Find(attributes(fp.disposition), "name").value, attributes(fp.disposition), Join(fp.lines, '\n'))
  }

  /** Every part has a `name` attribute. */
  predicate AllNamed(fps: seq<FormPart>, attributes: string -> Fields) {
    forall k | 0 <= k < |fps| :: Find(attributes(fps[k].disposition), "name").Some?
  }

  /** The parts the reader returns for parts sent as `fps`, in order. */
  function ReceivedAll(fps: seq<FormPart>, attributes: string -> Fields): (ps: seq<Part>)
    requires AllNamed(fps, attributes)
    ensures |ps| == |fps| && forall k | 0 <= k < |fps| :: ps[k] == Received(fps[k], attributes)
  {
    if fps == [] then []
    else
      assert forall k | 0 <= k < |fps[1..]| :: fps[1..][k] == fps[k + 1];
      [Received(fps[0], attributes)] + ReceivedAll(fps[1..], attributes)
  }

  /** Both boundary lines that can follow a part pass the boundary test. */
  lemma BoundaryLinesMatch(bnd: string, last: bool)
    requires GoodBoundary(bnd)
    ensures var b := BoundaryAfter(bnd, last);
            '\n' !in b && |b| <= BufferSize - 1 && IsBoundaryLine(b, |b| + 1, bnd + "\r")
  {
    var b := BoundaryAfter(bnd, last);
    var boundary := bnd + "\r";
    assert '\0' !in b;
    assert '\0' !in boundary;
    IndexOfAbsent(b, '\0');
    IndexOfAbsent(boundary, '\0');
    assert b[..|bnd|] == bnd && boundary[..|bnd|] == bnd;
    assert b[|b| - 1] == '\r';
  }

  /** A header without `Content-Disposition` ends the parts. */
  lemma ReadPartsEnd(st: Stream, boundary: string, attributes: string -> Fields)
    requires Find(ParseHeader(st).0, "Content-Disposition").None?
    ensures ReadParts(st, boundary, attributes) == Framing([], 0)
  {
  }

  /** A named part is read, and the reading goes on after its boundary line. */
  lemma ReadPartsNamed(st: Stream, boundary: string, attributes: string -> Fields, cd: string,
                       st1: Stream, content: string, st2: Stream)
    requires ParseHeader(st) == ([("Content-Disposition", cd)], st1)
    requires Find(attributes(cd), "name").Some?
    requires ReadContent(st1, boundary, [], false) == Some((content, st2))
    ensures var more := ReadParts(st2, boundary, attributes);
            ReadParts(st, boundary, attributes) ==
            Framing([Part(Find(attributes(cd), "name").value, attributes(cd), content)] + more.parts, more.code)
  {
    assert Find([("Content-Disposition", cd)], "Content-Disposition") == Some(cd);
  }

  /** A section is its header block followed by everything after the header. */
  lemma SectionText(header: string, lines: string, b: string, more: string)
    ensures header + "\r\n" + lines + b + "\n" + more == header + "\r\n" + (lines + b + "\n" + more)
  {
  }

  /** A section's header is parsed, then its content is read up to its boundary line. */
  lemma SectionReads(bnd: string, fp: FormPart, last: bool, more: string, attributes: string -> Fields)
    requires GoodBoundary(bnd) && GoodPart(fp, bnd, attributes)
    ensures var header := HeaderText([("Content-Disposition", fp.disposition)]);
            var afterHeader := Lines(fp.lines) + BoundaryAfter(bnd, last) + "\n" + more;
            && ParseHeader(Stream(header + "\r\n" + afterHeader, false, false)) ==
               ([("Content-Disposition", fp.disposition)], Stream(afterHeader, false, false))
            && ReadContent(Stream(afterHeader, false, false), bnd + "\r", [], false) ==
               Some((Join(fp.lines, '\n'), Stream(more, false, false)))
  {
    var b := BoundaryAfter(bnd, last);
    var afterHeader := Lines(fp.lines) + b + "\n" + more;
    ParseHeaderText([("Content-Disposition", fp.disposition)], afterHeader);
    BoundaryLinesMatch(bnd, last);
    ReadContentLines(fp.lines, b, bnd + "\r", more, [], false);
    assert Written(fp.lines, [], false) == Join(fp.lines, '\n');
  }

  /** One section: its header and its content lines are read, up to its boundary line. */
  lemma ReadSection(bnd: string, fp: FormPart, last: bool, more: string, attributes: string -> Fields)
    requires GoodBoundary(bnd) && GoodPart(fp, bnd, attributes)
    ensures var st := Stream(HeaderText([("Content-Disposition", fp.disposition)]) + "\r\n"
                             + Lines(fp.lines) + BoundaryAfter(bnd, last) + "\n" + more, false, false);
            var rest := ReadParts(Stream(more, false, false), bnd + "\r", attributes);
            ReadParts(st, bnd + "\r", attributes) ==
            Framing([Received(fp, attributes)] + rest.parts, rest.code)
  {
    var header := HeaderText([("Content-Disposition", fp.disposition)]);
    var afterHeader := Lines(fp.lines) + BoundaryAfter(bnd, last) + "\n" + more;
    SectionText(header, Lines(fp.lines), BoundaryAfter(bnd, last), more);
    SectionReads(bnd, fp, last, more, attributes);
    ReadPartsNamed(Stream(header + "\r\n" + afterHeader, false, false), bnd + "\r", attributes, fp.disposition,
                   Stream(afterHeader, false, false), Join(fp.lines, '\n'), Stream(more, false, false));
  }

  /** The parts after the first are good when all are. */
  lemma GoodPartsTail(bnd: string, fps: seq<FormPart>, attributes: string -> Fields)
    requires fps != []
    requires forall k | 0 <= k < |fps| :: GoodPart(fps[k], bnd, attributes)
    ensures forall k | 0 <= k < |fps[1..]| :: GoodPart(fps[1..][k], bnd, attributes)
  {
    assert forall k | 0 <= k < |fps[1..]| :: fps[1..][k] == fps[k + 1];
  }

  lemma {:induction false} ReadSections(bnd: string, fps: seq<FormPart>, attributes: string -> Fields)
    requires GoodBoundary(bnd)
    requires forall k | 0 <= k < |fps| :: GoodPart(fps[k], bnd, attributes)
    ensures AllNamed(fps, attributes)
    ensures ReadParts(Stream(Sections(bnd, fps), false, false), bnd + "\r", attributes) ==
            Framing(ReceivedAll(fps, attributes), 0)
    decreases |fps|
  {
    if fps == [] {
      ReadPartsEnd(Stream([], false, false), bnd + "\r", attributes);
    } else {
      var more := Sections(bnd, fps[1..]);
      assert GoodPart(fps[0], bnd, attributes);
      ReadSection(bnd, fps[0], |fps| == 1, more, attributes);
      GoodPartsTail(bnd, fps, attributes);
      ReadSections(bnd, fps[1..], attributes);
    }
  }

  /** The first line is taken as the boundary and the parts are read after it. */
  lemma FrameFirstLine(first: string, rest: string, attributes: string -> Fields)
    requires '\n' !in first
    ensures Frame(first + "\n" + rest, attributes) == ReadParts(Stream(rest, false, false), first, attributes)
  {
    GetlineLine(first, rest);
  }

  /**
   Round trip: a body written from parts with plain content lines is read back as those
   parts, in order, each with its lines joined by '\n', and the reading ends with 0.
   */
  lemma FrameRoundTrip(bnd: string, fps: seq<FormPart>, attributes: string -> Fields)
    requires GoodBoundary(bnd)
    requires forall k | 0 <= k < |fps| :: GoodPart(fps[k], bnd, attributes)
    ensures AllNamed(fps, attributes)
    ensures Frame(Body(bnd, fps), attributes) == Framing(ReceivedAll(fps, attributes), 0)
  {
    BoundaryLineFree(bnd);
    FrameFirstLine(bnd + "\r", Sections(bnd, fps), attributes);
    ReadSections(bnd, fps, attributes);
  }

  lemma BoundaryLineFree(bnd: string)
    requires GoodBoundary(bnd)
    ensures '\n' !in bnd + "\r"
  {
  }

  /** A named part cut off before its boundary line fails the reading. */
  lemma ReadPartsCutOff(st: Stream, boundary: string, attributes: string -> Fields, cd: string, st1: Stream)
    requires ParseHeader(st) == ([("Content-Disposition", cd)], st1)
    requires Find(attributes(cd), "name").Some?
    requires ReadContent(st1, boundary, [], false).None?
    ensures ReadParts(st, boundary, attributes) == Framing([], BadFormatCode)
  {
    assert Find([("Content-Disposition", cd)], "Content-Disposition") == Some(cd);
  }

  /** A named part whose content runs to the end of the body, with no boundary, is answered 3190. */
  lemma FrameUnterminated(bnd: string, fp: FormPart, attributes: string -> Fields)
    requires GoodBoundary(bnd) && GoodPart(fp, bnd, attributes)
    ensures Frame(bnd + "\r\n" + HeaderText([("Content-Disposition", fp.disposition)]) + "\r\n" +
                  Lines(fp.lines), attributes) == Framing([], BadFormatCode)
  {
    var header := HeaderText([("Content-Disposition", fp.disposition)]);
    var tail := header + "\r\n" + Lines(fp.lines);
    FirstLineText(bnd, header, Lines(fp.lines));
    FrameFirstLine(bnd + "\r", tail, attributes);
    UnterminatedParts(bnd, fp, attributes);
  }

  /** A boundary line ending in CR LF, then a header block and its blank line. */
  lemma FirstLineText(bnd: string, header: string, body: string)
    ensures bnd + "\r\n" + header + "\r\n" + body == (bnd + "\r") + "\n" + (header + "\r\n" + body)
  {
  }

  /** After the opening boundary, a part whose content never meets a boundary is a format error. */
  lemma UnterminatedParts(bnd: string, fp: FormPart, attributes: string -> Fields)
    requires GoodBoundary(bnd) && GoodPart(fp, bnd, attributes)
    ensures ReadParts(Stream(HeaderText([("Content-Disposition", fp.disposition)]) + "\r\n" + Lines(fp.lines),
                             false, false), bnd + "\r", attributes) == Framing([], BadFormatCode)
  {
    var tail := HeaderText([("Content-Disposition", fp.disposition)]) + "\r\n" + Lines(fp.lines);
    ParseHeaderText([("Content-Disposition", fp.disposition)], Lines(fp.lines));
    ReadContentUnterminated(fp.lines, bnd + "\r", [], false);
    ReadPartsCutOff(Stream(tail, false, false), bnd + "\r", attributes, fp.disposition,
                    Stream(Lines(fp.lines), false, false));
  }


  /** A body whose first header has no `Content-Disposition` holds no parts, and reading ends with 0. */
  lemma FrameWithoutDisposition(bnd: string, fields: Fields, rest: string, attributes: string -> Fields)
    requires '\n' !in bnd
    requires forall k | 0 <= k < |fields| :: WellFormedField(fields[k])
    requires Find(fields, "Content-Disposition").None?
    ensures Frame(bnd + "\n" + (HeaderText(fields) + "\r\n" + rest), attributes) == Framing([], 0)
  {
    FrameFirstLine(bnd, HeaderText(fields) + "\r\n" + rest, attributes);
    ParseHeaderText(fields, rest);
    ReadPartsEnd(Stream(HeaderText(fields) + "\r\n" + rest, false, false), bnd, attributes);
  }

  /** The boundary test accepts the two lines a boundary can take. */
  lemma BoundaryExamples()
    ensures IsBoundaryLine("--XY\r", 6, "--XY\r")
    ensures IsBoundaryLine("--XY--\r", 8, "--XY\r")
  {
    IndexOfAbsent("--XY\r", '\0');
    IndexOfAbsent("--XY--\r", '\0');
    assert "--XY--\r"[..4] == "--XY";
  }

  /** Any two characters in place of the closing "--" pass the test. */
  lemma BoundaryAnyClosing()
    ensures IsBoundaryLine("--XYab\r", 8, "--XY\r")
  {
    assert "--XYab\r"[..4] == "--XY" == "--XY\r"[..4];
  }

  /** The boundary test rejects a line without its '\r' and a line differing in one character. */
  lemma BoundaryNearMisses()
    ensures !IsBoundaryLine("--XY", 5, "--XY\r")
    ensures !IsBoundaryLine("--XZ\r", 6, "--XY\r")
  {
    IndexOfAbsent("--XY\r", '\0');
    IndexOfAbsent("--XZ\r", '\0');
    assert CString("--XZ\r")[..4][3] == 'Z';
    assert CString("--XY\r")[..4][3] == 'Y';
  }

  // ---------------------------------------------------------------------------
  // What the two readers do with the parts

  /**
   The library calls a part leads to, as parameters: writing content to a file and reading
   it back with `file_to_buffer`, downloading a URL to a file, reading a file, whether
   `bdecode` accepts a buffer, and whether `lt::torrent_info` accepts the decoded buffer
   as a torrent (when it does not, its constructor throws).
   */
  datatype Env = Env(
    saveAndLoad: (string, string) -> Option<string>,
    download: (string, string) -> bool,
    load: string -> Option<string>,
    decodes: string -> bool,
    isTorrent: string -> bool)

  /** The torrent parameters a part produces. */
  datatype AddParams =
    | FromTorrentFile(buffer: string)
    | FromMagnet(url: string)
    | FromInfoHash(text: string)
    | FromUrl(buffer: string)

  /**
   A part's effect: an error code, nothing (an unknown name), torrent parameters, or an
   exception from `lt::torrent_info` that nothing up to `torrents_add` catches.
   */
  datatype PartOutcome = Failed(code: nat) | Ignored | Adds(params: AddParams) | Throws

  /** The outcomes that end the handling of a request's parts. */
  predicate Stops(o: PartOutcome) {
    o.Failed? || o.Throws?
  }

  const NoFilenameCode: nat := 3210
  const NoUrlCode: nat := 3220
  const DownloadCode: nat := 3230
  const InternalCode: nat := 3200
  const BadTorrentCode: nat := 3240

  /**
   The file name an "http" part's URL names: one trailing '\r' is removed, the URL is split
   on '/', and the last piece is the name; no piece, or an empty last piece, is 3220.
   */
  function UrlFileName(content: string): (r: Result<string>)
    ensures r.Err? ==> r.code == NoUrlCode
    ensures r.Ok? ==> r.value != [] && '/' !in r.value
    ensures r.Ok? ==> TailAfterDelim(DropTrailing(UrlOf(content), '/'), r.value, '/')
    ensures var u := DropTrailing(UrlOf(content), '/');
            r.Err? <==> u == [] || u[|u| - 1] == '/'
  {
    var url := UrlOf(content);
    var pieces := Split(url, '/');
    if pieces == [] then Err(NoUrlCode)
    else
      SplitPiecesFree(url, '/');
      SplitLast(url, '/');
      var name := pieces[|pieces| - 1];
      if name == [] then Err(NoUrlCode) else Ok(name)
  }

  /** The URL of an "http" part: its content with one trailing '\r' removed. */
  function UrlOf(content: string): string {
    if content != [] && content[|content| - 1] == '\r' then content[..|content| - 1] else content
  }

  /**
   A file name follows the last '/'. One trailing '/' is not a piece of its own, so "h/"
   names "h"; only an empty URL, or one whose last piece is empty like "h//", is refused.
   */
  lemma UrlFileNameExamples()
    ensures UrlFileName("h/a.t\r") == Ok("a.t")
    ensures UrlFileName("\r") == Err(NoUrlCode)
    ensures UrlFileName("h/") == Ok("h")
    ensures UrlFileName("h//") == Err(NoUrlCode)
  {
    UrlLastSegment();
    UrlEmpty();
    UrlOneTrailingSlash();
    UrlTrailingSlash();
  }

  lemma UrlEmpty()
    ensures UrlFileName("\r") == Err(NoUrlCode)
  {
    assert UrlOf("\r") == [];
  }

  lemma UrlOneTrailingSlash()
    ensures UrlFileName("h/") == Ok("h")
  {
    assert UrlOf("h/") == "h/";
    IndexOfUnique("h/", '/', 1);
    SplitUnfold("h/", '/');
    assert "h/"[..1] == "h" && "h/"[2..] == [];
    assert Split("h/", '/') == ["h"];
  }

  lemma UrlLastSegment()
    ensures UrlFileName("h/a.t\r") == Ok("a.t")
  {
    assert "h/a.t\r"[..5] == "h/a.t";
    assert IndexOf("h/a.t", '/') == 1;
    assert "h/a.t"[..1] == "h" && "h/a.t"[2..] == "a.t";
    IndexOfAbsent("a.t", '/');
    assert Split("h/a.t", '/') == ["h", "a.t"];
  }

  lemma UrlTrailingSlash()
    ensures UrlFileName("h//") == Err(NoUrlCode)
  {
    SlashPieces();
    var pieces := Split("h//", '/');
    assert pieces[|pieces| - 1] == [];
  }

  lemma SlashPieces()
    ensures Split("h//", '/') == ["h", ""]
  {
    assert IndexOf("/", '/') == 0;
    SplitFirst("/", '/');
    SplitRest("/", '/');
    assert "/"[1..] == [];
    assert Split("/", '/') == [""];
    IndexOfUnique("h//", '/', 1);
    SplitFirst("h//", '/');
    SplitRest("h//", '/');
    assert "h//"[..1] == "h" && "h//"[2..] == "/";
  }


  /**
   One named part of `parse_request_to_atp`. "torrentfile" needs a `filename` attribute
   (3210), is saved and read back (3200) and must decode (3240); "magnet" and "infohash"
   take the content as it is; "http" derives a file name (3220), downloads it (3230),
   reads it (3200) and decodes it (3240); any other name is ignored.
   */
  function DispatchPart(p: Part, env: Env): (o: PartOutcome)
    ensures o.Failed? ==> o.code in {NoFilenameCode, NoUrlCode, DownloadCode, InternalCode, BadTorrentCode}
    ensures o.Ignored? <==> p.name !in {"torrentfile", "magnet", "infohash", "http"}
    ensures p.name == "torrentfile" && Find(p.attributes, "filename").None? ==> o == Failed(NoFilenameCode)
    ensures p.name == "magnet" ==> o == Adds(FromMagnet(p.content))
    ensures o.Adds? && (o.params.FromTorrentFile? || o.params.FromUrl?) ==>
              env.decodes(o.params.buffer) && env.isTorrent(o.params.buffer)
    ensures o.Throws? ==> p.name in {"torrentfile", "http"}
    ensures p.name == "torrentfile" && Find(p.attributes, "filename").Some? ==>
              var loaded := env.saveAndLoad(Find(p.attributes, "filename").value, p.content);
              && (loaded.None? ==> o == Failed(InternalCode))
              && (loaded.Some? && !env.decodes(loaded.value) ==> o == Failed(BadTorrentCode))
              && (loaded.Some? && env.decodes(loaded.value) && !env.isTorrent(loaded.value) ==> o == Throws)
              && (loaded.Some? && env.decodes(loaded.value) && env.isTorrent(loaded.value) ==>
                    o == Adds(FromTorrentFile(loaded.value)))
    ensures p.name == "infohash" ==> o == Adds(FromInfoHash(p.content))
    ensures p.name == "http" && UrlFileName(p.content).Err? ==> o == Failed(NoUrlCode)
    ensures p.name == "http" && UrlFileName(p.content).Ok? ==>
              var filename := UrlFileName(p.content).value;
              var loaded := env.load(filename);
              && (!env.download(UrlOf(p.content), filename) ==> o == Failed(DownloadCode))
              && (env.download(UrlOf(p.content), filename) ==>
                    && (loaded.None? ==> o == Failed(InternalCode))
                    && (loaded.Some? && !env.decodes(loaded.value) ==> o == Failed(BadTorrentCode))
                    && (loaded.Some? && env.decodes(loaded.value) && !env.isTorrent(loaded.value) ==> o == Throws)
                    && (loaded.Some? && env.decodes(loaded.value) && env.isTorrent(loaded.value) ==>
                          o == Adds(FromUrl(loaded.value))))
  {
    if p.name == "torrentfile" then
      match Find(p.attributes, "filename")
      case None => Failed(NoFilenameCode)
      case Some(filename) =>
        match env.saveAndLoad(filename, p.content)
        case None => Failed(InternalCode)
        case Some(buffer) =>
          if !env.decodes(buffer) then Failed(BadTorrentCode)
          else if !env.isTorrent(buffer) then Throws
          else Adds(FromTorrentFile(buffer))
    else if p.name == "magnet" then Adds(FromMagnet(p.content))
    else if p.name == "infohash" then Adds(FromInfoHash(p.content))
    else if p.name == "http" then
      match UrlFileName(p.content)
      case Err(code) => Failed(code)
      case Ok(filename) =>
        if !env.download(UrlOf(p.content), filename) then Failed(DownloadCode)
        else
          match env.load(filename)
          case None => Failed(InternalCode)
          case Some(buffer) =>
            if !env.decodes(buffer) then Failed(BadTorrentCode)
            else if !env.isTorrent(buffer) then Throws
            else Adds(FromUrl(buffer))
    else Ignored
  }

  /**
   A saved torrent file that decodes but is not a torrent makes `lt::torrent_info` throw,
   and the exception ends the handling whatever parts follow.
   */
  lemma NotATorrentThrows(p: Part, rest: seq<Part>, env: Env, buffer: string)
    requires p.name == "torrentfile" && Find(p.attributes, "filename").Some?
    requires env.saveAndLoad(Find(p.attributes, "filename").value, p.content) == Some(buffer)
    requires env.decodes(buffer) && !env.isTorrent(buffer)
    ensures DispatchPart(p, env) == Throws
    ensures DispatchParts([p] + rest, env) == Threw
  {
    assert ([p] + rest)[0] == p;
  }

  /**
   What `parse_request_to_atp` ends with: the code it returns and the parameters it
   collected, or an exception thrown out of it.
   */
  datatype Parsed = Parsed(code: nat, params: seq<AddParams>) | Threw

  /** The position of the first part whose outcome ends the handling, or the number of parts. */
  function FirstStop(parts: seq<Part>, env: Env): (i: nat)
    ensures i <= |parts|
    ensures i < |parts| ==> Stops(DispatchPart(parts[i], env))
    ensures forall j | 0 <= j < i :: !Stops(DispatchPart(parts[j], env))
    decreases |parts|
  {
    if parts == [] then 0
    else if Stops(DispatchPart(parts[0], env)) then 0
    else
      assert forall j | 0 <= j < |parts[1..]| :: parts[1..][j] == parts[j + 1];
      1 + FirstStop(parts[1..], env)
  }

  /** Reference definition: the torrent parameters of the parts that add one, in order. */
  function AddsOf(parts: seq<Part>, env: Env): (adds: seq<AddParams>)
    ensures |adds| <= |parts|
  {
    if parts == [] then []
    else
      var o := DispatchPart(parts[0], env);
      (if o.Adds? then [o.params] else []) + AddsOf(parts[1..], env)
  }

  lemma AddsOfCons(parts: seq<Part>, n: nat, env: Env)
    requires n + 1 <= |parts|
    ensures AddsOf(parts[..n + 1], env) ==
            (if DispatchPart(parts[0], env).Adds? then [DispatchPart(parts[0], env).params] else [])
            + AddsOf(parts[1..][..n], env)
  {
    assert parts[..n + 1][1..] == parts[1..][..n];
  }

  /** The parts handled in order; the first failing or throwing part ends the handling. */
  function DispatchParts(parts: seq<Part>, env: Env): (d: Parsed)
    ensures d.Parsed? && d.code == 0 <==> FirstStop(parts, env) == |parts|
    ensures d.Parsed? && d.code != 0 ==>
              FirstStop(parts, env) < |parts| && DispatchPart(parts[FirstStop(parts, env)], env) == Failed(d.code)
    ensures d.Threw? <==>
              FirstStop(parts, env) < |parts| && DispatchPart(parts[FirstStop(parts, env)], env).Throws?
    ensures d.Parsed? ==> d.params == AddsOf(parts[..FirstStop(parts, env)], env)
    decreases |parts|
  {
    if parts == [] then Parsed(0, [])
    else
      match DispatchPart(parts[0], env)
      case Failed(code) => Parsed(code, [])
      case Throws => Threw
      case Ignored =>
        AddsOfCons(parts, FirstStop(parts[1..], env), env);
        DispatchParts(parts[1..], env)
      case Adds(a) =>
        AddsOfCons(parts, FirstStop(parts[1..], env), env);
        match DispatchParts(parts[1..], env)
        case Threw => Threw
        case Parsed(code, params) => Parsed(code, [a] + params)
  }

  /**
   `parse_request_to_atp`: the parts are handled as they are read, so a part's failure is
   answered before a later framing error could be seen; otherwise the framing's own code is
   returned. The parameters are those the parts before the first failing or throwing one add.
   */
  function ParseRequestToAtp(body: string, attributes: string -> Fields, env: Env): (r: Parsed)
    ensures body == [] ==> r == Parsed(NoBoundaryCode, [])
    ensures r.Parsed? && r.code == 0 ==>
              var f := Frame(body, attributes);
              f.code == 0 && forall k | 0 <= k < |f.parts| :: !Stops(DispatchPart(f.parts[k], env))
    ensures var f := Frame(body, attributes);
            f.code == 0 && (forall k | 0 <= k < |f.parts| :: !Stops(DispatchPart(f.parts[k], env))) ==>
              r.Parsed? && r.code == 0
    ensures var f := Frame(body, attributes);
            var i := FirstStop(f.parts, env);
            r.Parsed? && r.code != 0 ==>
              || (i < |f.parts| && DispatchPart(f.parts[i], env) == Failed(r.code))
              || (i == |f.parts| && r.code == f.code)
    ensures var f := Frame(body, attributes);
            var i := FirstStop(f.parts, env);
            r.Threw? <==> i < |f.parts| && DispatchPart(f.parts[i], env).Throws?
    ensures var f := Frame(body, attributes);
            r.Parsed? ==> r.params == AddsOf(f.parts[..FirstStop(f.parts, env)], env)
  {
    var f := Frame(body, attributes);
    var d := DispatchParts(f.parts, env);
    if d.Threw? || d.code != 0 then d else Parsed(f.code, d.params)
  }

  /** Every form a client sends as parts, read back, gives the torrent parameters of each part in turn. */
  lemma ParseRequestRoundTrip(bnd: string, fps: seq<FormPart>, attributes: string -> Fields, env: Env)
    requires GoodBoundary(bnd)
    requires forall k | 0 <= k < |fps| :: GoodPart(fps[k], bnd, attributes)
    ensures AllNamed(fps, attributes)
    ensures ParseRequestToAtp(Body(bnd, fps), attributes, env) == DispatchParts(ReceivedAll(fps, attributes), env)
  {
    FrameRoundTrip(bnd, fps, attributes);
  }

  /** The contents of the parts named "file", in order. */
  function FileContents(parts: seq<Part>): (cs: seq<string>)
    ensures |cs| <= |parts|
  {
    if parts == [] then []
    else (if parts[0].name == "file" then [parts[0].content] else []) + FileContents(parts[1..])
  }

  /**
   `save_request_files_to_disk`: every part named "file" is saved, under a random name that
   is not modelled, as it is read; the code is the framing's. Parts read before a framing
   error have been saved.
   */
  function SaveRequestFiles(body: string, attributes: string -> Fields): (out: (nat, seq<string>))
    ensures out.0 == 0 || out.0 == NoBoundaryCode || out.0 == BadFormatCode
    ensures out.0 == NoBoundaryCode <==> body == []
    ensures body == [] ==> out.1 == []
  {
    var f := Frame(body, attributes);
    (f.code, FileContents(f.parts))
  }

  /** Every form a client sends is saved part by part: each "file" part's content, in order. */
  lemma SaveRequestFilesRoundTrip(bnd: string, fps: seq<FormPart>, attributes: string -> Fields)
    requires GoodBoundary(bnd)
    requires forall k | 0 <= k < |fps| :: GoodPart(fps[k], bnd, attributes)
    ensures AllNamed(fps, attributes)
    ensures SaveRequestFiles(Body(bnd, fps), attributes) == (0, FileContents(ReceivedAll(fps, attributes)))
  {
    FrameRoundTrip(bnd, fps, attributes);
    SavedAsFramed(Body(bnd, fps), attributes, ReceivedAll(fps, attributes));
  }

  lemma SavedAsFramed(body: string, attributes: string -> Fields, parts: seq<Part>)
    requires Frame(body, attributes) == Framing(parts, 0)
    ensures SaveRequestFiles(body, attributes) == (0, FileContents(parts))
  {
  }

  /** A single uploaded file, sent as plain lines, is saved with its lines joined by '\n'. */
  lemma SaveOneFile(bnd: string, disposition: string, lines: seq<string>, attributes: string -> Fields)
    requires GoodBoundary(bnd)
    requires GoodPart(FormPart(disposition, lines), bnd, attributes)
    requires Find(attributes(disposition), "name") == Some("file")
    ensures SaveRequestFiles(Body(bnd, [FormPart(disposition, lines)]), attributes) ==
            (0, [Join(lines, '\n')])
  {
    var fps := [FormPart(disposition, lines)];
    var part := Part("file", attributes(disposition), Join(lines, '\n'));
    FrameRoundTrip(bnd, fps, attributes);
    assert ReceivedAll(fps, attributes) == [part];
    assert FileContents([part]) == [part.content] by {
      assert [part][1..] == [];
    }
  }
}

=== FILE: params.dfy ===
/**
 Query-string validation of the REST API: `api_parameter`, `api_parameter_format`,
 `is_parameter_format_valid`, `validate_parameter` and `validate_all_parameters`.
 */
module Params {
  import opened Wrappers
  import opened Http

  /** `api_parameter_format` */
  datatype ParameterFormat = Boolean | IntNumber | DoubleNumber | Text

  /**
   `api_parameter`: the name looked up in the query, the value (the default until a valid
   query value replaces it), the expected format and the allowed values (none: any value).
   */
  datatype ApiParameter = ApiParameter(name: string, value: string, format: ParameterFormat,
                                       allowedValues: seq<string>)

  /**
   The text classifiers `is_text_boolean`, `is_text_int_number` and `is_text_double_number`
   are not part of this model; a validation takes them as parameters.
   */
  datatype Classifiers = Classifiers(isBoolean: string -> bool, isIntNumber: string -> bool,
                                     isDoubleNumber: string -> bool)

  /** `is_parameter_format_valid`: the value has the text form the format asks for. */
  function IsParameterFormatValid(c: Classifiers, value: string, format: ParameterFormat): (ok: bool)
    ensures format == Text ==> (ok <==> value != [])
    ensures format == Boolean ==> (ok <==> c.isBoolean(value))
    ensures format == IntNumber ==> (ok <==> c.isIntNumber(value))
    ensures format == DoubleNumber ==> (ok <==> c.isDoubleNumber(value))
  {
    if c.isBoolean(value) && format == Boolean then true
    else if c.isIntNumber(value) && format == IntNumber then true
    else if c.isDoubleNumber(value) && format == DoubleNumber then true
    else if |value| > 0 && format == Text then true
    else false
  }

  /** A format check consults only the classifier of its own format. */
  lemma FormatUsesOwnClassifier(c: Classifiers, d: Classifiers, value: string, format: ParameterFormat)
    requires format == Boolean ==> c.isBoolean(value) == d.isBoolean(value)
    requires format == IntNumber ==> c.isIntNumber(value) == d.isIntNumber(value)
    requires format == DoubleNumber ==> c.isDoubleNumber(value) == d.isDoubleNumber(value)
    ensures IsParameterFormatValid(c, value, format) == IsParameterFormatValid(d, value, format)
  {
  }

  /** The loop over `allowed_values`: true when some allowed value equals `value`. */
  function AnyEqual(allowed: seq<string>, value: string): (found: bool)
    ensures found <==> value in allowed
    decreases |allowed|
  {
    if allowed == [] then false
    else if allowed[0] == value then true
    else
      assert forall k | 0 <= k < |allowed[1..]| :: allowed[1..][k] == allowed[k + 1];
      AnyEqual(allowed[1..], value)
  }

  /**
   `validate_parameter`: `found` is what the query lookup returned. An absent value or a
   badly formed one fails; otherwise the value passes when there are no allowed values or
   it is one of them.
   */
  function ValidateParameter(c: Classifiers, found: Option<string>, format: ParameterFormat,
                             allowed: seq<string>): (ok: bool)
    ensures found.None? ==> !ok
    ensures found.Some? && !IsParameterFormatValid(c, found.value, format) ==> !ok
    ensures found.Some? && IsParameterFormatValid(c, found.value, format) && allowed == [] ==> ok
    ensures found.Some? && IsParameterFormatValid(c, found.value, format) && allowed != [] ==>
              (ok <==> found.value in allowed)
  {
    if found.None? then false
    else if !IsParameterFormatValid(c, found.value, format) then false
    else if allowed == [] then true
    else AnyEqual(allowed, found.value)
  }

  /** Whether parameter `p` passes against `query`; an absent optional parameter passes. */
  predicate Passes(c: Classifiers, query: Fields, p: ApiParameter, required: bool) {
    match Find(query, p.name)
    case None => !required
    case Some(v) => ValidateParameter(c, Some(v), p.format, p.allowedValues)
  }

  /** The parameter after the loop: the query value when present, the default otherwise. */
  function Updated(query: Fields, p: ApiParameter): ApiParameter {
    match Find(query, p.name)
    case None => p
    case Some(v) => p.(value := v)
  }

  /** The outcome of one loop of `validate_all_parameters` over a parameter map. */
  datatype Checked = AllPassed(updated: seq<ApiParameter>) | FailedAt(index: nat)

  /**
   One loop of `validate_all_parameters`, over the parameters in map order: stops at the
   first that fails, otherwise returns all of them with their values updated.
   */
  function CheckAll(c: Classifiers, query: Fields, ps: seq<ApiParameter>, required: bool): (r: Checked)
    ensures r.AllPassed? <==> forall k | 0 <= k < |ps| :: Passes(c, query, ps[k], required)
    ensures r.AllPassed? ==>
              && |r.updated| == |ps|
              && forall k | 0 <= k < |ps| :: r.updated[k] == Updated(query, ps[k])
    ensures r.FailedAt? ==>
              && r.index < |ps| && !Passes(c, query, ps[r.index], required)
              && forall k | 0 <= k < r.index :: Passes(c, query, ps[k], required)
    decreases |ps|
  {
    if ps == [] then AllPassed([])
    else if !Passes(c, query, ps[0], required) then FailedAt(0)
    else
      match CheckAll(c, query, ps[1..], required)
      case AllPassed(u) =>
        PassesCons(c, query, ps, required, |ps| - 1);
        UpdatedCons(query, ps, u);
        AllPassed([Updated(query, ps[0])] + u)
      case FailedAt(i) =>
        PassesCons(c, query, ps, required, i);
        assert ps[i + 1] == ps[1..][i];
        FailedAt(i + 1)
  }

  /** A first parameter that passes, followed by `n` that pass, makes `n + 1` that pass. */
  lemma PassesCons(c: Classifiers, query: Fields, ps: seq<ApiParameter>, required: bool, n: nat)
    requires n < |ps| && Passes(c, query, ps[0], required)
    requires forall k | 0 <= k < n :: Passes(c, query, ps[1..][k], required)
    ensures forall k | 0 <= k < n + 1 :: Passes(c, query, ps[k], required)
  {
    forall k | 0 <= k < n + 1 ensures Passes(c, query, ps[k], required) {
      if k > 0 { assert ps[k] == ps[1..][k - 1]; }
    }
  }

  /** Updating the first parameter in front of the updated rest updates them all. */
  lemma UpdatedCons(query: Fields, ps: seq<ApiParameter>, u: seq<ApiParameter>)
    requires ps != [] && |u| == |ps| - 1
    requires forall k | 0 <= k < |u| :: u[k] == Updated(query, ps[1..][k])
    ensures var r := [Updated(query, ps[0])] + u;
            |r| == |ps| && forall k | 0 <= k < |ps| :: r[k] == Updated(query, ps[k])
  {
    var r := [Updated(query, ps[0])] + u;
    forall k | 0 <= k < |ps| ensures r[k] == Updated(query, ps[k]) {
      if k > 0 { assert r[k] == u[k - 1] && ps[k] == ps[1..][k - 1]; }
    }
  }

  /** What `validate_all_parameters` decides, with the parameter maps as it leaves them. */
  datatype Validation =
    | Accepted(required: seq<ApiParameter>, optional: seq<ApiParameter>)
    | Rejected(name: string)

  /**
   `validate_all_parameters`: the required parameters are checked first, then the optional
   ones; the name of the first that fails is returned. When all pass, every parameter found
   in the query carries the query value and every other keeps its default. `required` and
   `optional` stand for the two `std::map`s in their iteration order, that is sorted by key,
   which decides the failure that is named.
   */
  function ValidateAllParameters(c: Classifiers, query: Fields, required: seq<ApiParameter>,
                                 optional: seq<ApiParameter>): (r: Validation)
    ensures r.Accepted? <==>
              && (forall k | 0 <= k < |required| :: Passes(c, query, required[k], true))
              && (forall k | 0 <= k < |optional| :: Passes(c, query, optional[k], false))
    ensures r.Accepted? ==>
              && |r.required| == |required| && |r.optional| == |optional|
              && (forall k | 0 <= k < |required| :: r.required[k] == Updated(query, required[k]))
              && (forall k | 0 <= k < |optional| :: r.optional[k] == Updated(query, optional[k]))
    ensures r.Rejected? ==>
              || (exists i | 0 <= i < |required| ::
                    && r.name == required[i].name && !Passes(c, query, required[i], true)
                    && forall k | 0 <= k < i :: Passes(c, query, required[k], true))
              || (&& (forall k | 0 <= k < |required| :: Passes(c, query, required[k], true))
                  && exists i | 0 <= i < |optional| ::
                       && r.name == optional[i].name && !Passes(c, query, optional[i], false)
                       && forall k | 0 <= k < i :: Passes(c, query, optional[k], false))
  {
    match CheckAll(c, query, required, true)
    case FailedAt(i) => Rejected(required[i].name)
    case AllPassed(req) =>
      match CheckAll(c, query, optional, false)
      case FailedAt(i) => Rejected(optional[i].name)
      case AllPassed(opt) => Accepted(req, opt)
  }

  /** What `validate_all_parameters` returns: the failing name, or "" when all parameters pass. */
  function ValidationText(v: Validation): string {
    match v
    case Rejected(name) => name
    case Accepted(_, _) => ""
  }

  /** With non-empty parameter names, an empty answer means exactly that every parameter passed. */
  lemma EmptyAnswerMeansValid(c: Classifiers, query: Fields, required: seq<ApiParameter>,
                              optional: seq<ApiParameter>)
    requires forall k | 0 <= k < |required| :: required[k].name != []
    requires forall k | 0 <= k < |optional| :: optional[k].name != []
    ensures var r := ValidateAllParameters(c, query, required, optional);
            ValidationText(r) == [] <==> r.Accepted?
  {
  }

  /** The `force_stop` parameter of the stop handler: a boolean, "true" or "false", default "false". */
  const ForceStop: ApiParameter := ApiParameter("force_stop", "false", Boolean, ["true", "false"])

  /** Without `force_stop` in the query the default "false" is kept. */
  lemma ForceStopDefault(c: Classifiers)
    ensures ValidateAllParameters(c, [], [], [ForceStop]) == Accepted([], [ForceStop])
  {
  }

  /** A value outside the allowed ones is rejected whatever the classifiers say. */
  lemma ForceStopRejectsOtherValues(c: Classifiers, v: string)
    requires v != "true" && v != "false"
    ensures ValidateAllParameters(c, [("force_stop", v)], [], [ForceStop]) == Rejected("force_stop")
  {
    assert Find([("force_stop", v)], "force_stop") == Some(v);
    assert !Passes(c, [("force_stop", v)], ForceStop, false);
  }
}

=== FILE: registry.dfy ===
/**
 The torrent id registry of `TorrentManager`: the counter `greatest_id`, the ordered list of
 torrents reduced to their ids, and the operations that issue, add, remove and stop them.
 libtorrent handles are abstracted away; a pause is recorded as the id it applies to and
 how it is requested.
 */
module TorrentRegistry {
  /** The torrents' ids in list order, and the next id the counter will issue. */
  datatype Registry = Registry(torrents: seq<nat>, greatestId: nat)

  predicate Increasing(ids: seq<nat>) {
    forall i, j | 0 <= i < j < |ids| :: ids[i] < ids[j]
  }

  /** Every listed id was issued by the counter: at least 1, below the counter, in issue order. */
  predicate Valid(r: Registry) {
    && r.greatestId >= 1
    && (forall i | 0 <= i < |r.torrents| :: 1 <= r.torrents[i] < r.greatestId)
    && Increasing(r.torrents)
  }

  /** The constructor: no torrents, and the counter at 1. */
  function Init(): (r: Registry)
    ensures Valid(r) && r.torrents == []
    ensures r.greatestId == 1
  {
    Registry([], 1)
  }

  /** `generate_torrent_id`: returns the counter, then increments it. */
  function GenerateTorrentId(r: Registry): (out: (nat, Registry))
    ensures out.1.torrents == r.torrents && out.1.greatestId == out.0 + 1
    ensures Valid(r) ==> Valid(out.1) && out.0 >= 1
    ensures Valid(r) ==> forall i | 0 <= i < |r.torrents| :: r.torrents[i] < out.0
  {
    (r.greatestId, r.(greatestId := r.greatestId + 1))
  }

  /** The ids `n` successive `generate_torrent_id` calls return, and the registry after them. */
  function Issue(r: Registry, n: nat): (out: (seq<nat>, Registry))
    ensures |out.0| == n && Increasing(out.0)
    ensures forall k | 0 <= k < n :: r.greatestId <= out.0[k] < out.1.greatestId
    ensures out.1.torrents == r.torrents && out.1.greatestId == r.greatestId + n
    ensures Valid(r) ==> Valid(out.1)
    decreases n
  {
    if n == 0 then ([], r)
    else
      var (id, r1) := GenerateTorrentId(r);
      var (rest, r2) := Issue(r1, n - 1);
      ([id] + rest, r2)
  }

  /** The alerts `check_alerts` pops; only an `add_torrent_alert` changes the registry. */
  datatype Alert =
    | TorrentFinished
    | TorrentError
    | AddTorrent(failed: bool)
    | TorrentRemoved
    | TorrentDeleted
    | TorrentPaused

  /**
   One alert of `check_alerts`: an `add_torrent_alert` without an error appends a torrent
   with a newly generated id; one with an error, and every other alert, changes nothing.
   */
  function OnAlert(r: Registry, a: Alert): (r': Registry)
    ensures a == AddTorrent(false) ==>
              r'.torrents == r.torrents + [r.greatestId] && r'.greatestId == r.greatestId + 1
    ensures a != AddTorrent(false) ==> r' == r
    ensures Valid(r) ==> Valid(r')
  {
    match a
    case AddTorrent(failed) =>
      if failed then r
      else
        var (id, r1) := GenerateTorrentId(r);
        r1.(torrents := r1.torrents + [id])
    case _ => r
  }

  /** The number of alerts that add a torrent. */
  function Added(alerts: seq<Alert>): nat {
    if alerts == [] then 0
    else (if alerts[0] == AddTorrent(false) then 1 else 0) + Added(alerts[1..])
  }

  /** The ids `from`, `from + 1`, ..., `from + n - 1`. */
  function Range(from: nat, n: nat): (ids: seq<nat>)
    ensures |ids| == n && forall k | 0 <= k < n :: ids[k] == from + k
  {
    seq(n, k requires 0 <= k < n => from + k)
  }

  /**
   `check_alerts` over the popped alerts in order: the successful adds append consecutive
   ids starting at the counter, and the registry stays valid.
   */
  function CheckAlerts(r: Registry, alerts: seq<Alert>): (r': Registry)
    ensures r'.torrents == r.torrents + Range(r.greatestId, Added(alerts))
    ensures r'.greatestId == r.greatestId + Added(alerts)
    ensures Valid(r) ==> Valid(r')
    decreases |alerts|
  {
    if alerts == [] then
      assert r.torrents + Range(r.greatestId, 0) == r.torrents;
      r
    else
      var r1 := OnAlert(r, alerts[0]);
      var r2 := CheckAlerts(r1, alerts[1..]);
      var n := Added(alerts[1..]);
      if alerts[0] == AddTorrent(false) then
        assert [r.greatestId] + Range(r.greatestId + 1, n) == Range(r.greatestId, n + 1);
        r2
      else
        r2
  }

  /** The position of the first torrent with id `id`, or the list's length. */
  function IndexOfId(ts: seq<nat>, id: nat): (i: nat)
    ensures i <= |ts|
    ensures i < |ts| ==> ts[i] == id
    ensures forall j | 0 <= j < i :: ts[j] != id
    decreases |ts|
  {
    if ts == [] then 0
    else if ts[0] == id then 0
    else
      assert forall j | 0 <= j < |ts[1..]| :: ts[1..][j] == ts[j + 1];
      1 + IndexOfId(ts[1..], id)
  }

  /**
   `remove_torrent`: when some torrent has the id, the first such entry is erased and the
   order of the others kept; otherwise nothing changes. Returns whether one was found.
   */
  function RemoveTorrent(r: Registry, id: nat): (out: (bool, Registry))
    ensures out.0 <==> id in r.torrents
    ensures !out.0 ==> out.1 == r
    ensures out.0 ==> exists i | 0 <= i < |r.torrents| ::
                        && r.torrents[i] == id && (forall j | 0 <= j < i :: r.torrents[j] != id)
                        && out.1.torrents == r.torrents[..i] + r.torrents[i + 1..]
    ensures out.1.greatestId == r.greatestId
    ensures Valid(r) ==> Valid(out.1) && id !in out.1.torrents
  {
    var ts := r.torrents;
    var i := IndexOfId(ts, id);
    if i == |ts| then (false, r)
    else
      var ts' := ts[..i] + ts[i + 1..];
      EraseShape(ts, i);
      (true, r.(torrents := ts'))
  }

  /** Erasing position `i` shifts the later entries down by one and keeps ids in order. */
  lemma EraseShape(ts: seq<nat>, i: nat)
    requires i < |ts|
    ensures var ts' := ts[..i] + ts[i + 1..];
            && |ts'| == |ts| - 1
            && (forall k | 0 <= k < |ts'| :: ts'[k] == if k < i then ts[k] else ts[k + 1])
            && (Increasing(ts) ==> Increasing(ts') && ts[i] !in ts')
  {
    var ts' := ts[..i] + ts[i + 1..];
    if Increasing(ts) {
      forall k | 0 <= k < |ts'| ensures ts'[k] != ts[i] {
        if k < i { assert ts[k] < ts[i]; } else { assert ts[i] < ts[k + 1]; }
      }
    }
  }

  /** Removing the torrent an add alert just appended gives back the torrents before it. */
  lemma RemoveAfterAdd(r: Registry)
    requires Valid(r)
    ensures var r1 := OnAlert(r, AddTorrent(false));
            var (found, r2) := RemoveTorrent(r1, r.greatestId);
            found && r2.torrents == r.torrents
  {
    var r1 := OnAlert(r, AddTorrent(false));
    var i := IndexOfId(r1.torrents, r.greatestId);
    assert r1.torrents[|r.torrents|] == r.greatestId;
    assert i == |r.torrents|;
    assert r1.torrents[..i] == r.torrents;
  }

  /** How a torrent is paused: `pause()` when `force_stop`, `pause(graceful_pause)` otherwise. */
  datatype PauseMode = Immediate | Graceful

  function Mode(forceStop: bool): PauseMode {
    if forceStop then Immediate else Graceful
  }

  /** A pause request on the handle of the torrent with the given id. */
  datatype Pause = Pause(id: nat, mode: PauseMode)

  /** The position in `ids` of the first id no torrent has, or the length of `ids`. */
  function FirstMissing(ts: seq<nat>, ids: seq<nat>): (i: nat)
    ensures i <= |ids|
    ensures i < |ids| ==> ids[i] !in ts
    ensures forall j | 0 <= j < i :: ids[j] in ts
    decreases |ids|
  {
    if ids == [] then 0
    else if ids[0] !in ts then 0
    else
      assert forall j | 0 <= j < |ids[1..]| :: ids[1..][j] == ids[j + 1];
      1 + FirstMissing(ts, ids[1..])
  }

  /** The inner loop of the second pass: a pause for every torrent whose id is `id`. */
  function Matching(ts: seq<nat>, id: nat, mode: PauseMode): seq<Pause> {
    if ts == [] then []
    else (if ts[0] == id then [Pause(id, mode)] else []) + Matching(ts[1..], id, mode)
  }

  /** The second pass: the pauses for every requested id, in request order. */
  function Pauses(ts: seq<nat>, ids: seq<nat>, mode: PauseMode): seq<Pause> {
    if ids == [] then [] else Matching(ts, ids[0], mode) + Pauses(ts, ids[1..], mode)
  }

  /** One pause per requested id, in request order. */
  function OnePauseEach(ids: seq<nat>, mode: PauseMode): (ps: seq<Pause>)
    ensures |ps| == |ids| && forall k | 0 <= k < |ids| :: ps[k] == Pause(ids[k], mode)
  {
    seq(|ids|, k requires 0 <= k < |ids| => Pause(ids[k], mode))
  }

  /** In a list of distinct ids, a listed id is matched exactly once. */
  lemma {:induction false} MatchingOnce(ts: seq<nat>, id: nat, mode: PauseMode)
    requires Increasing(ts)
    ensures Matching(ts, id, mode) == if id in ts then [Pause(id, mode)] else []
    decreases |ts|
  {
    if ts != [] {
      assert Increasing(ts[1..]) by {
        forall i, j | 0 <= i < j < |ts[1..]| ensures ts[1..][i] < ts[1..][j] {
          assert ts[1..][i] == ts[i + 1] && ts[1..][j] == ts[j + 1];
        }
      }
      MatchingOnce(ts[1..], id, mode);
      if ts[0] == id {
        assert forall k | 0 <= k < |ts[1..]| :: ts[1..][k] == ts[k + 1] > ts[0];
        assert id !in ts[1..];
      } else {
        assert id in ts <==> id in ts[1..] by {
          assert ts == [ts[0]] + ts[1..];
        }
      }
    }
  }

  /** With distinct torrent ids and every requested id present, each gets one pause. */
  lemma {:induction false} PausesOnce(ts: seq<nat>, ids: seq<nat>, mode: PauseMode)
    requires Increasing(ts)
    requires forall k | 0 <= k < |ids| :: ids[k] in ts
    ensures Pauses(ts, ids, mode) == OnePauseEach(ids, mode)
    decreases |ids|
  {
    if ids != [] {
      MatchingOnce(ts, ids[0], mode);
      assert forall k | 0 <= k < |ids[1..]| :: ids[1..][k] == ids[k + 1];
      PausesOnce(ts, ids[1..], mode);
      assert OnePauseEach(ids, mode) == [Pause(ids[0], mode)] + OnePauseEach(ids[1..], mode);
    }
  }

  lemma PausesWhenValid(r: Registry, ids: seq<nat>, mode: PauseMode)
    requires forall k | 0 <= k < |ids| :: ids[k] in r.torrents
    ensures Valid(r) ==> Pauses(r.torrents, ids, mode) == OnePauseEach(ids, mode)
  {
    if Valid(r) { PausesOnce(r.torrents, ids, mode); }
  }

  /**
   `stop_torrents` as written: the first pass returns the first requested id that no torrent
   has, and pauses nothing; otherwise the second pass pauses every match and 0 is returned.
   */
  function StopTorrents(r: Registry, ids: seq<nat>, forceStop: bool): (out: (nat, seq<Pause>))
    ensures FirstMissing(r.torrents, ids) < |ids| ==>
              out == (ids[FirstMissing(r.torrents, ids)], [])
    ensures FirstMissing(r.torrents, ids) == |ids| && Valid(r) ==>
              out == (0, OnePauseEach(ids, Mode(forceStop)))
  {
    var i := FirstMissing(r.torrents, ids);
    if i < |ids| then (ids[i], [])
    else
      PausesWhenValid(r, ids, Mode(forceStop));
      (0, Pauses(r.torrents, ids, Mode(forceStop)))
  }

  /**
   The answer 0 is meant to say that every id was found and paused, but a request for the
   id 0, which no torrent ever has, also returns 0: the caller reports success while
   nothing is paused.
   */
  lemma StopTorrentsZeroCollision()
    ensures Valid(Registry([1], 2))
    ensures 0 !in [1]
    ensures StopTorrents(Registry([1], 2), [0, 1], false) == (0, [])
  {
    assert FirstMissing([1], [0, 1]) == 0;
  }

  /** What stopping decides: every id found and each paused once, or the first id not found. */
  datatype StopResult = Stopped(pauses: seq<Pause>) | NotFound(id: nat)

  /**
   `stop_torrents` with its result kept apart from the ids: a missing id is reported as
   `NotFound` whatever its value, so 0 is no longer ambiguous.
   */
  function StopTorrentsChecked(r: Registry, ids: seq<nat>, forceStop: bool): (res: StopResult)
    ensures res.Stopped? <==> forall k | 0 <= k < |ids| :: ids[k] in r.torrents
    ensures res.NotFound? ==> exists i | 0 <= i < |ids| ::
                                && ids[i] == res.id && res.id !in r.torrents
                                && forall j | 0 <= j < i :: ids[j] in r.torrents
    ensures res.Stopped? && Valid(r) ==> res.pauses == OnePauseEach(ids, Mode(forceStop))
  {
    var i := FirstMissing(r.torrents, ids);
    if i < |ids| then NotFound(ids[i])
    else
      PausesWhenValid(r, ids, Mode(forceStop));
      Stopped(Pauses(r.torrents, ids, Mode(forceStop)))
  }

  /** Without 0 among the requested ids the two versions agree. */
  lemma StopTorrentsAgree(r: Registry, ids: seq<nat>, forceStop: bool)
    requires forall k | 0 <= k < |ids| :: ids[k] != 0
    ensures var (code, pauses) := StopTorrents(r, ids, forceStop);
            match StopTorrentsChecked(r, ids, forceStop)
            case Stopped(ps) => code == 0 && pauses == ps
            case NotFound(id) => code == id && code != 0 && pauses == []
  {
  }
}

=== FILE: responses.dfy ===
/**
 The responses the REST handlers build, and two handlers built from them: `torrents_stop`
 and `torrents_upload_files`. Every response carries the CORS headers (`enable_CORS` is the
 constant true); JSON answers are gzip-encoded when the client accepts it and carry their
 length. JSON serialisation and gzip are library code: they are inputs to the model.
 */
module Responses {
  import opened Wrappers
  import opened Text
  import opened Http
  import opened ErrorCodes
  import opened Params
  import opened RestHeaders
  import opened BasicAuth
  import opened Utility
  import opened TorrentRegistry
  import opened Multipart

  /** The JSON values the handlers put in their documents. */
  datatype Json =
    | JString(text: string)
    | JNumber(n: nat)
    | JArray(items: seq<Json>)
    | JObject(members: seq<(string, Json)>)

  /** `stringfy_document` (rapidjson's pretty writer, its default) and `gzip_encode`. */
  datatype Encoders = Encoders(stringify: Json -> string, gzip: string -> string)

  /** base64 decoding and the user database's password check. */
  datatype Auth = Auth(base64Decode: string -> string, checkUser: (string, string) -> bool)

  /** The parts of a request the handlers read. */
  datatype Request = Request(headers: Fields, query: Fields, body: string)

  /**
   What a handler does: the response it writes and the pauses it asks of the session, or
   the text of an exception that leaves it before anything is written.
   */
  datatype Outcome = Answered(resp: Response, pauses: seq<Pause>) | Thrown(what: string)

  /** The two CORS headers every handler sends: the request's Origin (or "") and credentials allowed. */
  function CorsHeaders(request: Fields): Fields {
    [ ("Access-Control-Allow-Origin", HeaderOrEmpty(request, "Origin")),
      ("Access-Control-Allow-Credentials", "true") ]
  }

  /**
   The headers of a JSON answer: CORS, "Content-Encoding: gzip" when the body is
   compressed, then the length and type of the body.
   */
  function JsonHeaders(request: Fields, gzipped: bool, length: nat): (fields: Fields)
    ensures Find(fields, "Access-Control-Allow-Origin") == Some(HeaderOrEmpty(request, "Origin"))
    ensures Find(fields, "Access-Control-Allow-Credentials") == Some("true")
    ensures Find(fields, "Content-Encoding") == if gzipped then Some("gzip") else None
    ensures Find(fields, "Content-Length") == Some(NatToDecimal(length))
    ensures Find(fields, "Content-Type") == Some("application/json")
  {
    var origin := HeaderOrEmpty(request, "Origin");
    var size := NatToDecimal(length);
    if gzipped then
      GzipHeadersFind(origin, size);
      [ ("Access-Control-Allow-Origin", origin), ("Access-Control-Allow-Credentials", "true"),
        ("Content-Encoding", "gzip"), ("Content-Length", size), ("Content-Type", "application/json") ]
    else
      PlainHeadersFind(origin, size);
      [ ("Access-Control-Allow-Origin", origin), ("Access-Control-Allow-Credentials", "true"),
        ("Content-Length", size), ("Content-Type", "application/json") ]
  }

  lemma GzipHeadersFind(origin: string, size: string)
    ensures var fields: Fields :=
              [ ("Access-Control-Allow-Origin", origin), ("Access-Control-Allow-Credentials", "true"),
                ("Content-Encoding", "gzip"), ("Content-Length", size), ("Content-Type", "application/json") ];
            && Find(fields, "Access-Control-Allow-Origin") == Some(origin)
            && Find(fields, "Access-Control-Allow-Credentials") == Some("true")
            && Find(fields, "Content-Encoding") == Some("gzip")
            && Find(fields, "Content-Length") == Some(size)
            && Find(fields, "Content-Type") == Some("application/json")
  {
    var fields: Fields :=
      [ ("Access-Control-Allow-Origin", origin), ("Access-Control-Allow-Credentials", "true"),
        ("Content-Encoding", "gzip"), ("Content-Length", size), ("Content-Type", "application/json") ];
    assert forall j | 0 <= j < 5 :: |fields[j].0| == [27, 32, 16, 14, 12][j];
    FindByLength(fields, 0);
    FindByLength(fields, 1);
    FindByLength(fields, 2);
    FindByLength(fields, 3);
    FindByLength(fields, 4);
  }

  lemma PlainHeadersFind(origin: string, size: string)
    ensures var fields: Fields :=
              [ ("Access-Control-Allow-Origin", origin), ("Access-Control-Allow-Credentials", "true"),
                ("Content-Length", size), ("Content-Type", "application/json") ];
            && Find(fields, "Access-Control-Allow-Origin") == Some(origin)
            && Find(fields, "Access-Control-Allow-Credentials") == Some("true")
            && Find(fields, "Content-Encoding").None?
            && Find(fields, "Content-Length") == Some(size)
            && Find(fields, "Content-Type") == Some("application/json")
  {
    var fields: Fields :=
      [ ("Access-Control-Allow-Origin", origin), ("Access-Control-Allow-Credentials", "true"),
        ("Content-Length", size), ("Content-Type", "application/json") ];
    assert forall j | 0 <= j < 4 :: |fields[j].0| == [27, 32, 14, 12][j];
    FindByLength(fields, 0);
    FindByLength(fields, 1);
    FindByLength(fields, 2);
    FindByLength(fields, 3);
    AbsentByLength(fields, "Content-Encoding");
  }

  /**
   A JSON answer: the document serialised, compressed when the request's Accept-Encoding
   lists "gzip", with Content-Encoding saying so and Content-Length counting the bytes sent.
   */
  function JsonResponse(status: string, request: Fields, doc: Json, enc: Encoders): (resp: Response)
    ensures resp.status == status
    ensures ContentLengthMatches(resp)
    ensures Find(resp.headers, "Content-Encoding") == Some("gzip") <==> AcceptsGzip(request)
    ensures AcceptsGzip(request) ==> resp.body == enc.gzip(enc.stringify(doc))
    ensures !AcceptsGzip(request) ==> resp.body == enc.stringify(doc)
    ensures Find(resp.headers, "Content-Type") == Some("application/json")
    ensures Find(resp.headers, "Access-Control-Allow-Origin") == Some(HeaderOrEmpty(request, "Origin"))
    ensures Find(resp.headers, "Access-Control-Allow-Credentials") == Some("true")
  {
    var json := enc.stringify(doc);
    var gzipped := AcceptsGzip(request);
    var body := if gzipped then enc.gzip(json) else json;
    Response(status, JsonHeaders(request, gzipped, |body|), body)
  }

  /** What a client reads as JSON text: the body, inflated when Content-Encoding says gzip. */
  function ClientText(resp: Response, gunzip: string -> string): string {
    if Find(resp.headers, "Content-Encoding") == Some("gzip") then gunzip(resp.body) else resp.body
  }

  /** A client that inflates what `gzip` compresses reads back the serialised document. */
  lemma JsonResponseReadsBack(status: string, request: Fields, doc: Json, enc: Encoders,
                              gunzip: string -> string)
    requires forall s :: gunzip(enc.gzip(s)) == s
    ensures ClientText(JsonResponse(status, request, doc, enc), gunzip) == enc.stringify(doc)
  {
  }

  /**
   The error document: one entry with the code, its message and any extra members. The
   responses are built only for codes the table as written holds.
   */
  function ErrorDocument(code: nat, extra: seq<(string, Json)>): (doc: Json)
    requires Lookup(Messages, code).Some?
    ensures && doc.JObject? && |doc.members| == 1 && doc.members[0].0 == "errors"
            && doc.members[0].1.JArray? && |doc.members[0].1.items| == 1
            && doc.members[0].1.items[0].JObject?
    ensures var entry := doc.members[0].1.items[0].members;
            && |entry| == 2 + |extra| && entry[0] == ("code", JNumber(code))
            && entry[1].0 == "message" && entry[1].1.JString?
            && Lookup(Messages, code) == Some(entry[1].1.text)
            && entry[2..] == extra
  {
    OriginalMessageKept(code);
    JObject([("errors", JArray([JObject([("code", JNumber(code)), ("message", JString(Message(code)))] + extra)]))])
  }

  /**
   An uncompressed error answer (`respond_invalid_authorization`,
   `respond_invalid_parameter`): CORS headers and Content-Length, no Content-Type.
   */
  function PlainResponse(status: string, request: Fields, doc: Json, enc: Encoders): (resp: Response)
    ensures resp.status == status
    ensures ContentLengthMatches(resp)
    ensures resp.body == enc.stringify(doc)
    ensures Find(resp.headers, "Content-Encoding").None? && Find(resp.headers, "Content-Type").None?
    ensures Find(resp.headers, "Access-Control-Allow-Origin") == Some(HeaderOrEmpty(request, "Origin"))
  {
    var json := enc.stringify(doc);
    var fields := CorsHeaders(request) + [("Content-Length", NatToDecimal(|json|))];
    assert forall j | 0 <= j < 3 :: |fields[j].0| == [27, 32, 14][j];
    FindByLength(fields, 0);
    FindByLength(fields, 2);
    AbsentByLength(fields, "Content-Encoding");
    AbsentByLength(fields, "Content-Type");
    Response(status, fields, json)
  }

  /** `respond_invalid_authorization`: 401 with error 4150, never compressed. */
  function RespondInvalidAuthorization(request: Fields, enc: Encoders): (resp: Response)
    ensures resp.status == "401 Unauthorized"
    ensures ContentLengthMatches(resp)
    ensures Find(resp.headers, "Content-Encoding").None?
    ensures resp.body == enc.stringify(ErrorDocument(Unauthorized, []))
  {
    TableCodeKnown(Unauthorized);
    PlainResponse("401 Unauthorized", request, ErrorDocument(Unauthorized, []), enc)
  }

  /** `respond_invalid_parameter`: 400 with error 4100 naming the parameter, never compressed. */
  function RespondInvalidParameter(request: Fields, parameter: string, enc: Encoders): (resp: Response)
    ensures resp.status == "400 Bad Request"
    ensures ContentLengthMatches(resp)
    ensures Find(resp.headers, "Content-Encoding").None?
    ensures resp.body == enc.stringify(ErrorDocument(InvalidParameter, [("parameter", JString(parameter))]))
  {
    TableCodeKnown(InvalidParameter);
    PlainResponse("400 Bad Request", request,
                  ErrorDocument(InvalidParameter, [("parameter", JString(parameter))]), enc)
  }

  /** `validate_authorization` on the request's headers. */
  predicate Authorized(request: Request, auth: Auth) {
    ValidateAuthorization(request.headers, auth.base64Decode, auth.checkUser)
  }

  // ---------------------------------------------------------------------------
  // torrents_stop

  /** The parameter check of the stop handler: no required parameter, `force_stop` optional. */
  function StopParameters(query: Fields, c: Classifiers): Validation {
    ValidateAllParameters(c, query, [], [ForceStop])
  }

  /** The `force_stop` text the handler reads: the query's value, or the default "false". */
  function ForceStopText(query: Fields): string {
    Find(query, "force_stop").GetOr("false")
  }

  /**
   The check can only reject `force_stop`, and when it passes the parameter carries the
   query's value or its default.
   */
  lemma StopParametersShape(query: Fields, c: Classifiers)
    ensures StopParameters(query, c).Rejected? ==> StopParameters(query, c).name == "force_stop"
    ensures StopParameters(query, c).Accepted? ==>
              && |StopParameters(query, c).optional| == 1
              && StopParameters(query, c).optional[0].value == ForceStopText(query)
  {
  }

  /** The 202 document. */
  const StopAccepted: Json :=
    JObject([("message", JString("An attempt to stop the torrents will be made asynchronously"))])

  /** The 404 document: error 3100 with the id that was not found. */
  function StopFailed(id: nat): Json {
    TableCodeKnown(CouldNotStop);
    ErrorDocument(CouldNotStop, [("id", JNumber(id))])
  }

  /** The ids of the route's `[0-9,]*` group, empty items skipped. */
  function RouteIds(idsText: string): seq<nat>
    requires IdListText(idsText)
  {
    Values(IdItems(idsText))
  }

  /**
   What `torrents_stop` answers once the ids are read, from the number `stop_torrents`
   returns: 0 answers 202 with the pauses made, any other number answers 404 naming it as
   the id not found. When every id names a torrent each is paused (immediately when
   `forceStop`); when the first id not found is 0, the answer is also 202, with nothing paused.
   */
  function StopAnswer(headers: Fields, ids: seq<nat>, r: Registry, forceStop: bool, enc: Encoders): (out: Outcome)
    ensures out.Answered?
    ensures var i := FirstMissing(r.torrents, ids);
            out.resp.status == "202 Accepted" <==> i == |ids| || ids[i] == 0
    ensures out.resp.status == "202 Accepted" ==> out.resp == JsonResponse("202 Accepted", headers, StopAccepted, enc)
    ensures (forall k | 0 <= k < |ids| :: ids[k] in r.torrents) && Valid(r) ==>
              out.pauses == OnePauseEach(ids, Mode(forceStop))
    ensures !(forall k | 0 <= k < |ids| :: ids[k] in r.torrents) ==> out.pauses == []
    ensures var i := FirstMissing(r.torrents, ids);
            out.resp.status != "202 Accepted" ==>
              && i < |ids| && ids[i] != 0
              && out.resp == JsonResponse("404 Not Found", headers, StopFailed(ids[i]), enc)
  {
    var (result, pauses) := StopTorrents(r, ids, forceStop);
    if result == 0 then Answered(JsonResponse("202 Accepted", headers, StopAccepted, enc), pauses)
    else Answered(JsonResponse("404 Not Found", headers, StopFailed(result), enc), [])
  }

  /**
   The answer built on `StopTorrentsChecked`, which keeps the result apart from the ids:
   202 exactly when every id names a torrent, otherwise 404 naming the first id not found.
   */
  function StopAnswerChecked(headers: Fields, ids: seq<nat>, r: Registry, forceStop: bool, enc: Encoders): (out: Outcome)
    ensures out.Answered?
    ensures out.resp.status == "202 Accepted" <==> forall k | 0 <= k < |ids| :: ids[k] in r.torrents
    ensures out.resp.status == "202 Accepted" ==> out.resp == JsonResponse("202 Accepted", headers, StopAccepted, enc)
    ensures out.resp.status == "202 Accepted" && Valid(r) ==> out.pauses == OnePauseEach(ids, Mode(forceStop))
    ensures var i := FirstMissing(r.torrents, ids);
            out.resp.status != "202 Accepted" ==>
              && out.pauses == [] && i < |ids|
              && out.resp == JsonResponse("404 Not Found", headers, StopFailed(ids[i]), enc)
  {
    match StopTorrentsChecked(r, ids, forceStop)
    case Stopped(pauses) => Answered(JsonResponse("202 Accepted", headers, StopAccepted, enc), pauses)
    case NotFound(id) => Answered(JsonResponse("404 Not Found", headers, StopFailed(id), enc), [])
  }

  /** Without 0 among the requested ids the handler's answer is the checked one. */
  lemma StopAnswerAgree(headers: Fields, ids: seq<nat>, r: Registry, forceStop: bool, enc: Encoders)
    requires forall k | 0 <= k < |ids| :: ids[k] != 0
    ensures StopAnswer(headers, ids, r, forceStop, enc) == StopAnswerChecked(headers, ids, r, forceStop, enc)
  {
    StopTorrentsAgree(r, ids, forceStop);
  }

  /**
   Stopping ids 0 and 1 with only torrent 1 listed: the handler answers 202 and pauses
   nothing, where the checked answer is 404 naming 0.
   */
  lemma StopAnswerZeroCollision(headers: Fields, enc: Encoders)
    ensures StopAnswer(headers, [0, 1], Registry([1], 2), false, enc) ==
            Answered(JsonResponse("202 Accepted", headers, StopAccepted, enc), [])
    ensures StopAnswerChecked(headers, [0, 1], Registry([1], 2), false, enc) ==
            Answered(JsonResponse("404 Not Found", headers, StopFailed(0), enc), [])
  {
    StopTorrentsZeroCollision();
    assert FirstMissing([1], [0, 1]) == 0;
  }

  /**
   Once the check passes, `force_stop` is "true" or "false": the query's value must be one
   of the allowed values, and without it the default "false" is kept. Either reads as a bool.
   */
  lemma StopForceStopKnown(query: Fields, c: Classifiers)
    ensures StopParameters(query, c).Accepted? ==>
              && (ForceStopText(query) == "true" || ForceStopText(query) == "false")
              && StrToBool(ForceStopText(query)).Some?
  {
    if StopParameters(query, c).Accepted? {
      assert Passes(c, query, ForceStop, false);
      ForceStopAllowed(query, c);
      TrueReadsTrue();
      FalseReadsFalse();
    }
  }

  lemma ForceStopAllowed(query: Fields, c: Classifiers)
    requires Passes(c, query, ForceStop, false)
    ensures ForceStopText(query) == "true" || ForceStopText(query) == "false"
  {
  }

  /**
   `torrents_stop`: authorisation, then the `force_stop` parameter, then the ids of the
   route, read with `std::stoul`, which throws on an id too large for `unsigned long`.
   */
  function TorrentsStop(request: Request, idsText: string, r: Registry, c: Classifiers,
                        auth: Auth, enc: Encoders): (out: Outcome)
    requires IdListText(idsText)
    ensures !Authorized(request, auth) ==> out == Answered(RespondInvalidAuthorization(request.headers, enc), [])
    ensures Authorized(request, auth) && StopParameters(request.query, c).Rejected? ==>
              out == Answered(RespondInvalidParameter(request.headers, "force_stop", enc), [])
    ensures out.Thrown? <==>
              && Authorized(request, auth) && StopParameters(request.query, c).Accepted?
              && !AllFit(IdItems(idsText))
    ensures out.Thrown? ==> out.what == "stoul"
    ensures Authorized(request, auth) && StopParameters(request.query, c).Accepted? && AllFit(IdItems(idsText)) ==>
              && StrToBool(ForceStopText(request.query)).Some?
              && out == StopAnswer(request.headers, RouteIds(idsText), r,
                                   StrToBool(ForceStopText(request.query)).value, enc)
  {
    StopParametersShape(request.query, c);
    StopForceStopKnown(request.query, c);
    if !Authorized(request, auth) then Answered(RespondInvalidAuthorization(request.headers, enc), [])
    else
      match StopParameters(request.query, c)
      case Rejected(name) => Answered(RespondInvalidParameter(request.headers, name, enc), [])
      case Accepted(_, optional) =>
        match SplitStringToUlong(idsText, ',')
        case None => Thrown("stoul")
        case Some(ids) => StopAnswer(request.headers, ids, r, StrToBool(optional[0].value).value, enc)
  }

  /** Without `force_stop` the torrents are paused gracefully. */
  lemma StopDefaultsToGraceful(headers: Fields, ids: seq<nat>, r: Registry, enc: Encoders)
    requires Valid(r)
    requires forall k | 0 <= k < |ids| :: ids[k] in r.torrents
    ensures StopAnswer(headers, ids, r, StrToBool(ForceStopText([])).value, enc).pauses == OnePauseEach(ids, Graceful)
  {
    DefaultForceStop();
  }

  /** Without `force_stop` in the query the text read is "false", which reads as false. */
  lemma DefaultForceStop()
    ensures ForceStopText([]) == "false"
    ensures StrToBool(ForceStopText([])) == Some(false)
  {
    FalseReadsFalse();
  }

  // ---------------------------------------------------------------------------
  // torrents_upload_files

  /** The files written to the torrent directory: name and contents. */
  type SavedFile = (string, string)

  /**
   The files saved for the contents read: the k-th gets a random 20-character name
   (`newName(k)`) with ".torrent" appended.
   */
  function SavedFiles(contents: seq<string>, newName: nat -> string): (files: seq<SavedFile>)
    ensures |files| == |contents|
    ensures forall k | 0 <= k < |contents| :: files[k] == (newName(k) + ".torrent", contents[k])
  {
    seq(|contents|, k requires 0 <= k < |contents| => (newName(k) + ".torrent", contents[k]))
  }

  /** `{"path": name}` for each saved file, in order. */
  function PathObjects(files: seq<SavedFile>): (objs: seq<Json>)
    ensures |objs| == |files|
    ensures forall k | 0 <= k < |files| :: objs[k] == JObject([("path", JString(files[k].0))])
  {
    seq(|files|, k requires 0 <= k < |files| => JObject([("path", JString(files[k].0))]))
  }

  /** The 200 document: the message and the saved files' names. */
  function UploadedDocument(files: seq<SavedFile>): Json {
    JObject([("message", JString("Torrents uploaded successfully")),
             ("uploaded_torrents", JArray(PathObjects(files)))])
  }

  /**
   The answer to an upload once the body is read: 200 listing the saved files when the
   reading ended well, 404 with the framing's error code otherwise.
   */
  function UploadAnswer(headers: Fields, code: nat, files: seq<SavedFile>, enc: Encoders): (resp: Response)
    requires code == 0 || code == NoBoundaryCode || code == BadFormatCode
    ensures resp.status == "200 OK" <==> code == 0
    ensures code == 0 ==> resp == JsonResponse("200 OK", headers, UploadedDocument(files), enc)
    ensures code != 0 ==>
              && Lookup(Messages, code).Some?
              && resp == JsonResponse("404 Not Found", headers, ErrorDocument(code, []), enc)
  {
    if code == 0 then JsonResponse("200 OK", headers, UploadedDocument(files), enc)
    else
      TableCodeKnown(code);
      JsonResponse("404 Not Found", headers, ErrorDocument(code, []), enc)
  }

  /**
   `torrents_upload_files`: after authorisation every "file" part of the multipart body is
   written to disk as it is read, and the files saved before a framing error stay on disk
   although the answer is then 404.
   */
  function TorrentsUploadFiles(request: Request, attributes: string -> Fields, newName: nat -> string,
                               auth: Auth, enc: Encoders): (out: (Response, seq<SavedFile>))
    ensures !Authorized(request, auth) ==> out == (RespondInvalidAuthorization(request.headers, enc), [])
    ensures Authorized(request, auth) ==>
              var (code, contents) := SaveRequestFiles(request.body, attributes);
              && out.1 == SavedFiles(contents, newName)
              && out.0 == UploadAnswer(request.headers, code, out.1, enc)
    ensures Authorized(request, auth) && request.body == [] ==>
              out.0.status == "404 Not Found" && out.1 == []
  {
    if !Authorized(request, auth) then (RespondInvalidAuthorization(request.headers, enc), [])
    else
      var (code, contents) := SaveRequestFiles(request.body, attributes);
      var files := SavedFiles(contents, newName);
      (UploadAnswer(request.headers, code, files, enc), files)
  }
}

=== FILE: rest_headers.dfy ===
/**
 Request-header decisions of the REST API that do not depend on a handler: the
 `Accept-Encoding` test of `accepts_gzip_encoding` and the CORS preflight (OPTIONS) handler.
 */
module RestHeaders {
  import opened Wrappers
  import opened Text
  import opened Http
  import opened Utility

  /**
   `w` stands between two delimiters of `v` (or the ends of `v`) starting at `i`: the token
   an item of a `d`-separated list would have to be.
   */
  predicate TokenAt(v: string, d: char, w: string, i: nat) {
    && i + |w| <= |v| && v[i..i + |w|] == w
    && (i == 0 || v[i - 1] == d)
    && (i + |w| == |v| || v[i + |w|] == d)
  }

  /** The text before the first delimiter (or all of a text without one) is a token at 0. */
  lemma TokenAtStart(v: string, d: char, j: nat)
    requires j <= |v| && (j == |v| || v[j] == d)
    ensures TokenAt(v, d, v[..j], 0)
  {
    assert v[0..j] == v[..j];
  }

  /** The first piece of a split is a token at the start of the text. */
  lemma FirstPieceIsToken(v: string, d: char, w: string)
    requires 0 < |Split(v, d)| && w == Split(v, d)[0]
    ensures TokenAt(v, d, w, 0)
  {
    var j := IndexOf(v, d);
    SplitFirst(v, d);
    TokenAtStart(v, d, j);
  }

  /** A piece of a split is a token of the split text. */
  lemma {:induction false} PieceIsToken(v: string, d: char, k: nat, w: string) returns (i: nat)
    requires k < |Split(v, d)| && w == Split(v, d)[k]
    ensures TokenAt(v, d, w, i)
    decreases |v|, 2
  {
    if k == 0 {
      FirstPieceIsToken(v, d, w);
      i := 0;
    } else {
      i := LaterPieceIsToken(v, d, k, w);
    }
  }

  /** A later piece is a token of the text after the first delimiter, so of the whole text. */
  lemma {:induction false} LaterPieceIsToken(v: string, d: char, k: nat, w: string) returns (i: nat)
    requires 0 < k < |Split(v, d)| && w == Split(v, d)[k]
    ensures TokenAt(v, d, w, i)
    decreases |v|, 1
  {
    var j := IndexOf(v, d);
    var i' := TokenOfRest(v, d, k, w);
    i := i' + j + 1;
    TokenAfter(v, d, w, j, i');
  }

  /** A later piece is a token of the text after the first delimiter. */
  lemma {:induction false} TokenOfRest(v: string, d: char, k: nat, w: string) returns (i': nat)
    requires 0 < k < |Split(v, d)| && w == Split(v, d)[k]
    ensures IndexOf(v, d) < |v| && v[IndexOf(v, d)] == d
    ensures TokenAt(v[IndexOf(v, d) + 1..], d, w, i')
    decreases |v|, 0
  {
    SplitPiece(v, d, k);
    i' := PieceIsToken(v[IndexOf(v, d) + 1..], d, k - 1, w);
  }

  /** A member of a split is a token of the split text. */
  lemma MemberIsToken(v: string, d: char, w: string) returns (i: nat)
    requires w in Split(v, d)
    ensures TokenAt(v, d, w, i)
  {
    var k :| 0 <= k < |Split(v, d)| && Split(v, d)[k] == w;
    i := PieceIsToken(v, d, k, w);
  }

  /** A token after the first delimiter is a token of the whole text, and back. */
  lemma TokenShift(v: string, d: char, w: string, j: nat, i': nat)
    requires j < |v| && v[j] == d
    ensures TokenAt(v[j + 1..], d, w, i') <==> TokenAt(v, d, w, i' + j + 1)
  {
    var rest := v[j + 1..];
    var i := i' + j + 1;
    if i + |w| <= |v| {
      assert v[i..i + |w|] == rest[i'..i' + |w|];
      assert i' > 0 ==> v[i - 1] == rest[i' - 1];
      assert i + |w| < |v| ==> v[i + |w|] == rest[i' + |w|];
    }
  }

  /** A token of the text after a delimiter is a token of the whole text. */
  lemma TokenAfter(v: string, d: char, w: string, j: nat, i': nat)
    requires j < |v| && v[j] == d
    requires TokenAt(v[j + 1..], d, w, i')
    ensures TokenAt(v, d, w, i' + j + 1)
  {
    TokenShift(v, d, w, j, i');
  }

  /** A non-empty token free of the delimiter is a piece of the split. */
  lemma {:induction false} TokenIsMember(v: string, d: char, w: string, i: nat)
    requires w != [] && d !in w
    requires TokenAt(v, d, w, i)
    ensures w in Split(v, d)
    decreases |v|, 1
  {
    if i == 0 {
      FirstTokenIsMember(v, d, w);
    } else {
      LaterTokenIsMember(v, d, w, i);
    }
  }

  /** A token at the start, free of the delimiter, is the first piece. */
  lemma FirstTokenIsMember(v: string, d: char, w: string)
    requires w != [] && d !in w
    requires TokenAt(v, d, w, 0)
    ensures w in Split(v, d)
  {
    var j := IndexOf(v, d);
    assert forall k | 0 <= k < |w| :: v[k] == w[k] && w[k] != d;
    assert j == |w|;
    assert w == v[..j];
    SplitFirst(v, d);
  }

  /** A token after the first delimiter is a piece of the rest, so of the whole split. */
  lemma {:induction false} LaterTokenIsMember(v: string, d: char, w: string, i: nat)
    requires w != [] && d !in w
    requires i > 0 && TokenAt(v, d, w, i)
    ensures w in Split(v, d)
    decreases |v|, 0
  {
    var j := IndexOf(v, d);
    TokenBeforeRest(v, d, w, i);
    TokenIsMember(v[j + 1..], d, w, i - j - 1);
    MemberOfRest(v, d, w);
  }

  /** A token past the start lies after the first delimiter. */
  lemma TokenBeforeRest(v: string, d: char, w: string, i: nat)
    requires i > 0 && TokenAt(v, d, w, i)
    ensures IndexOf(v, d) < i
    ensures TokenAt(v[IndexOf(v, d) + 1..], d, w, i - IndexOf(v, d) - 1)
  {
    var j := IndexOf(v, d);
    assert j <= i - 1;
    TokenShift(v, d, w, j, i - j - 1);
  }

  /** A piece of the text after the first delimiter is a piece of the whole text. */
  lemma MemberOfRest(v: string, d: char, w: string)
    requires IndexOf(v, d) < |v| && w in Split(v[IndexOf(v, d) + 1..], d)
    ensures w in Split(v, d)
  {
    SplitRest(v, d);
    var k :| 0 <= k < |Split(v[IndexOf(v, d) + 1..], d)| && Split(v[IndexOf(v, d) + 1..], d)[k] == w;
    assert Split(v, d)[k + 1] == w;
  }

  /** The pieces of a split are exactly its non-empty delimiter-free tokens. */
  lemma SplitMemberIff(v: string, d: char, w: string)
    requires w != [] && d !in w
    ensures w in Split(v, d) <==> exists i: nat :: TokenAt(v, d, w, i)
  {
    if w in Split(v, d) {
      var i := MemberIsToken(v, d, w);
    }
    forall i: nat | TokenAt(v, d, w, i) ensures w in Split(v, d) {
      TokenIsMember(v, d, w, i);
    }
  }

  /**
   `accepts_gzip_encoding`: some item of the Accept-Encoding header, split on ',', is
   exactly "gzip". Items are not trimmed and quality values are not read (section 5.3.4 of
   RFC 7231 allows both).
   */
  function AcceptsGzip(headers: Fields): (r: bool)
    ensures r <==> Find(headers, "Accept-Encoding").Some? &&
                   exists i: nat :: TokenAt(Find(headers, "Accept-Encoding").value, ',', "gzip", i)
  {
    match Find(headers, "Accept-Encoding")
    case None => false
    case Some(v) =>
      SplitMemberIff(v, ',', "gzip");
      "gzip" in Split(v, ',')
  }

  /** A space after the comma hides gzip; without it gzip is accepted. */
  lemma AcceptsGzipExamples()
    ensures !AcceptsGzip([("Accept-Encoding", "deflate, gzip")])
    ensures AcceptsGzip([("accept-encoding", "deflate,gzip")])
    ensures !AcceptsGzip([])
  {
    SpacedGzipRejected();
    LowerCaseHeaderAccepted();
  }

  lemma SpacedGzipRejected()
    ensures !AcceptsGzip([("Accept-Encoding", "deflate, gzip")])
  {
    var h1: Fields := [("Accept-Encoding", "deflate, gzip")];
    assert Find(h1, "Accept-Encoding") == Some("deflate, gzip");
    var v := "deflate, gzip";
    forall i: nat ensures !TokenAt(v, ',', "gzip", i) {
      if i + 4 <= |v| && v[i..i + 4] == "gzip" {
        assert v[i] == 'g';
        assert i == 9;
      }
    }
  }

  lemma LowerCaseHeaderAccepted()
    ensures AcceptsGzip([("accept-encoding", "deflate,gzip")])
  {
    var h2: Fields := [("accept-encoding", "deflate,gzip")];
    assert ToLower("accept-encoding") == ToLower("Accept-Encoding") by {
      ToLowerIdempotent("accept-encoding");
      assert ToLower("Accept-Encoding") == "accept-encoding";
      assert ToLower("accept-encoding") == "accept-encoding";
    }
    assert Find(h2, "Accept-Encoding") == Some("deflate,gzip");
    assert TokenAt("deflate,gzip", ',', "gzip", 8);
  }

  /** What an absent request header is read as: the empty string. */
  function HeaderOrEmpty(headers: Fields, key: string): string {
    Find(headers, key).GetOr([])
  }

  /**
   The OPTIONS handler for every path. CORS is always enabled (`enable_CORS` is the
   constant true), so it echoes the Origin and the
   requested method and headers back as the allowed ones, allows credentials, and answers
   200 with the body "CORS is enabled".
   */
  function OptionsResponse(request: Fields): (resp: Response)
    ensures resp.status == "200 OK"
    ensures ContentLengthMatches(resp)
    ensures resp.body == "CORS is enabled"
    ensures && Find(resp.headers, "Access-Control-Allow-Origin") == Some(HeaderOrEmpty(request, "Origin"))
              && Find(resp.headers, "Access-Control-Allow-Credentials") == Some("true")
              && Find(resp.headers, "Access-Control-Allow-Methods") ==
                 Some(HeaderOrEmpty(request, "Access-Control-Request-Method"))
              && Find(resp.headers, "Access-Control-Allow-Headers") ==
                 Some(HeaderOrEmpty(request, "Access-Control-Request-Headers"))
  {
    var body := "CORS is enabled";
    var origin := HeaderOrEmpty(request, "Origin");
    var methods := HeaderOrEmpty(request, "Access-Control-Request-Method");
    var headers := HeaderOrEmpty(request, "Access-Control-Request-Headers");
    var length := NatToDecimal(|body|);
    OptionsHeaders(origin, methods, headers, length);
    Response("200 OK", OptionsFields(origin, methods, headers, length), body)
  }

  /** The five header lines of the preflight answer. */
  function OptionsFields(origin: string, methods: string, headers: string, length: string): (fields: Fields)
    ensures |fields| == 5
    ensures forall j | 0 <= j < 5 :: |fields[j].0| == [27, 32, 28, 28, 14][j]
  {
    [ ("Access-Control-Allow-Origin", origin),
      ("Access-Control-Allow-Credentials", "true"),
      ("Access-Control-Allow-Methods", methods),
      ("Access-Control-Allow-Headers", headers),
      ("Content-Length", length) ]
  }

  /** Each preflight header is found with the value it was given. */
  lemma OptionsHeaders(origin: string, methods: string, headers: string, length: string)
    ensures var fields := OptionsFields(origin, methods, headers, length);
            && Find(fields, "Content-Length") == Some(length)
            && Find(fields, "Access-Control-Allow-Origin") == Some(origin)
            && Find(fields, "Access-Control-Allow-Credentials") == Some("true")
            && Find(fields, "Access-Control-Allow-Methods") == Some(methods)
            && Find(fields, "Access-Control-Allow-Headers") == Some(headers)
  {
    var fields := OptionsFields(origin, methods, headers, length);
    FindByLength(fields, 0);
    FindByLength(fields, 1);
    FindByLength(fields, 4);
    OptionsAllowHeaders(fields);
  }

  /** The two allow headers of equal length are still told apart by their letters. */
  lemma OptionsAllowHeaders(fields: Fields)
    requires |fields| == 5 && forall j | 0 <= j < 5 :: |fields[j].0| == [27, 32, 28, 28, 14][j]
    requires fields[2].0 == "Access-Control-Allow-Methods" && fields[3].0 == "Access-Control-Allow-Headers"
    ensures Find(fields, "Access-Control-Allow-Methods") == Some(fields[2].1)
    ensures Find(fields, "Access-Control-Allow-Headers") == Some(fields[3].1)
  {
    forall j | 0 <= j < 2 ensures !EqualsIgnoreCase(fields[j].0, fields[2].0) && !EqualsIgnoreCase(fields[j].0, fields[3].0) {
      DifferentLengths(fields[j].0, fields[2].0);
      DifferentLengths(fields[j].0, fields[3].0);
    }
    MethodsIsNotHeaders();
    FindAt(fields, 2);
    FindAt(fields, 3);
  }

  lemma MethodsIsNotHeaders()
    ensures !EqualsIgnoreCase("Access-Control-Allow-Methods", "Access-Control-Allow-Headers")
    ensures !EqualsIgnoreCase("Access-Control-Allow-Headers", "Access-Control-Allow-Methods")
  {
    assert ToLower("Access-Control-Allow-Methods")[21] == 'm';
    assert ToLower("Access-Control-Allow-Headers")[21] == 'h';
  }
}

=== FILE: static_files.dfy ===
/**
 The static-file handler of the web UI (`webUI_get`, and the legacy `default_resource`):
 the requested path is resolved against the canonical web root, refused unless the root is
 a component-wise prefix of it, completed with "index.html" when it names a directory, and
 the file is sent with its length. Canonicalisation and file reading are the file system's:
 they are inputs to the model.
 */
module StaticFiles {
  import opened Wrappers
  import opened Text
  import opened Http

  /** A canonical filesystem path, as its sequence of components. */
  type Path = seq<string>

  /** The outcome of `boost::filesystem::canonical`: a path, or the text of the error it throws. */
  datatype Canonical = Resolved(path: Path, isDirectory: bool) | CanonError(what: string)

  /** `root` is a component-wise prefix of `path`. */
  predicate WithinRoot(root: Path, path: Path) {
    |root| <= |path| && path[..|root|] == root
  }

  /**
   The test the handler makes: the root has no more components than the path, and
   `std::equal` finds the root's components at the start of the path.
   */
  function RootCheck(root: Path, path: Path): (ok: bool)
    ensures ok <==> WithinRoot(root, path)
  {
    if |root| > |path| then false
    else
      assert WithinRoot(root, path) <==> forall k | 0 <= k < |root| :: root[k] == path[k] by {
        assert forall k | 0 <= k < |root| :: path[..|root|][k] == path[k];
      }
      forall k | 0 <= k < |root| :: root[k] == path[k]
  }

  /** The file sent: `index.html` inside a directory, the path itself otherwise. */
  function ServedPath(target: Canonical): Path
    requires target.Resolved?
  {
    if target.isDirectory then target.path + ["index.html"] else target.path
  }

  /** A directory inside the root still has its `index.html` inside the root. */
  lemma ServedPathWithinRoot(root: Path, target: Canonical)
    requires target.Resolved? && WithinRoot(root, target.path)
    ensures WithinRoot(root, ServedPath(target))
  {
    if target.isDirectory {
      assert (target.path + ["index.html"])[..|root|] == target.path[..|root|];
    }
  }

  /** The 400 answer: "Could not open path <request path>: <what the exception says>". */
  function BadRequest(requestPath: string, what: string): (resp: Response)
    ensures resp.status == "400 Bad Request"
    ensures ContentLengthMatches(resp)
  {
    var body := "Could not open path " + requestPath + ": " + what;
    Response("400 Bad Request", [("Content-Length", NatToDecimal(|body|))], body)
  }

  /** The message the handler throws for a path outside the root. */
  const OutsideRoot: string := "path must be within root path"

  /** The message the handler throws when the file cannot be opened. */
  const Unreadable: string := "could not read file"

  /**
   `webUI_get`: `webRoot` and `target` are what `canonical("webUI")` and
   `canonical(web_root_path / request->path)` give, `readFile` what reading a file gives.
   The file is sent, with Content-Length set to its length, only when both resolve, the
   target lies within the root and the file can be read; every failure answers 400 naming
   the request path and the reason.
   */
  function WebUiGet(webRoot: Canonical, target: Canonical, readFile: Path -> Option<string>,
                    requestPath: string): (resp: Response)
    ensures ContentLengthMatches(resp)
    ensures resp.status == "200 OK" <==>
              && webRoot.Resolved? && target.Resolved?
              && WithinRoot(webRoot.path, target.path)
              && readFile(ServedPath(target)).Some?
    ensures resp.status == "200 OK" ==> resp.body == readFile(ServedPath(target)).value
    ensures resp.status != "200 OK" ==> resp.status == "400 Bad Request"
    ensures webRoot.Resolved? && target.Resolved? && !WithinRoot(webRoot.path, target.path) ==>
              resp == BadRequest(requestPath, OutsideRoot)
    ensures webRoot.Resolved? && target.Resolved? && WithinRoot(webRoot.path, target.path) &&
            readFile(ServedPath(target)).None? ==>
              resp == BadRequest(requestPath, Unreadable)
  {
    if webRoot.CanonError? then BadRequest(requestPath, webRoot.what)
    else if target.CanonError? then BadRequest(requestPath, target.what)
    else if !RootCheck(webRoot.path, target.path) then BadRequest(requestPath, OutsideRoot)
    else
      match readFile(ServedPath(target))
      case None => BadRequest(requestPath, Unreadable)
      case Some(content) => Response("200 OK", [("Content-Length", NatToDecimal(|content|))], content)
  }

  /**
   The check works on components, not characters: a sibling directory whose name merely
   starts with the root's last component is outside the root.
   */
  lemma SiblingOutsideRoot()
    ensures !WithinRoot(["srv", "webUI"], ["srv", "webUI-evil", "index.html"])
    ensures WithinRoot(["srv", "webUI"], ["srv", "webUI", "scripts", "index.js"])
    ensures !WithinRoot(["srv", "webUI"], ["srv"])
  {
    assert ["srv", "webUI", "scripts", "index.js"][..2] == ["srv", "webUI"];
    assert ["srv", "webUI-evil", "index.html"][..2][1] == "webUI-evil";
    assert |"webUI-evil"| != |"webUI"|;
  }
}

=== FILE: text.dfy ===
/**
 Character classes and decimal conversions of the C library in the "C" locale,
 on strings modelled as `seq<char>`.
 */
module Text {

  /** `isdigit` */
  predicate IsDigit(c: char) {
    '0' <= c <= '9'
  }

  /** `isspace` in the "C" locale: space, \t, \n, \v, \f, \r. */
  predicate IsSpace(c: char) {
    c == ' ' || c == '\t' || c == '\n' || c == '\U{0B}' || c == '\U{0C}' || c == '\r'
  }

  predicate AllDigits(s: string) {
    forall i | 0 <= i < |s| :: IsDigit(s[i])
  }

  /** `::tolower` in the "C" locale: only 'A'..'Z' change. */
  function ToLowerChar(c: char): (r: char)
    ensures 'A' <= c <= 'Z' ==> 'a' <= r <= 'z' && r as int == c as int + 32
    ensures !('A' <= c <= 'Z') ==> r == c
  {
    if 'A' <= c <= 'Z' then (c as int + 32) as char else c
  }

  /** `std::transform(s.begin(), s.end(), s.begin(), ::tolower)` */
  function ToLower(s: string): (r: string)
    ensures |r| == |s|
    ensures forall i | 0 <= i < |s| :: r[i] == ToLowerChar(s[i])
  {
    seq(|s|, i requires 0 <= i < |s| => ToLowerChar(s[i]))
  }

  /** Lower-casing twice changes nothing more than lower-casing once. */
  lemma ToLowerIdempotent(s: string)
    ensures ToLower(ToLower(s)) == ToLower(s)
  {
  }

  /** The case-insensitive comparison SimpleWeb uses for header and query keys. */
  predicate EqualsIgnoreCase(a: string, b: string) {
    ToLower(a) == ToLower(b)
  }

  function DigitChar(d: nat): (c: char)
    requires d < 10
    ensures IsDigit(c)
  {
    ('0' as int + d) as char
  }

  function DigitValue(c: char): (d: nat)
    requires IsDigit(c)
    ensures d < 10
  {
    c as int - '0' as int
  }

  /** `std::to_string` for a non-negative integer. */
  function NatToDecimal(n: nat): (s: string)
    ensures |s| > 0 && AllDigits(s)
    decreases n
  {
    if n < 10 then [DigitChar(n)] else NatToDecimal(n / 10) + [DigitChar(n % 10)]
  }

  /** The value of a string of decimal digits (most significant first). */
  function DecimalValue(s: string): nat
    requires AllDigits(s)
    decreases |s|
  {
    if s == [] then 0 else DecimalValue(s[..|s| - 1]) * 10 + DigitValue(s[|s| - 1])
  }

  /** Reading back what `std::to_string` wrote gives the original number. */
  lemma {:induction false} DecimalRoundTrip(n: nat)
    ensures DecimalValue(NatToDecimal(n)) == n
    decreases n
  {
    if n >= 10 {
      var s := NatToDecimal(n / 10);
      DecimalRoundTrip(n / 10);
      assert (s + [DigitChar(n % 10)])[..|s|] == s;
    }
  }

  /** The position of the first `c` in `s`, or `|s|` when there is none. */
  function IndexOf(s: string, c: char): (i: nat)
    ensures i <= |s|
    ensures i < |s| ==> s[i] == c
    ensures forall k | 0 <= k < i :: s[k] != c
    decreases |s|
  {
    if s == [] then 0 else if s[0] == c then 0 else 1 + IndexOf(s[1..], c)
  }

  lemma IndexOfAbsent(s: string, c: char)
    requires c !in s
    ensures IndexOf(s, c) == |s|
  {
  }

  /** The first occurrence is the one position that holds `c` with no `c` before it. */
  lemma IndexOfUnique(s: string, c: char, i: nat)
    requires i <= |s| && (i < |s| ==> s[i] == c)
    requires forall k | 0 <= k < i :: s[k] != c
    ensures IndexOf(s, c) == i
  {
  }

  /** Locating `c` in `a + [c] + b` stops at the end of `a` when `a` holds no `c`. */
  lemma IndexOfAfterPrefix(a: string, c: char, b: string)
    requires c !in a
    ensures IndexOf(a + [c] + b, c) == |a|
  {
    var s := a + [c] + b;
    assert s[|a|] == c;
    forall k | 0 <= k < |a|
      ensures s[k] != c
    {
      assert s[k] == a[k] && a[k] in a;
    }
  }

  predicate StartsWith(s: string, prefix: string) {
    |prefix| <= |s| && s[..|prefix|] == prefix
  }

  /** Drops leading `isspace` characters, as a formatted extraction's sentry does. */
  function SkipSpaces(s: string): (r: string)
    ensures |r| <= |s| && r == s[|s| - |r|..]
    ensures r == [] || !IsSpace(r[0])
    decreases |s|
  {
    if s != [] && IsSpace(s[0]) then SkipSpaces(s[1..]) else s
  }

  /** The longest prefix made of decimal digits. */
  function LeadingDigits(s: string): (r: string)
    ensures StartsWith(s, r) && AllDigits(r)
    ensures |r| < |s| ==> !IsDigit(s[|r|])
    decreases |s|
  {
    if s != [] && IsDigit(s[0]) then [s[0]] + LeadingDigits(s[1..]) else []
  }

  /** What `c_str()` exposes of a string: everything before its first NUL. */
  function CString(s: string): (r: string)
    ensures StartsWith(s, r) && '\0' !in r
  {
    s[..IndexOf(s, '\0')]
  }

  /** `strncmp(a.c_str(), b.c_str(), k) == 0` */
  predicate StrnEqual(a: string, b: string, k: nat) {
    var x := CString(a);
    var y := CString(b);
    x[..if k < |x| then k else |x|] == y[..if k < |y| then k else |y|]
  }
}

=== FILE: utility.dfy ===
/**
 The string helpers of src/utility.cpp: `split_string`, `split_string_to_ulong`,
 `str_to_bool` and `random_string`.
 */
module Utility {
  import opened Wrappers
  import opened Text
  import opened IStream

  // ---------------------------------------------------------------------------
  // split_string

  /**
   Reference definition of the pieces repeated `std::getline(ss, piece, delim)` yields:
   the text between delimiters, where the text after a final delimiter is not a piece.
   */
  function Split(s: string, delim: char): (pieces: seq<string>)
    ensures s == [] <==> pieces == []
    decreases |s|
  {
    if s == [] then []
    else
      var i := IndexOf(s, delim);
      if i == |s| then [s] else [s[..i]] + Split(s[i + 1..], delim)
  }

  /** The first piece is the text before the first delimiter, or the whole text without one. */
  lemma SplitFirst(s: string, delim: char)
    requires s != []
    ensures Split(s, delim)[0] == s[..IndexOf(s, delim)]
    ensures IndexOf(s, delim) == |s| ==> |Split(s, delim)| == 1
  {
    assert s[..|s|] == s;
  }

  /** After the first delimiter the pieces are those of the rest. */
  lemma SplitRest(s: string, delim: char)
    requires IndexOf(s, delim) < |s|
    ensures Split(s, delim)[1..] == Split(s[IndexOf(s, delim) + 1..], delim)
  {
    var i := IndexOf(s, delim);
    SplitUnfold(s, delim);
    DropHead(s[..i], Split(s[i + 1..], delim));
  }

  lemma SplitUnfold(s: string, delim: char)
    requires IndexOf(s, delim) < |s|
    ensures Split(s, delim) == [s[..IndexOf(s, delim)]] + Split(s[IndexOf(s, delim) + 1..], delim)
  {
  }

  lemma DropHead(head: string, tail: seq<string>)
    ensures ([head] + tail)[1..] == tail
  {
  }

  /** A later piece of a split is a piece of the text after the first delimiter. */
  lemma SplitPiece(s: string, delim: char, k: nat)
    requires 0 < k < |Split(s, delim)|
    ensures IndexOf(s, delim) < |s|
    ensures k - 1 < |Split(s[IndexOf(s, delim) + 1..], delim)|
    ensures Split(s, delim)[k] == Split(s[IndexOf(s, delim) + 1..], delim)[k - 1]
  {
    SplitFirst(s, delim);
    SplitRest(s, delim);
    assert Split(s, delim)[1..][k - 1] == Split(s, delim)[k];
  }

  /** No piece holds the delimiter. */
  lemma {:induction false} SplitPiecesFree(s: string, delim: char)
    ensures forall k | 0 <= k < |Split(s, delim)| :: delim !in Split(s, delim)[k]
    decreases |s|
  {
    if s != [] {
      var i := IndexOf(s, delim);
      if i < |s| {
        SplitPiecesFree(s[i + 1..], delim);
        var pieces := Split(s, delim);
        assert pieces == [s[..i]] + Split(s[i + 1..], delim);
        assert delim !in s[..i];
        forall k | 1 <= k < |pieces| ensures delim !in pieces[k] {
          assert pieces[k] == Split(s[i + 1..], delim)[k - 1];
        }
      } else {
        assert delim !in s;
      }
    }
  }

  /** `last` is the tail of `u` after its last delimiter, or all of `u` when it has none. */
  ghost predicate TailAfterDelim(u: string, last: string, delim: char) {
    |last| <= |u| && u[|u| - |last|..] == last
    && (|last| == |u| || u[|u| - |last| - 1] == delim)
  }

  /** The last piece is the tail of the text, once one trailing delimiter is dropped, after its last delimiter. */
  lemma {:induction false} SplitLast(s: string, delim: char)
    requires s != []
    ensures TailAfterDelim(DropTrailing(s, delim), Split(s, delim)[|Split(s, delim)| - 1], delim)
    decreases |s|
  {
    var i := IndexOf(s, delim);
    if i == |s| {
      SplitFirst(s, delim);
      assert s[..|s|] == s;
    } else {
      SplitUnfold(s, delim);
      var t := s[i + 1..];
      if t != [] {
        SplitLast(t, delim);
        LastOfCons(s[..i], Split(t, delim));
        assert s == s[..i + 1] + t;
        DropTrailingAppend(s[..i + 1], t, delim);
        TailAfterDelimExtend(s[..i + 1], DropTrailing(t, delim), Split(t, delim)[|Split(t, delim)| - 1], delim);
      }
    }
  }

  lemma LastOfCons(head: string, tail: seq<string>)
    requires tail != []
    ensures ([head] + tail)[|[head] + tail| - 1] == tail[|tail| - 1]
  {
  }

  lemma DropTrailingAppend(a: string, t: string, delim: char)
    requires t != []
    ensures DropTrailing(a + t, delim) == a + DropTrailing(t, delim)
  {
    if t[|t| - 1] == delim {
      assert (a + t)[..|a + t| - 1] == a + t[..|t| - 1];
    }
  }

  lemma TailAfterDelimExtend(a: string, u: string, last: string, delim: char)
    requires a != [] && a[|a| - 1] == delim
    requires TailAfterDelim(u, last, delim)
    ensures TailAfterDelim(a + u, last, delim)
  {
    assert (a + u)[|a + u| - |last|..] == u[|u| - |last|..];
    if |last| == |u| {
      assert (a + u)[|a + u| - |last| - 1] == a[|a| - 1];
    } else {
      assert (a + u)[|a + u| - |last| - 1] == u[|u| - |last| - 1];
    }
  }

  /** The pieces glued back together with one delimiter between neighbours. */
  function Join(pieces: seq<string>, delim: char): string
    decreases |pieces|
  {
    if pieces == [] then []
    else if |pieces| == 1 then pieces[0]
    else pieces[0] + [delim] + Join(pieces[1..], delim)
  }

  /** `s` without one trailing delimiter. */
  function DropTrailing(s: string, delim: char): string {
    if s != [] && s[|s| - 1] == delim then s[..|s| - 1] else s
  }

  /** One successful `std::getline` yields the first piece and leaves the rest to split. */
  lemma GetlineSplits(st: Stream, delim: char, previous: string)
    requires Good(st) && !Getline(st, delim, previous).stream.fail
    ensures var got := Getline(st, delim, previous);
            [got.text] + Split(got.stream.rest, delim) == Split(st.rest, delim)
  {
    var got := Getline(st, delim, previous);
    if st.rest == got.text + [delim] + got.stream.rest {
      IndexOfAfterPrefix(got.text, delim, got.stream.rest);
      assert (got.text + [delim] + got.stream.rest)[|got.text| + 1..] == got.stream.rest;
    } else {
      IndexOfAbsent(got.text, delim);
    }
  }

  /** `split_string(s, delim)`: its `std::getline` loop. */
  method SplitString(s: string, delim: char) returns (pieces: seq<string>)
    ensures pieces == Split(s, delim)
  {
    pieces := [];
    var st := Open(s);
    var temp: string := [];
    while true
      invariant pieces + Split(st.rest, delim) == Split(s, delim)
      invariant !st.fail && (st.eof ==> st.rest == [])
      decreases |st.rest|
    {
      var got := Getline(st, delim, temp);
      if got.stream.fail {
        break;
      }
      GetlineSplits(st, delim, temp);
      st, temp := got.stream, got.text;
      pieces := pieces + [temp];
    }
  }

  lemma JoinCons(head: string, rest: seq<string>, delim: char)
    requires rest != []
    ensures Join([head] + rest, delim) == head + [delim] + Join(rest, delim)
  {
    assert ([head] + rest)[1..] == rest;
  }

  lemma DropTrailingCons(head: string, delim: char, tail: string)
    requires tail != []
    ensures DropTrailing(head + [delim] + tail, delim) == head + [delim] + DropTrailing(tail, delim)
  {
    var s := head + [delim] + tail;
    assert s[|s| - 1] == tail[|tail| - 1];
    if tail[|tail| - 1] == delim {
      assert s[..|s| - 1] == head + [delim] + tail[..|tail| - 1];
    }
  }

  /** Gluing the pieces back gives the input, short of one trailing delimiter. */
  lemma {:induction false} JoinSplit(s: string, delim: char)
    ensures Join(Split(s, delim), delim) == DropTrailing(s, delim)
    decreases |s|
  {
    if s != [] {
      var i := IndexOf(s, delim);
      if i < |s| {
        var head, tail := s[..i], s[i + 1..];
        assert s == head + [delim] + tail;
        assert Split(s, delim) == [head] + Split(tail, delim);
        if tail == [] {
          assert s[..|s| - 1] == head;
        } else {
          JoinCons(head, Split(tail, delim), delim);
          JoinSplit(tail, delim);
          DropTrailingCons(head, delim, tail);
        }
      }
    }
  }

  /** Splitting the glued pieces gives them back, unless the last one is empty. */
  lemma {:induction false} SplitJoin(pieces: seq<string>, delim: char)
    requires forall k | 0 <= k < |pieces| :: delim !in pieces[k]
    requires pieces != [] ==> pieces[|pieces| - 1] != []
    ensures Split(Join(pieces, delim), delim) == pieces
    decreases |pieces|
  {
    if |pieces| == 1 {
      IndexOfAbsent(pieces[0], delim);
    } else if |pieces| > 1 {
      var rest := Join(pieces[1..], delim);
      IndexOfAfterPrefix(pieces[0], delim, rest);
      SplitJoin(pieces[1..], delim);
      var s := pieces[0] + [delim] + rest;
      assert s[|pieces[0]| + 1..] == rest;
      assert s[..|pieces[0]|] == pieces[0];
    }
  }

  /** Splitting at a delimiter splits the two sides independently. */
  lemma {:induction false} SplitAppend(x: string, delim: char, y: string)
    ensures Split(x + [delim] + y, delim) == Split(x + [delim], delim) + Split(y, delim)
    decreases |x|, 1
  {
    if IndexOf(x, delim) < |x| {
      SplitAppendEarly(x, delim, y);
    } else {
      SplitAppendAt(x, delim, y);
    }
  }

  /** With no delimiter in `x`, the delimiter after it ends the first piece. */
  lemma SplitAppendAt(x: string, delim: char, y: string)
    requires IndexOf(x, delim) == |x|
    ensures Split(x + [delim] + y, delim) == Split(x + [delim], delim) + Split(y, delim)
  {
    var s := x + [delim] + y;
    assert delim !in x by {
      forall k | 0 <= k < |x| ensures x[k] != delim { }
    }
    IndexOfAfterPrefix(x, delim, y);
    IndexOfAfterPrefix(x, delim, []);
    assert x + [delim] + [] == x + [delim];
    assert s[..|x|] == x && s[|x| + 1..] == y;
    assert (x + [delim])[..|x|] == x && (x + [delim])[|x| + 1..] == [];
    assert Split(x + [delim], delim) == [x];
    assert Split(s, delim) == [x] + Split(y, delim);
  }

  /** A delimiter inside `x` ends the first piece there, in both texts. */
  lemma {:induction false} SplitAppendEarly(x: string, delim: char, y: string)
    requires IndexOf(x, delim) < |x|
    ensures Split(x + [delim] + y, delim) == Split(x + [delim], delim) + Split(y, delim)
    decreases |x|, 0
  {
    var i := IndexOf(x, delim);
    var s := x + [delim] + y;
    var x' := x[i + 1..];
    SplitAppendHead(x, delim, y);
    SplitAppendHeadAlone(x, delim);
    SplitAppend(x', delim, y);
    PiecesAssociate([x[..i]], Split(x' + [delim], delim), Split(y, delim));
  }

  /** `SplitAppendHead` with nothing after the delimiter. */
  lemma SplitAppendHeadAlone(x: string, delim: char)
    requires IndexOf(x, delim) < |x|
    ensures var i := IndexOf(x, delim);
            Split(x + [delim], delim) == [x[..i]] + Split(x[i + 1..] + [delim], delim)
  {
    var i := IndexOf(x, delim);
    var t := x + [delim];
    IndexOfUnique(t, delim, i);
    assert t[..i] == x[..i];
    assert t[i + 1..] == x[i + 1..] + [delim];
  }

  lemma PiecesAssociate(a: seq<string>, b: seq<string>, c: seq<string>)
    ensures a + (b + c) == a + b + c
  {
  }

  /** The first piece of `x + [delim] + y` ends where the first piece of `x` ends. */
  lemma SplitAppendHead(x: string, delim: char, y: string)
    requires IndexOf(x, delim) < |x|
    ensures var i := IndexOf(x, delim);
            Split(x + [delim] + y, delim) == [x[..i]] + Split(x[i + 1..] + [delim] + y, delim)
  {
    var i := IndexOf(x, delim);
    var s := x + [delim] + y;
    IndexOfUnique(s, delim, i);
    assert s[..i] == x[..i];
    assert s[i + 1..] == x[i + 1..] + [delim] + y;
    assert Split(s, delim) == [s[..i]] + Split(s[i + 1..], delim);
  }

  // ---------------------------------------------------------------------------
  // std::stoul and split_string_to_ulong

  /** The largest `unsigned long` on the 64-bit platforms the daemon targets. */
  const ULongMax: nat := 0xFFFF_FFFF_FFFF_FFFF

  /**
   `std::stoul(s)` in base 10: leading white space is skipped, an optional sign is read,
   then the longest run of digits. No digit throws `std::invalid_argument`, a magnitude
   above `ULongMax` throws `std::out_of_range`; both are `None`. A minus sign negates
   modulo 2^64.
   */
  function Stoul(s: string): (r: Option<nat>)
    ensures r.Some? ==> r.value <= ULongMax
  {
    var t := SkipSpaces(s);
    var negative := t != [] && t[0] == '-';
    var u := if t != [] && (t[0] == '+' || t[0] == '-') then t[1..] else t;
    var digits := LeadingDigits(u);
    if digits == [] then None
    else
      var v := DecimalValue(digits);
      if v > ULongMax then None
      else if negative then Some((ULongMax + 1 - v) % (ULongMax + 1))
      else Some(v)
  }

  lemma {:induction false} LeadingDigitsOfDigits(s: string)
    requires AllDigits(s)
    ensures LeadingDigits(s) == s
    decreases |s|
  {
    if s != [] {
      LeadingDigitsOfDigits(s[1..]);
    }
  }

  /** On a non-empty digit string `stoul` gives its value, or throws when it does not fit. */
  lemma StoulOfDigits(s: string)
    requires s != [] && AllDigits(s)
    ensures Stoul(s) == if DecimalValue(s) <= ULongMax then Some(DecimalValue(s)) else None
  {
    assert IsDigit(s[0]);
    assert !IsSpace(s[0]) && s[0] != '+' && s[0] != '-';
    assert SkipSpaces(s) == s;
    LeadingDigitsOfDigits(s);
  }

  /** `stoul(std::to_string(n)) == n` for every `unsigned long` n. */
  lemma StoulToDecimal(n: nat)
    requires n <= ULongMax
    ensures Stoul(NatToDecimal(n)) == Some(n)
  {
    StoulOfDigits(NatToDecimal(n));
    DecimalRoundTrip(n);
  }

  /** What `split_string_to_ulong` accepts: its callers pass the `[0-9,]*` group of a route. */
  predicate IdListText(s: string) {
    forall i | 0 <= i < |s| :: s[i] == ',' || IsDigit(s[i])
  }

  /** The items a list keeps once its empty strings are skipped, in order. */
  function NonEmpty(items: seq<string>): (r: seq<string>)
    ensures forall k | 0 <= k < |r| :: r[k] != [] && r[k] in items
    decreases |items|
  {
    if items == [] then []
    else if items[0] == [] then NonEmpty(items[1..])
    else [items[0]] + NonEmpty(items[1..])
  }

  lemma {:induction false} SplitOfIdList(s: string)
    requires IdListText(s)
    ensures forall k | 0 <= k < |Split(s, ',')| :: AllDigits(Split(s, ',')[k])
    decreases |s|
  {
    if s != [] {
      var i := IndexOf(s, ',');
      if i < |s| {
        SplitOfIdList(s[i + 1..]);
      }
    }
  }

  /** The numerals of an id list, in order, empty items skipped. */
  function IdItems(s: string): (items: seq<string>)
    requires IdListText(s)
    ensures forall k | 0 <= k < |items| :: items[k] != [] && AllDigits(items[k])
  {
    SplitOfIdList(s);
    NonEmpty(Split(s, ','))
  }

  /** `stoul` applied to each non-empty item, stopping at the first that throws. */
  function NumbersOf(items: seq<string>): (r: Option<seq<nat>>)
    decreases |items|
  {
    if items == [] then Some([])
    else if items[0] == [] then NumbersOf(items[1..])
    else
      match Stoul(items[0])
      case None => None
      case Some(v) =>
        match NumbersOf(items[1..])
        case None => None
        case Some(vs) => Some([v] + vs)
  }

  /** Every item is a numeral (possibly empty). */
  predicate AllNumerals(items: seq<string>) {
    forall k | 0 <= k < |items| :: AllDigits(items[k])
  }

  /** Every item's value fits in an `unsigned long`. */
  predicate AllFit(items: seq<string>)
    requires AllNumerals(items)
  {
    forall k | 0 <= k < |items| :: DecimalValue(items[k]) <= ULongMax
  }

  /** The values of the items, in order. */
  function Values(items: seq<string>): (vs: seq<nat>)
    requires AllNumerals(items)
    ensures |vs| == |items|
    ensures forall k | 0 <= k < |items| :: vs[k] == DecimalValue(items[k])
  {
    seq(|items|, k requires 0 <= k < |items| => DecimalValue(items[k]))
  }

  lemma AllNumeralsCons(x: string, rest: seq<string>)
    ensures AllNumerals([x] + rest) <==> AllDigits(x) && AllNumerals(rest)
  {
    var items := [x] + rest;
    assert items[0] == x;
    if AllNumerals(items) {
      forall k | 0 <= k < |rest| ensures AllDigits(rest[k]) { assert rest[k] == items[k + 1]; }
    }
    if AllDigits(x) && AllNumerals(rest) {
      forall k | 0 <= k < |items| ensures AllDigits(items[k]) {
        if k > 0 { assert items[k] == rest[k - 1]; }
      }
    }
  }

  lemma FitsCons(x: string, rest: seq<string>)
    requires AllDigits(x) && AllNumerals(rest)
    ensures AllNumerals([x] + rest)
    ensures AllFit([x] + rest) <==> DecimalValue(x) <= ULongMax && AllFit(rest)
    ensures Values([x] + rest) == [DecimalValue(x)] + Values(rest)
  {
    AllNumeralsCons(x, rest);
    var items := [x] + rest;
    assert items[0] == x;
    if AllFit(items) {
      forall k | 0 <= k < |rest| ensures DecimalValue(rest[k]) <= ULongMax { assert rest[k] == items[k + 1]; }
    }
    if DecimalValue(x) <= ULongMax && AllFit(rest) {
      forall k | 0 <= k < |items| ensures DecimalValue(items[k]) <= ULongMax {
        if k > 0 { assert items[k] == rest[k - 1]; }
      }
    }
  }

  lemma {:induction false} NumbersOfDigits(items: seq<string>)
    requires AllNumerals(items)
    ensures AllNumerals(NonEmpty(items))
    ensures NumbersOf(items).Some? <==> AllFit(NonEmpty(items))
    ensures NumbersOf(items).Some? ==> NumbersOf(items).value == Values(NonEmpty(items))
    decreases |items|
  {
    if items != [] {
      var tail := items[1..];
      assert items == [items[0]] + tail;
      AllNumeralsCons(items[0], tail);
      NumbersOfDigits(tail);
      if items[0] != [] {
        StoulOfDigits(items[0]);
        FitsCons(items[0], NonEmpty(tail));
      }
    }
  }

  /**
   `split_string_to_ulong(str, delim)`: always splits on ',' whatever `delim` is, skips
   empty items and converts the others in order. `None` models the `std::out_of_range`
   a numeral above `ULongMax` raises.
   */
  function SplitStringToUlong(str: string, delim: char): (r: Option<seq<nat>>)
    requires IdListText(str)
    ensures r.Some? <==> AllFit(IdItems(str))
    ensures r.Some? ==> r.value == Values(IdItems(str))
  {
    SplitOfIdList(str);
    NumbersOfDigits(Split(str, ','));
    NumbersOf(Split(str, ','))
  }

  /** The decimal numerals of `ns`, in order. */
  function Numerals(ns: seq<nat>): (r: seq<string>)
    ensures |r| == |ns| && forall k | 0 <= k < |ns| :: r[k] == NatToDecimal(ns[k])
  {
    seq(|ns|, k requires 0 <= k < |ns| => NatToDecimal(ns[k]))
  }

  /** The decimal numerals of `ns` joined with ','. */
  function JoinNumbers(ns: seq<nat>): string {
    Join(Numerals(ns), ',')
  }

  lemma {:induction false} JoinNumbersIsIdList(ns: seq<nat>)
    ensures IdListText(JoinNumbers(ns))
    decreases |ns|
  {
    if |ns| > 1 {
      JoinNumbersIsIdList(ns[1..]);
      assert Numerals(ns)[1..] == Numerals(ns[1..]);
    }
  }

  /** `NumbersOf` on a list starting with a numeral that converts. */
  lemma NumbersOfCons(items: seq<string>, v: nat, vs: seq<nat>)
    requires items != [] && items[0] != [] && Stoul(items[0]) == Some(v)
    requires NumbersOf(items[1..]) == Some(vs)
    ensures NumbersOf(items) == Some([v] + vs)
  {
  }

  lemma NatsHeadTail(ns: seq<nat>)
    requires ns != []
    ensures [ns[0]] + ns[1..] == ns
  {
  }

  lemma {:induction false} NumbersOfNumerals(ns: seq<nat>)
    requires forall k | 0 <= k < |ns| :: ns[k] <= ULongMax
    ensures NumbersOf(Numerals(ns)) == Some(ns)
    decreases |ns|
  {
    if ns != [] {
      var numerals := Numerals(ns);
      StoulToDecimal(ns[0]);
      NumbersOfNumerals(ns[1..]);
      assert numerals[1..] == Numerals(ns[1..]);
      NumbersOfCons(numerals, ns[0], ns[1..]);
      NatsHeadTail(ns);
    }
  }

  /** Writing ids as a comma-separated list and reading them back, with any `delim`, gives the ids. */
  lemma SplitStringToUlongRoundTrip(ns: seq<nat>, delim: char)
    requires forall k | 0 <= k < |ns| :: ns[k] <= ULongMax
    ensures IdListText(JoinNumbers(ns))
    ensures SplitStringToUlong(JoinNumbers(ns), delim) == Some(ns)
  {
    JoinNumbersIsIdList(ns);
    var numerals := Numerals(ns);
    forall k | 0 <= k < |numerals|
      ensures ',' !in numerals[k]
    {
      assert AllDigits(numerals[k]);
      forall j | 0 <= j < |numerals[k]|
        ensures numerals[k][j] != ','
      {
        assert IsDigit(numerals[k][j]);
      }
    }
    SplitJoin(numerals, ',');
    NumbersOfNumerals(ns);
  }

  /** An empty id list gives no ids. */
  lemma SplitStringToUlongEmpty(delim: char)
    ensures SplitStringToUlong("", delim) == Some([])
  {
  }

  lemma SplitOneEmptyTwo()
    ensures Split("1,,2", ',') == ["1", "", "2"]
  {
    var s := "1,,2";
    assert Split(",2", ',') == [""] + ["2"] by {
      assert IndexOf(",2", ',') == 0;
      assert ",2"[..0] == "" && ",2"[1..] == "2";
      IndexOfAbsent("2", ',');
    }
    assert IndexOf(s, ',') == 1;
    assert s[..1] == "1" && s[2..] == ",2";
  }

  lemma IdItemsOneEmptyTwo()
    ensures IdItems("1,,2") == ["1", "2"]
  {
    SplitOneEmptyTwo();
    assert ["1", "", "2"][1..] == ["", "2"];
    assert ["", "2"][1..] == ["2"];
    assert ["2"][1..] == [];
  }

  /** An empty item between two commas is skipped: "1,,2" gives [1, 2]. */
  lemma SplitStringToUlongSkipsEmpty(delim: char)
    ensures SplitStringToUlong("1,,2", delim) == Some([1, 2])
  {
    IdItemsOneEmptyTwo();
    OneTwoValues();
  }

  lemma OneTwoValues()
    ensures AllNumerals(["1", "2"]) && AllFit(["1", "2"]) && Values(["1", "2"]) == [1, 2]
  {
    var items := ["1", "2"];
    assert DecimalValue("1") == 1 by { assert "1"[..0] == []; }
    assert DecimalValue("2") == 2 by { assert "2"[..0] == []; }
    assert items[0] == "1" && items[1] == "2";
  }

  /** The getline examples: nothing from "", a trailing delimiter dropped, a leading one kept. */
  lemma SplitExamples()
    ensures Split("", ',') == []
    ensures Split("a,", ',') == ["a"]
    ensures Split(",a", ',') == ["", "a"]
  {
    assert IndexOf("a,", ',') == 1;
    assert "a,"[..1] == "a" && "a,"[2..] == [];
    assert IndexOf(",a", ',') == 0;
    assert ",a"[..0] == [] && ",a"[1..] == "a";
    IndexOfAbsent("a", ',');
  }

  // ---------------------------------------------------------------------------
  // str_to_bool

  /**
   `std::istringstream(s) >> std::boolalpha >> b`: the extraction's sentry skips leading
   white space and, when nothing follows it, fails without touching `b`, whose value then
   stays indeterminate (None). Otherwise the characters are matched against "true" and
   "false" one by one, stopping as soon as a name is complete; a failed match stores false.
   */
  function ReadBoolAlpha(s: string): (b: Option<bool>)
    ensures b.None? <==> AllSpaces(s)
    ensures b.Some? && b.value ==> |s| >= 4
  {
    SkipSpacesEmpty(s);
    if SkipSpaces(s) == [] then None else Some(StartsWith(SkipSpaces(s), "true"))
  }

  /** `str_to_bool(s)`: lower-case, then read with `boolalpha`; None where `b` is never written. */
  function StrToBool(s: string): (b: Option<bool>)
    ensures b.None? <==> AllSpaces(s)
  {
    LowerSpaces(s);
    ReadBoolAlpha(ToLower(s))
  }

  /** Lower-casing keeps white space and everything else apart. */
  lemma LowerSpaces(s: string)
    ensures AllSpaces(ToLower(s)) <==> AllSpaces(s)
  {
    assert forall i | 0 <= i < |s| :: IsSpace(ToLower(s)[i]) <==> IsSpace(s[i]);
  }

  predicate AllSpaces(s: string) {
    forall i | 0 <= i < |s| :: IsSpace(s[i])
  }

  /** `s` holds "true", in any case, right after `k` white-space characters. */
  predicate TrueAt(s: string, k: nat) {
    k + 4 <= |s| && AllSpaces(s[..k]) && ToLower(s[k..k + 4]) == "true"
  }

  lemma {:induction false} SkipSpacesLower(s: string)
    ensures SkipSpaces(ToLower(s)) == ToLower(SkipSpaces(s))
    decreases |s|
  {
    if s != [] {
      assert ToLower(s)[1..] == ToLower(s[1..]);
      assert IsSpace(ToLower(s)[0]) <==> IsSpace(s[0]);
      SkipSpacesLower(s[1..]);
    }
  }

  lemma {:induction false} SkipSpacesPrefix(s: string)
    ensures AllSpaces(s[..|s| - |SkipSpaces(s)|])
    decreases |s|
  {
    if s != [] && IsSpace(s[0]) {
      SkipSpacesPrefix(s[1..]);
      var n := |s| - |SkipSpaces(s)|;
      assert SkipSpaces(s) == SkipSpaces(s[1..]);
      AllSpacesCons(s[0], s[1..][..n - 1]);
      PrefixCons(s, n);
    }
  }

  lemma PrefixCons(s: string, n: nat)
    requires 1 <= n <= |s|
    ensures s[..n] == [s[0]] + s[1..][..n - 1]
  {
  }

  lemma AllSpacesCons(c: char, t: string)
    requires IsSpace(c) && AllSpaces(t)
    ensures AllSpaces([c] + t)
  {
    assert forall i | 1 <= i < |t| + 1 :: ([c] + t)[i] == t[i - 1];
  }

  /** Skipping white space stops at the first character that is not white space. */
  lemma {:induction false} SkipSpacesAfter(s: string, k: nat)
    requires k <= |s| && AllSpaces(s[..k])
    requires k < |s| ==> !IsSpace(s[k])
    ensures SkipSpaces(s) == s[k..]
    decreases k
  {
    if k > 0 {
      assert s[..k][0] == s[0];
      assert s[1..][..k - 1] == s[..k][1..];
      SkipSpacesAfter(s[1..], k - 1);
      assert s[1..][k - 1..] == s[k..];
    }
  }

  lemma LowerPrefix(t: string)
    requires |t| >= 4
    ensures ToLower(t)[..4] == ToLower(t[..4])
  {
  }

  /** After the skipped white space a true reading starts with "true" in some case. */
  lemma StrToBoolSkipped(s: string)
    requires StrToBool(s) == Some(true)
    ensures |SkipSpaces(s)| >= 4 && ToLower(SkipSpaces(s)[..4]) == "true"
  {
    var t := SkipSpaces(s);
    ReadTrueStartsWith(ToLower(s));
    SkipSpacesLower(s);
    LowerPrefix(t);
  }

  lemma ReadTrueStartsWith(u: string)
    requires ReadBoolAlpha(u) == Some(true)
    ensures StartsWith(SkipSpaces(u), "true")
  {
  }

  /** A true reading has "true" right after the skipped white space. */
  lemma SkippedTrueAt(s: string)
    requires |SkipSpaces(s)| >= 4 && ToLower(SkipSpaces(s)[..4]) == "true"
    ensures TrueAt(s, |s| - |SkipSpaces(s)|)
  {
    var t := SkipSpaces(s);
    var m := |s| - |t|;
    SkipSpacesPrefix(s);
    assert s[m..m + 4] == t[..4];
  }

  /** "true" after white space, in any case, reads as true. */
  lemma TrueAtReadsTrue(s: string, k: nat)
    requires TrueAt(s, k)
    ensures StrToBool(s) == Some(true)
  {
    var t := s[k..];
    assert !IsSpace(s[k]) by {
      assert ToLowerChar(s[k]) == ToLower(s[k..k + 4])[0] == 't';
    }
    SkipSpacesAfter(s, k);
    SkipSpacesLower(s);
    assert SkipSpaces(ToLower(s)) == ToLower(t);
    LowerPrefix(t);
    assert t[..4] == s[k..k + 4];
    assert ToLower(t)[..4] == "true";
  }

  /** Skipping white space leaves nothing exactly when the text is all white space. */
  lemma SkipSpacesEmpty(s: string)
    ensures SkipSpaces(s) == [] <==> AllSpaces(s)
  {
    SkipSpacesPrefix(s);
    if AllSpaces(s) {
      SkipSpacesAfter(s, |s|);
    }
  }

  /**
   `str_to_bool` leaves its result unwritten exactly when the input is empty or all white
   space. Otherwise it is true exactly when the input, ignoring case and after leading white
   space, begins with "true"; every other input, "false" included, gives false.
   */
  lemma StrToBoolMeaning(s: string)
    ensures StrToBool(s).None? <==> AllSpaces(s)
    ensures StrToBool(s) == Some(true) <==> exists k: nat :: TrueAt(s, k)
    ensures StrToBool(s) == Some(false) <==> !AllSpaces(s) && !exists k: nat :: TrueAt(s, k)
  {
    if StrToBool(s) == Some(true) {
      StrToBoolSkipped(s);
      SkippedTrueAt(s);
    }
    if exists k: nat :: TrueAt(s, k) {
      var k: nat :| TrueAt(s, k);
      TrueAtReadsTrue(s, k);
    }
  }

  /** `s` holds "true", in lower case, right after `k` white-space characters. */
  predicate ExactTrueAt(s: string, k: nat) {
    k + 4 <= |s| && AllSpaces(s[..k]) && s[k..k + 4] == "true"
  }

  /**
   The `boolalpha` reading on its own is case-sensitive: it is true exactly when "true" in
   lower case follows the leading white space, and false for any other text that is not
   all white space.
   */
  lemma ReadBoolAlphaMeaning(s: string)
    ensures ReadBoolAlpha(s) == Some(true) <==> exists k: nat :: ExactTrueAt(s, k)
    ensures ReadBoolAlpha(s) == Some(false) <==> !AllSpaces(s) && !exists k: nat :: ExactTrueAt(s, k)
  {
    if ReadBoolAlpha(s) == Some(true) {
      ReadTrueStartsWith(s);
      SkipSpacesPrefix(s);
      var t := SkipSpaces(s);
      var m := |s| - |t|;
      assert s[m..m + 4] == t[..4];
      assert ExactTrueAt(s, m);
    }
    if exists k: nat :: ExactTrueAt(s, k) {
      var k: nat :| ExactTrueAt(s, k);
      ExactTrueReadsTrue(s, k);
    }
  }

  lemma ExactTrueReadsTrue(s: string, k: nat)
    requires ExactTrueAt(s, k)
    ensures ReadBoolAlpha(s) == Some(true)
  {
    assert s[k] == s[k..k + 4][0] == 't';
    SkipSpacesAfter(s, k);
    assert s[k..][..4] == s[k..k + 4];
  }

  /** Upper-case "TRUE" read without lower-casing is false. */
  lemma ReadBoolAlphaUpperFalse()
    ensures ReadBoolAlpha("TRUE") == Some(false)
  {
    assert SkipSpaces("TRUE") == "TRUE" by {
      assert !IsSpace("TRUE"[0]);
    }
    assert "TRUE"[..4][0] != "true"[0];
  }

  /** Upper-case "TRUE" reads as true. */
  lemma StrToBoolUpperTrue()
    ensures StrToBool("TRUE") == Some(true)
  {
    var t := ToLower("TRUE");
    assert t == "true" by {
      assert t[0] == 't' && t[1] == 'r' && t[2] == 'u' && t[3] == 'e';
    }
    assert SkipSpaces(t) == t by {
      assert !IsSpace(t[0]);
    }
  }

  /** "true" reads as true, before and after lower-casing. */
  lemma TrueReadsTrue()
    ensures ReadBoolAlpha("true") == Some(true)
    ensures StrToBool("true") == Some(true)
  {
    var t := ToLower("true");
    assert t == "true" by {
      assert t[0] == 't' && t[1] == 'r' && t[2] == 'u' && t[3] == 'e';
    }
    assert SkipSpaces(t) == t by {
      assert !IsSpace(t[0]);
    }
  }

  /** "false" reads as false. */
  lemma FalseReadsFalse()
    ensures StrToBool("false") == Some(false)
  {
    var t := ToLower("false");
    assert t[0] == 'f';
    assert SkipSpaces(t) == t by {
      assert !IsSpace(t[0]);
    }
    assert t[..4][0] != "true"[0];
  }

  /** Mixed-case "False" reads as false. */
  lemma StrToBoolMixedFalse()
    ensures StrToBool("False") == Some(false)
  {
    var t := ToLower("False");
    assert t[0] == 'f';
    assert SkipSpaces(t) == t by {
      assert !IsSpace(t[0]);
    }
    assert t[..4][0] != "true"[0];
  }

  /** Two spellings that differ only in letter case read the same. */
  lemma StrToBoolIgnoresCase(s: string, t: string)
    requires EqualsIgnoreCase(s, t)
    ensures StrToBool(s) == StrToBool(t)
  {
  }

  // ---------------------------------------------------------------------------
  // random_string

  /**
   `random_string(chars, size)`. The random device is not modelled: `draws` are the
   successive outputs of `uniform_int_distribution(0, chars.size() - 1)`, which is only
   defined for a non-empty `chars`.
   */
  method RandomString(chars: string, size: int, draws: seq<nat>) returns (r: string)
    requires |chars| > 0
    requires size <= |draws|
    requires forall i | 0 <= i < |draws| :: draws[i] < |chars|
    ensures |r| == if size > 0 then size else 0
    ensures forall i | 0 <= i < |r| :: r[i] == chars[draws[i]] && r[i] in chars
  {
    r := [];
    var i := 0;
    while i < size
      invariant 0 <= i <= (if size > 0 then size else 0)
      invariant |r| == i
      invariant forall j | 0 <= j < i :: r[j] == chars[draws[j]]
    {
      r := r + [chars[draws[i]]];
      i := i + 1;
    }
  }

  lemma IndexOfPresent(s: string, c: char)
    requires c in s
    ensures IndexOf(s, c) < |s|
  {
    var k :| 0 <= k < |s| && s[k] == c;
    assert IndexOf(s, c) <= k;
  }

  /** Every string over `chars` is one `random_string` can return: some draws produce it. */
  lemma RandomStringReachesAll(chars: string, target: string)
    requires forall i | 0 <= i < |target| :: target[i] in chars
    ensures exists draws: seq<nat> ::
              && |draws| == |target|
              && (forall i | 0 <= i < |draws| :: draws[i] < |chars|)
              && (forall i | 0 <= i < |target| :: chars[draws[i]] == target[i])
  {
    var draws := seq(|target|, i requires 0 <= i < |target| => IndexOf(chars, target[i]));
    forall i | 0 <= i < |target|
      ensures draws[i] < |chars| && chars[draws[i]] == target[i]
    {
      IndexOfPresent(chars, target[i]);
    }
    assert |draws| == |target|;
  }
}

=== FILE: wrappers.dfy ===
/** Failure-carrying datatypes shared by the rest of the model. */
module Wrappers {

  /** A value that may be absent: a missing header, a missing query key, a failed conversion. */
  datatype Option<+T> = None | Some(value: T) {

    /** Returns the value, or `default` when it is absent. */
    function GetOr(default: T): T {
      match this
      case Some(v) => v
      case None => default
    }
  }

  /** A computation that either produced a value or stopped with a numeric error code. */
  datatype Result<+R> = Ok(value: R) | Err(code: nat)
}
